=== FILE: README.md ===
# Task Tracker core in Dafny

This project models the domain logic of the Task Tracker application. Tasks carry an
id, a title, a status (`pending` or `completed`) and two timestamps. A browser client
keeps them in memory and in `localStorage`, and an Express server stores them.

The model covers these parts:

- title and status validation and duplicate detection, on the client and on the server;
- the decisions the server's task routes make before and after each database call;
- the client's views of the list: the status filter, search, suggestions, the six sort keys and multi-criteria sorting;
- CSV and JSON export and import;
- statistics;
- selection and bulk-operation checks;
- the local task cache;
- error classification, logging and recovery;
- keyboard dispatch;
- the state transitions of the page's handlers;
- the expiring cache and the virtual-scroll window.

Every operation is a pure function or a method over immutable data:

- `seq`, `map` and datatypes for the data;
- strings as `seq<char>`;
- timestamps as integers.

Four kinds of thing the code gets from outside become parameters:

- **Remote calls.** Each REST call is a `Remote<T>` outcome (`Ok(value)` or `Failed(message)`). Each database query on the server is an `Answer<T>` (`Answer(value)`, `SchemaError`, `StoreError`).
- **Storage quota.** Whether the browser accepts a write is a parameter `fits`.
- **The clock.** The current time is a parameter `now`.
- **Locale and date logic.** These are parameters too: `formatDate`, `isToday`, `weekAgo`, `dateMatch`, `parseDate` and `endOfDay`.

Module layout (one module per source file, plus shared helpers):

| module | file | models |
|---|---|---|
| `Wrappers`, `Seqs`, `Text`, `Json`, `Tasks` | wrappers, seqs, text, json, tasks | `Option`/`Remote`; filtering, counting and subsequences; JavaScript `trim`/`toLowerCase`/`split`/`join`/`replace`; parsed JSON values; the `Task` record |
| `Validator` | validator.dfy | frontend/validator.js |
| `Routes` | routes.dfy | backend/routes/taskRoutes.js |
| `Sorting`, `TaskSort` | sorting.dfy, sort.dfy | a stable insertion sort standing for `Array.prototype.sort`; frontend/sort.js |
| `Search` | search.dfy | frontend/search.js |
| `Csv`, `ExportImport` | csv.dfy, exportimport.dfy | frontend/exportImport.js |
| `Stats` | stats.dfy | frontend/stats.js |
| `Bulk` | bulk.dfy | frontend/bulkOperations.js |
| `Storage` | storage.dfy | frontend/storage.js |
| `Errors` | errors.dfy | frontend/errorHandler.js |
| `Keyboard` | keyboard.dfy | frontend/keyboard.js |
| `App` | app.dfy | frontend/main.js |
| `Performance` | performance.dfy | frontend/performance.js |

Behaviour worth noting:

- `checkDuplicateTitle` reports only whether a duplicate exists, with no id of the clashing task.
- Editing a title is not optimistic. The list changes only after the server answers.
- Toggling an unknown id is a silent no-op, not a "not found" error. The toggle sends the flip of the status the caller passed in.
- Deleting an unknown id filters nothing out and still sends the delete.
- A failed create leaves the list unchanged and does not re-fetch.
- The sort keys that group by status are `completed` and `pending`.
- A bulk operation is refused only when every selected task already has the target status. It is also refused when nothing is selected.
- The "has a letter or digit" rule accepts ASCII letters and digits only.

## Model

| member | source | states |
|---|---|---|
| Validator.ValidateTaskTitle | frontend/validator.js:9-47 | a title is accepted exactly when it is present and its trimmed form has 3 to 200 characters with an ASCII letter or digit; the accepted title is the trimmed input |
| Validator.TitleErrorOrder | frontend/validator.js:13-44 | each of the five errors is returned exactly when its check is the first one to fail, in the order required, blank, too short, too long, no letter or digit; the empty string counts as missing |
| Validator.NonAsciiLettersRejected | frontend/validator.js:39-44 | a title of the right length made only of non-ASCII characters is rejected for having no letter or digit |
| Validator.ValidatedTitleIsFixpoint | frontend/validator.js:18-46 | validating an accepted title's trimmed form accepts it again with the same trimmed title |
| Validator.ValidateTaskStatus | frontend/validator.js:50-65 | exactly `pending` and `completed` are accepted; a missing or empty status is "required", and any other value is "invalid" |
| Validator.CheckDuplicateTitle | frontend/validator.js:68-82 | a duplicate is reported exactly when some existing task's trimmed, lower-cased title equals the input's, and only then is there a message |
| Validator.DuplicateIgnoresCaseAndPadding | frontend/validator.js:68-72 | lower-casing the input and padding it with white space do not change the duplicate verdict |
| Validator.EscapeHtml | frontend/validator.js:85-94 | no `<`, `>`, `"`, `'` or `/` is left in the escaped text |
| Validator.ReplaceChainEscapes | frontend/validator.js:88-93 | the five `replace` calls applied in sequence equal the character-by-character entity mapping, so `&` and already escaped text pass through unchanged |
| Validator.SanitizeInput | frontend/validator.js:85-94 | non-string values come back unchanged; strings come back HTML-escaped |
| Routes.ValidateTaskTitle | backend/routes/taskRoutes.js:10-43 | a missing or falsy title is "required"; a non-string title makes the handler throw |
| Routes.ServerAgreesWithClient | backend/routes/taskRoutes.js:10-43 | for every string or missing title, the server's verdict, message and trimmed title equal the client validator's |
| Routes.GetAll | backend/routes/taskRoutes.js:46-65 | one query for all tasks; 200 with the count and the list, or 500 on a store failure |
| Routes.GetById | backend/routes/taskRoutes.js:68-102 | a malformed id is 400 with no query; otherwise one lookup, then 404 for an absent task and 200 with the task when found |
| Routes.Post | backend/routes/taskRoutes.js:105-164 | an invalid title is 400 with the first error and no query, and a non-string title is 500 with no query; for a valid title, a found duplicate is 409 with the clashing task's id after the duplicate query alone, and no duplicate plus a stored record is 201 "Task created successfully" with that record after the duplicate query and a pending create of the trimmed title; 201 comes only this way |
| Routes.Put | backend/routes/taskRoutes.js:167-276 | a malformed id is 400 with no query; otherwise the first query is the lookup by id; a valid id with no stored task is 404 "Task not found" after that lookup alone; a valid new title that another task already has is 409 with that task's id after the lookup and the duplicate query, with no save |
| Routes.Delete | backend/routes/taskRoutes.js:279-313 | a malformed id is 400 with no query; otherwise one delete-by-id query; 404 when nothing was deleted and 200 exactly when a task was |
| Routes.FilterByStatus | backend/routes/taskRoutes.js:316-345 | a status other than the two values is 400 and sends no query; a valid status queries by that status and returns the matches |
| Routes.MalformedIdNeverReachesStore | backend/routes/taskRoutes.js:73-78 | for an id that is not 24 hexadecimal digits, GET, PUT and DELETE all answer 400 without any database query (also lines 173-178 and 284-289) |
| Routes.CreateStoresTrimmedPendingTitle | backend/routes/taskRoutes.js:110-137 | a successful create had an acceptable title and no duplicate, and stored the trimmed title as a pending task |
| Routes.PutTitleErrorBeforeStatusError | backend/routes/taskRoutes.js:194-233 | an invalid title is reported with its own error even when the status is also invalid |
| Routes.PutRejectsInvalidStatus | backend/routes/taskRoutes.js:194-233 | with no title or an acceptable title that is not a duplicate, a status other than the two values is answered 400 with the invalid-status message |
| Routes.PutRejectsDuplicateTitle | backend/routes/taskRoutes.js:194-219 | renaming a task to a title another task has is answered 409 with that task's id, whatever the status field holds, and nothing is saved |
| Routes.PutSavesTrimmedTitle | backend/routes/taskRoutes.js:194-257 | an acceptable new title with no duplicate is saved trimmed, after the lookup and the duplicate query that excludes the task's own id, and answered 200 with the task and its new update time |
| Routes.PutDuplicateQueryOnlyOnRealChange | backend/routes/taskRoutes.js:205-219 | the duplicate query runs exactly when the trimmed title differs from the stored one, and it excludes the task's own id |
| Routes.PutWithoutChangesDoesNotSave | backend/routes/taskRoutes.js:235-248 | resending the stored title and status answers 200 "No changes made" and does not save |
| Routes.PutSavesChangedStatus | backend/routes/taskRoutes.js:235-257 | a new valid status is saved with the new update time and answered 200 with the updated task |
| Sorting.Sort | frontend/sort.js:20-24 | the sorted sequence has the same length and the same elements (as a multiset) as the input |
| Sorting.SortSorted | frontend/sort.js:24-26 | with a comparator that is antisymmetric in sign and transitive, the result is ordered by it |
| Sorting.SortStable | frontend/sort.js:24-55 | elements that compare equal to any key keep their input order, as with `Array.prototype.sort` |
| Sorting.SortAllTiedIsIdentity | frontend/sort.js:76-95 | when every pair ties, as with no criteria, sorting returns the input unchanged |
| Sorting.CompareStringsValid | frontend/sort.js:35 | the string order standing for `localeCompare` is a valid comparator |
| TaskSort.SortTasks | frontend/sort.js:19-59 | the result is a permutation of the input; an unknown key returns the input order |
| TaskSort.DateSortOrders | frontend/sort.js:23-31 | `newest` gives non-increasing and `oldest` non-decreasing creation times, stable among equal times |
| TaskSort.AToZSortOrders | frontend/sort.js:33-36 | `a-z` orders lower-cased titles ascending and keeps tied titles in input order |
| TaskSort.ZToASortOrders | frontend/sort.js:38-41 | `z-a` orders lower-cased titles descending and keeps tied titles in input order |
| TaskSort.GroupSortOrders | frontend/sort.js:43-55 | `completed` puts every completed task before every other, newest first within each group; `pending` is the mirror |
| TaskSort.MultiSort | frontend/sort.js:75-97 | the result is a permutation of the input |
| TaskSort.FirstDifferingCriterionDecides | frontend/sort.js:77-93 | the first criterion on which two tasks differ decides, negated for a descending criterion |
| TaskSort.NoDifferingCriterionTies | frontend/sort.js:77-95 | two tasks equal on every criterion field tie |
| TaskSort.CriteriaCompareValid | frontend/sort.js:76-96 | the lexicographic comparison over any criteria list is a valid comparator |
| TaskSort.MultiSortOrders | frontend/sort.js:75-96 | the result is ordered by the criteria and stable; empty criteria keep the input order |
| TaskSort.OptionValues | frontend/sort.js:9-16 | the option list has one entry per sort key, in the same order |
| TaskSort.FindOption | frontend/sort.js:64 | an option is found exactly when one with that value exists, and it is that option |
| TaskSort.GetSortLabel | frontend/sort.js:63-66 | a known key gets its own option's label; any other value gets "Sort By" |
| TaskSort.GetSortIcon | frontend/sort.js:69-72 | a known key gets its own option's icon; any other value gets the default icon |
| TaskSort.SortKeysHaveOptions | frontend/sort.js:63-72 | a value has an option exactly when it is a sort key, and gets the default label exactly when it is not |
| Search.SearchTasks | frontend/search.js:9-32 | a blank query returns the list unchanged; otherwise a task is kept exactly when its lower-cased title or status contains the trimmed, lower-cased query or the date predicate matches |
| Search.SearchIsSubsequence | frontend/search.js:16-31 | search results keep the input's order and never add tasks |
| Search.SearchIgnoresQueryCase | frontend/search.js:14 | lower-casing the query or padding it with spaces does not change the results |
| Search.IsSearchActive | frontend/search.js:101-103 | search is active exactly when the query has a non-white-space character |
| Search.EscapeRegex | frontend/search.js:47-49 | the escaped text is longer by exactly the number of special characters |
| Search.EscapeRegexRoundTrip | frontend/search.js:47-49 | removing the inserted backslashes gives back the original text |
| Search.EscapeRegexPlain | frontend/search.js:48 | text without special characters is left unchanged |
| Search.Dedup | frontend/search.js:58-68 | the result has no repeats and the same members as the input |
| Search.GetSearchSuggestions | frontend/search.js:52-69 | a blank query gives none; otherwise the first five distinct matching titles in first-occurrence order |
| Search.SuggestionsProperties | frontend/search.js:57-68 | at most five distinct suggestions, each an existing title containing the term; all matches are shown when there are at most five |
| Search.MatchingTitlesSound | frontend/search.js:61-65 | a title is a candidate exactly when some task has it and its lower-cased form contains the term |
| Search.AdvancedSearch | frontend/search.js:72-98 | the result keeps the input's order and adds nothing; with no criterion switched on it is the whole list |
| Search.AdvancedSearchIsSubsequence | frontend/search.js:72-98 | advanced search results keep the input's order and never add tasks |
| Search.QueryStepMembers | frontend/search.js:76-78 | the query step keeps exactly the tasks matching a given query, or all tasks without one |
| Search.AdvancedSearchSelects | frontend/search.js:72-98 | a task is kept exactly when it passes every criterion given; status `all` or no status applies no status filter |
| Csv.EscapeCsvValue | frontend/exportImport.js:215-220 | text without comma, quote or line break is unchanged; otherwise it is enclosed in quotes |
| Csv.ParseCsvLine | frontend/exportImport.js:223-248 | a line always gives at least one field |
| Csv.ParseCsvLineFieldCount | frontend/exportImport.js:223-247 | the number of fields is one more than the number of commas outside quotes |
| Csv.ParseFromKeepsFields | frontend/exportImport.js:238-240 | fields already completed are never changed by the rest of the line |
| Csv.DoubledQuoteInsideQuotes | frontend/exportImport.js:231-234 | inside quotes a doubled quote adds one quote character to the field and stays quoted |
| Csv.EscapedFieldThenComma | frontend/exportImport.js:215-240 | an escaped value followed by a comma is read back as exactly that value |
| Csv.EscapeParseRoundTrip | frontend/exportImport.js:215-248 | parsing an escaped value gives the one-field list holding the value, for every string |
| Csv.EscapeWellQuoted | frontend/exportImport.js:215-220 | every line break an escaped value contains sits inside quotes, and the quotes are balanced |
| Csv.SplitRecordsJoin | frontend/exportImport.js:159 | a quote-aware record splitter recovers records joined by line breaks, even when a record holds a quoted line break |
| ExportImport.ExportCsv | frontend/exportImport.js:33-50 | the export is the header line alone for no tasks, and otherwise starts with the header line and a line break |
| ExportImport.CsvRows | frontend/exportImport.js:39-44 | one row per task, in order |
| ExportImport.ParseExportedRow | frontend/exportImport.js:39-44 | parsing an exported row gives the task's title first and its status second |
| ExportImport.ParseTwoFields | frontend/exportImport.js:172-176 | the first two fields of an escaped title, a plain status and any rest are the title and the status |
| ExportImport.ImportCsv | frontend/exportImport.js:156-198 | fewer than two non-blank lines is rejected as empty; otherwise the import succeeds exactly when some line after the header passes the checks, and fails with "No valid tasks found in CSV" when none does; an accepted import holds only rows that pass the checks |
| ExportImport.ImportRowsAreAcceptedTasks | frontend/exportImport.js:171-187 | the imported tasks are the accepted rows' tasks, one each and in the rows' order, and nothing else |
| ExportImport.ImportRowsSelects | frontend/exportImport.js:171-187 | the imported tasks are the accepted rows' tasks in order; there are as many as accepted rows, and each accepted row's task is among them |
| ExportImport.ExportedRowsAccepted | frontend/exportImport.js:171-187 | every exported row of an importable task is accepted and gives back its title and status |
| ExportImport.CsvRowSolid | frontend/exportImport.js:39-50 | a row of a task without line breaks has no line break and is not blank |
| ExportImport.HeaderSolid | frontend/exportImport.js:36-48 | the header line has no line break or quote and is not blank |
| ExportImport.ExportImportRoundTrip | frontend/exportImport.js:39-192 | importing the export of titles without line breaks gives back every title and status, in order |
| ExportImport.TitleWithLineBreakIsLost | frontend/exportImport.js:159 | a task whose title contains a line break is exported, and the import of that export is rejected with "No valid tasks found in CSV" |
| ExportImport.NewlineTitleIsLost | frontend/exportImport.js:159-190 | the valid title "a\nb" does not survive export then import |
| ExportImport.ImportCsvRecords | frontend/exportImport.js:152-198 | the import with quote-aware record splitting rejects fewer than two records; otherwise it succeeds exactly when some record after the header passes the checks, fails with "No valid tasks found in CSV" when none does, and keeps only rows that pass |
| ExportImport.SomeRowAccepted | frontend/exportImport.js:167-192 | past the header line, the import yields a task exactly when some data line passes the checks |
| ExportImport.ExportImportRecordsRoundTrip | frontend/exportImport.js:39-192 | with quote-aware splitting, importing an export gives back every title and status, line breaks included |
| ExportImport.NewlineTitleKeptByRecords | frontend/exportImport.js:159-198 | with quote-aware splitting, the title "a\nb" survives export then import |
| ExportImport.ImportJson | frontend/exportImport.js:110-135 | text that does not parse and non-arrays are rejected with their messages; an accepted import keeps valid entries only |
| ExportImport.ImportJsonAcceptsValidEntries | frontend/exportImport.js:119-129 | an array is accepted exactly when some entry has a non-blank string title and a valid status, and the result is those entries in order |
| Stats.CalculateStats | frontend/stats.js:9-21 | total, completed and pending are the counts; progress is 0 for no tasks, otherwise 100·completed/total rounded half up, always within 0 to 100 |
| Stats.RoundPercentBounds | frontend/stats.js:13 | a rounded percentage of a part of a whole lies between 0 and 100 |
| Stats.RoundPercentUnique | frontend/stats.js:13 | the rounding inequalities determine the percentage uniquely |
| Stats.TotalIsCompletedPlusPending | frontend/stats.js:10-12 | when every status is valid, total = completed + pending |
| Stats.ProgressExtremes | frontend/stats.js:13 | all completed gives 100 and none completed gives 0 |
| Stats.TasksCreatedToday | frontend/stats.js:24-33 | exactly the listed tasks created today, in list order |
| Stats.TasksCompletedToday | frontend/stats.js:36-47 | exactly the listed tasks that are completed and were updated today, in list order |
| Stats.CompletedTodayAtMostCompleted | frontend/stats.js:36-47 | tasks completed today never outnumber completed tasks |
| Stats.ProductivityScore | frontend/stats.js:50-65 | 0 for no tasks; otherwise the progress plus five per task completed today, capped at 100; so at least the progress, and equal to it exactly when nothing was completed today or progress is already 100 |
| Stats.CompletionTrend | frontend/stats.js:68-84 | a trend other than stable needs a task created within the week, and an increasing one a completed such task |
| Stats.CompletionTrendByRate | frontend/stats.js:68-84 | no task in the window is stable; a rate of at least 70% is increasing, at most 30% is decreasing, and anything between is stable |
| Stats.CompletionTrendExtremes | frontend/stats.js:76-83 | a window of only completed tasks is increasing, and one with none completed is decreasing |
| Stats.ProgressColor | frontend/stats.js:87-92 | green from 80, yellow from 50, orange from 25, red below, each band exactly |
| Stats.MotivationalMessage | frontend/stats.js:95-112 | each message is chosen exactly when its condition is the first to hold: 100 with a completed task, 80, 50, 25, pending work, otherwise the default |
| Stats.PerfectMessageWithPendingTask | frontend/stats.js:96-98 | 199 of 200 tasks done rounds to 100, and "Perfect! All tasks completed!" is shown with a task still pending |
| Stats.OnePendingRoundsToHundred | frontend/stats.js:13 | with at least 200 tasks and one pending, progress is 100 |
| Stats.MotivationalMessageByCounts | frontend/stats.js:95-112 | the corrected choice shows the perfect message exactly when nothing is pending and something is completed |
| Stats.PerfectMessageMeansAllCompleted | frontend/stats.js:95-112 | with valid statuses, the corrected choice shows the perfect message exactly when the list is non-empty and every task is completed, and the code as written shows it then too |
| Bulk.Select | frontend/bulkOperations.js:12-15 | the selection gains the id, keeps its order and stays free of repeats |
| Bulk.Deselect | frontend/bulkOperations.js:18-21 | the selection loses exactly the id and shrinks by one when it held it |
| Bulk.DeselectKeepsOrder | frontend/bulkOperations.js:18-21 | deselecting keeps the remaining ids in order |
| Bulk.Toggle | frontend/bulkOperations.js:24-30 | the id's membership flips and every other id keeps its membership |
| Bulk.ToggleTwice | frontend/bulkOperations.js:24-30 | toggling twice restores the selected set, and the exact order when the id was not selected |
| Bulk.SelectAll | frontend/bulkOperations.js:33-36 | the selection becomes the union of the old selection and the ids, with the old order as prefix |
| Bulk.DeselectAll | frontend/bulkOperations.js:39-42 | nothing is selected |
| Bulk.SelectedCountIsSetSize | frontend/bulkOperations.js:50-57 | the selected count equals the size of the selected set, and each selected id is listed once |
| Bulk.SelectAllCheckbox | frontend/bulkOperations.js:85-102 | never both checked and indeterminate; checked exactly when everything visible is selected, indeterminate exactly when some but not all are |
| Bulk.SelectedTasks | frontend/bulkOperations.js:118 | exactly the listed tasks whose id is selected, in list order |
| Bulk.ValidateBulkOperation | frontend/bulkOperations.js:106-145 | valid exactly when the message is empty; an empty selection is refused; other operations pass; `complete`/`pending` are refused when the selected count already in the target equals the selection size, with "All selected tasks are already completed" or "... pending" |
| Bulk.SelectedTasksCount | frontend/bulkOperations.js:118 | when ids are unique and every selected id is listed, the selected tasks number the selection size |
| Bulk.RejectedIffAllAlreadyInTarget | frontend/bulkOperations.js:117-139 | with a consistent selection, the operation is refused exactly when every selected task already has the target status |
| Bulk.StaleSelectionIsAccepted | frontend/bulkOperations.js:117-126 | a selection holding an id no longer listed is not refused, even when all listed selected tasks are completed |
| Bulk.TaskWord | frontend/bulkOperations.js:149 | "task" exactly for a count of 1, "tasks" otherwise |
| Bulk.ConfirmationSingular | frontend/bulkOperations.js:152-153 | one task to complete reads "Mark 1 task as completed?" |
| Bulk.ConfirmationPlural | frontend/bulkOperations.js:154-155 | two tasks to reopen read "Mark 2 tasks as pending?" |
| Bulk.ConfirmationMessage | frontend/bulkOperations.js:148-160 | the question for completing, reopening, deleting or any other operation, with the count and "task" only for one |
| Bulk.ConfirmationNamesCount | frontend/bulkOperations.js:148-160 | for any one operation, different task counts give different questions, so the question names the count |
| Storage.GetTasks | frontend/storage.js:22-30 | a missing, empty or unparseable entry reads as the empty list; a saved list reads back; only a non-array value is not a list |
| Storage.SaveTasks | frontend/storage.js:11-19 | an accepted write stores the list and answers true; a refused one changes nothing and answers false |
| Storage.ClearTasks | frontend/storage.js:33-41 | the task key is gone and every other key is unchanged |
| Storage.AddTask | frontend/storage.js:44-53 | no other key changes; with a stored list the answer is whether the list with the task appended fits; a non-array entry refuses the add |
| Storage.Merge | frontend/storage.js:62 | fields in the update win and absent fields keep their value; an empty update changes nothing |
| Storage.UpdateTask | frontend/storage.js:56-71 | no other key changes; for a stored id the answer is whether the list with the first match merged fits; an absent id or a non-array entry answers false without writing |
| Storage.DeleteTask | frontend/storage.js:74-83 | no other key changes; with a stored list the answer is whether the list without the id fits; a non-array entry refuses the delete |
| Storage.SaveThenGet | frontend/storage.js:11-30 | what was saved is read back |
| Storage.ClearThenGet | frontend/storage.js:22-41 | after clearing, the cache reads as empty |
| Storage.AddAppends | frontend/storage.js:44-49 | an add succeeds exactly when the longer list fits; it then reads back as the old list followed by the task, and otherwise changes nothing |
| Storage.UpdateChangesFirstMatchOnly | frontend/storage.js:56-70 | an update succeeds exactly when the id is stored and the updated list fits; it then merges into the first task with the id, keeping the length and every other position, and otherwise changes nothing |
| Storage.DeleteRemovesEveryMatch | frontend/storage.js:74-78 | a delete succeeds exactly when the filtered list fits; it then keeps, in order, exactly the tasks with another id, and otherwise changes nothing |
| Errors.ClassifyError | frontend/errorHandler.js:47-69 | a missing error is unknown; otherwise network words win over validation words, then status 500 or more or "server", then storage words |
| Errors.ClassifyIgnoresCase | frontend/errorHandler.js:50 | lower-casing the message does not change the class |
| Errors.NetworkWordWins | frontend/errorHandler.js:52-54 | a message containing "fetch" is a network error whatever the status |
| Errors.ServerStatusWins | frontend/errorHandler.js:60-62 | a status of 500 or more without network or validation words is a server error |
| Errors.MessageFor | frontend/errorHandler.js:75-81 | every class has a non-empty message |
| Errors.MessagesDistinct | frontend/errorHandler.js:75-83 | two classes share a message exactly when they are the same class |
| Errors.UserMessage | frontend/errorHandler.js:72-84 | the message is never empty, and it is the generic one exactly for unknown errors |
| Errors.LogError | frontend/errorHandler.js:24-44 | a missing error throws; otherwise the new entry carries the given timestamp, its class, the error's message or "Unknown error" when that is missing or empty, and its stack or "No stack trace available"; it is appended last and the oldest is dropped past the limit |
| Errors.Capped | frontend/errorHandler.js:36-38 | past the limit exactly one entry is dropped, from the front |
| Errors.LogStaysBounded | frontend/errorHandler.js:33-38 | a log within 50 entries stays within 50 and ends with the new entry |
| Errors.ErrorReport | frontend/errorHandler.js:234-245 | total is the log length, each class count is its number of entries, recent errors are the last ten, and oldest/newest are the ends |
| Errors.TypeCountsSumToTotal | frontend/errorHandler.js:237-240 | the five class counts add up to the log length |
| Errors.ReportCountsSumToTotal | frontend/errorHandler.js:234-240 | the report's counts by class add up to its total |
| Errors.ClearErrorLog | frontend/errorHandler.js:248-250 | after clearing, the report is empty |
| Errors.FirstSuccess | frontend/errorHandler.js:92-102 | the index found is the first strategy outcome that succeeded; none is found only when none succeeded |
| Errors.HandleError | frontend/errorHandler.js:87-110 | a missing error is rejected; otherwise it is logged, and the data of the first successful strategy is returned, or the user message when none succeeds |
| Errors.RetryWithBackoff | frontend/errorHandler.js:115-139 | no operation fails at once; at most `maxRetries` attempts, the i-th waiting `initialDelay`·2^i; success returns the first successful attempt's data |
| Errors.UseCachedData | frontend/errorHandler.js:142-161 | recovery succeeds exactly when a cache key is given and the cache holds a non-empty list, and returns that list |
| Errors.EmptyCacheIsNoRecovery | frontend/errorHandler.js:151-154 | an empty cached list is not a recovery |
| Errors.ClearCorruptedStorage | frontend/errorHandler.js:164-179 | with storage available, the task key is removed and the strategy succeeds with an empty list |
| Keyboard.IsInputFocused | frontend/keyboard.js:37 | a text field is exactly a target whose tag name is one of "INPUT" and "TEXTAREA" |
| Keyboard.ActionFor | frontend/keyboard.js:39-100 | Escape selects "escape" and is the only key that does; it is the only key acting in a text field; with no modifier outside one, only Escape, "/" and Delete act |
| Keyboard.HandleKeyPress | frontend/keyboard.js:35-101 | the default is prevented exactly when an action runs; Escape always runs "escape"; inside a text field nothing else runs; "/" outside one runs "search" |
| Keyboard.CtrlShortcutsIgnoreCase | frontend/keyboard.js:59-84 | Ctrl with a capital letter runs the same action as with the small letter |
| Keyboard.ShortcutTableIsDispatched | frontend/keyboard.js:9-100 | every row of the shortcut table, pressed outside a text field, runs its own action |
| Keyboard.ExecuteAction | frontend/keyboard.js:104-108 | the callback runs exactly when one is registered under the action's name and is a function |
| Keyboard.CallbacksIndependent | frontend/keyboard.js:104-108 | registering a callback under one action's name decides whether that action runs and leaves every other action unchanged |
| Keyboard.ShortcutString | frontend/keyboard.js:111-121 | a shortcut prints as its modifiers then the upper-cased key, joined by " + " |
| Keyboard.ShortcutStringOrder | frontend/keyboard.js:111-121 | modifiers print in the order Ctrl, Alt, Shift |
| Keyboard.ShortcutStringsOfTable | frontend/keyboard.js:111-121 | the table's shortcuts print as "Ctrl + N", "DELETE" and "Alt + 1" |
| App.Init | frontend/main.js:25-59 | a successful fetch shows and caches the server list and goes online; a failed fetch shows the cached list offline, and halts when the cache holds a non-array |
| App.InitOfflineWithoutCache | frontend/main.js:47-55 | with no usable cache, a failed fetch starts offline with an empty list |
| App.InitFallsBackToLastFetch | frontend/main.js:31-55 | after a successful start, a later failed start shows the list the earlier one fetched |
| App.AddTask | frontend/main.js:146-210 | an invalid or duplicate title makes no call and changes nothing; a create sends the trimmed title; success puts the server task first and caches the list; failure changes nothing and shows the server's message, or "Failed to add task. Please try again." when it is empty |
| App.AddTaskSendsIff | frontend/main.js:150-178 | a create is sent exactly when the title is acceptable and not a duplicate |
| App.AddTaskTwiceIsRefused | frontend/main.js:161-169 | after a successful add, adding the same title again, in any case, sends nothing |
| App.ToggleStatus | frontend/main.js:213-250 | an unknown id does nothing; otherwise the update sends the flip of the status passed in, and success stores the server task at that index |
| App.ToggleFailureRollsBack | frontend/main.js:236-241 | a failed update leaves tasks and cache exactly as before |
| App.ToggleSendsCallersFlip | frontend/main.js:215 | a completed status sends pending and a pending one sends completed |
| App.OtherTasks | frontend/main.js:299 | exactly the tasks with another id |
| App.SaveEdit | frontend/main.js:276-343 | no call or failure changes nothing; a failed update shows "Failed to update task"; a sent update carries the trimmed title, and success stores the server task |
| App.SaveEditSendsIff | frontend/main.js:280-315 | an update is sent exactly when the trimmed title is acceptable, changed, and not a duplicate among the other tasks |
| App.EditMayRecaseOwnTitle | frontend/main.js:298-300 | a task may be renamed to a new spelling of its own title, since the duplicate check skips the task itself |
| App.DeleteTask | frontend/main.js:370-410 | a declined confirm does nothing; otherwise the delete is sent, a failure reloads the list, and a successful reload replaces the tasks |
| App.DeleteRemovesTask | frontend/main.js:384-386 | unless a reload replaced the list, no task with the id remains, the rest keep their order, and the list shrinks when the id was present |
| App.VisibleTasks | frontend/main.js:413-421 | `pending`/`completed` show exactly the tasks with that status; any other filter shows all tasks |
| App.VisibleViewsPartition | frontend/main.js:417-421 | with valid statuses, the pending and completed views split the list, each in its order |
| App.Capitalize | frontend/main.js:543 | the first character is upper-cased and the rest is unchanged |
| App.TaskCountText | frontend/main.js:537-552 | `all` shows the total with "task" or "tasks"; other filters show the filtered count with the capitalised filter, plus " of" the total when they differ |
| App.CountTextNamesTotalIffSomeHidden | frontend/main.js:543-548 | the count text names the total exactly when the filter hides some task |
| App.CountTextAllExamples | frontend/main.js:540-541 | "1 task" and "0 tasks" |
| App.CountTextPendingExample | frontend/main.js:542-548 | "2 Pending of 5" |
| App.CountTextCompletedExample | frontend/main.js:542-548 | "3 Completed" |
| Performance.FloorDivBounds | frontend/performance.js:110 | `Math.floor(a / b)` brackets `a` between consecutive multiples of `b` |
| Performance.CeilDiv | frontend/performance.js:105 | `Math.ceil(a / b)`·b is the least multiple of `b` at or above `a` |
| Performance.Range | frontend/performance.js:117 | the consecutive indices from the start to the end |
| Performance.Render | frontend/performance.js:109-121 | the first row drawn contains the scroll offset; the end never passes the list; at most the visible count is drawn; the paddings stand for the rows above and below |
| Performance.RenderKeepsHeight | frontend/performance.js:114-115 | the paddings and the drawn rows add up to the list's full height |
| Performance.RenderCoversViewport | frontend/performance.js:105-120 | every item showing, even partly, in the viewport is drawn |
| Performance.CacheKey | frontend/performance.js:198 | every cache entry's storage key starts with "cache_" |
| Performance.CacheSet | frontend/performance.js:192-202 | an accepted write stores the value expiring `minutes` later; a refused one changes nothing and does not throw |
| Performance.CacheGet | frontend/performance.js:204-221 | a value is returned exactly for a present, unexpired entry; an expired entry is removed; nothing else changes |
| Performance.CacheClear | frontend/performance.js:223-234 | a key removes only that entry; no key removes exactly the "cache_" keys; nothing is added or changed |
| Performance.SetThenGet | frontend/performance.js:192-216 | a value set is read back until it expires |
| Performance.SetThenGetExpired | frontend/performance.js:204-214 | after expiry the value reads as missing and is gone from the store |
| Performance.ClearAllKeepsForeignKeys | frontend/performance.js:227-232 | clearing everything keeps the task cache and every other key without the prefix |
| Tasks.Flip | frontend/main.js:215 | the flip is a valid status, and it is pending exactly when the input was completed |
| Tasks.FindIndex | frontend/main.js:218 | the index of the first task with the id, or -1 exactly when none has it |
| Text.TrimEmptyIffAllSpace | frontend/validator.js:19-25 | the trimmed text is empty exactly when the text is all white space |
| Text.TrimPadded | frontend/validator.js:69-71 | trimming ignores white space added on either side |
| Text.TrimLowerCommute | frontend/validator.js:69 | trimming and lower-casing can be done in either order |
| Text.SplitJoin | frontend/exportImport.js:47-50 | splitting a join by a separator absent from the parts gives back the parts |
| Seqs.FilterIsSubsequence | frontend/search.js:16 | filtering keeps the input's order and adds nothing |

## Left out

- Numbers: floating-point arithmetic is exact rational arithmetic. `Math.round` is stated by its bounds. The percentage thresholds compare exact ratios. Doubles can round differently at exact halves: 23 completed of 40 gives 57 in JavaScript, because `(23 / 40) * 100` is 57.49999999999999, but 58 in the model.
- Strings: `trim` uses the JavaScript white-space set. Case mapping is ASCII only. Lengths count characters, not UTF-16 code units.
- Ordering: `localeCompare` is a code-point order on lower-cased titles. `multiSort`'s `status` criterion calls `localeCompare` on the status as stored, and the model compares it in code-point order without lower-casing (`TaskSort.FieldCompare`).
- Dates: locale date formatting (`toLocaleString`) is the parameter `formatDate`. Day and week boundaries are the parameters `isToday`, `weekAgo` and `endOfDay`. Search's date matching is the parameter `dateMatch`. The date parser is `parseDate`. Invalid date strings are not modelled: in the code a date that parses to NaN drops every task from the range filter (frontend/search.js:86-96).
- Database queries: their results are oracle answers. The duplicate query builds an unescaped regular expression from the title (backend/routes/taskRoutes.js:122, 210). Its answer is a parameter, and regular-expression semantics are not modelled.
- Rendering and timing: the DOM, toasts, focus handling, the loading spinner, `createTaskElement`, `highlightSearchTerm`, the help dialog (`generateHelpHTML`, `showHelp`) and keyboard setup are not modelled. Neither are `debounce`, `throttle`, lazy loading and animation, or `createErrorBoundary`, `displayError` and `exportErrorLog`. They have no logic beyond display or timers.
- Downloads: `exportToJSON`, `exportToText`, `generateFilename` and file reading only produce downloads or read files.
- Concurrency: the `isSaving` guard, indices captured before an `await`, and the reloads on `online`/`offline` events depend on interleaving. Each handler is modelled as one uninterrupted step.
- The filter buttons only set the filter that `App.VisibleTasks` reads.
- Bulk operations: applying a bulk operation to the server is not part of the core files.
- Error log: the `context` argument of `logError` is dropped. The timestamp is a parameter.
- Errors.UseCachedData: a cached non-array JSON value with a positive `length` (a string, say) recovers in the code (frontend/errorHandler.js:150-152) but not in the model, because the cache abstraction keeps no non-array values.
- Storage: stored JSON is abstracted to a saved list, the empty string, unparseable text, or a non-array value. JSON round-trip fidelity is taken as given. A failing `removeItem` in `clearTasks` is not modelled.
- Performance cache: an entry is a value with an expiry time. An entry without an expiry field is not modelled.
- App.Init: a cache holding a non-array value halts start-up, which lumps together every non-array JSON value.
- ExportImport.TitleWithLineBreakIsLost: covers titles with one line break, no quotes and no comma after the break. `ExportImport.NewlineTitleIsLost` is the concrete instance.
- Other files: frontend/api.js, backend/server.js, backend/config/database.js and backend/models/Task.js are not part of this model. Their calls are the `Remote` and `Answer` parameters, and the schema gives only the shape of `Task`.

## Findings

| source | as written | input that shows it | evidently intended | confidence | as-written member | corrected member |
|---|---|---|---|---|---|---|
| frontend/exportImport.js:159 | the CSV import splits the file on every line break before parsing fields, but `escapeCsvValue` (lines 215-220) keeps a line break inside a quoted title | a task titled "a\nb", which the validator accepts: its export imports as "No valid tasks found in CSV" | records split only at line breaks outside quotes, so an exported title reads back whole | medium, not executed | ExportImport.NewlineTitleIsLost, ExportImport.TitleWithLineBreakIsLost | ExportImport.ImportCsvRecords, ExportImport.ExportImportRecordsRoundTrip, ExportImport.NewlineTitleKeptByRecords |
| frontend/stats.js:96 | the "Perfect! All tasks completed!" message is chosen when the rounded progress equals 100 | 200 tasks with 199 completed: progress rounds 99.5 to 100, and the message shows with one task pending | the perfect message only when no task is pending | medium, not executed | Stats.PerfectMessageWithPendingTask, Stats.OnePendingRoundsToHundred | Stats.MotivationalMessageByCounts, Stats.PerfectMessageMeansAllCompleted |

=== FILE: app.dfy ===
/**
 * The application state of frontend/main.js and how its handlers change it.
 * The DOM, toasts and focus handling are left aside; what a handler does is
 * a function of the state before it, the user's input and what each remote
 * call came back with (`Remote`, given as a parameter). Whether the browser
 * accepts a cache write is the parameter `fits`, as in the `Storage` model.
 */
module App {
  import opened Wrappers
  import opened Text
  import opened Seqs
  import opened Tasks
  import opened Validator
  import Storage

  /** The module-level `tasks`, `currentFilter` and `isOnline`, with the
      browser store the cache writes to. */
  datatype State = State(tasks: seq<Task>, filter: string, online: bool, store: Storage.Store)

  /** A request a handler sends to the server. */
  datatype Call = GetAll | Create(title: string) | Update(id: string, patch: Storage.Patch) | Delete(id: string)

  /** The state after a handler, the requests it sent in order, and the
      message it showed in the error banner, if any. */
  datatype Step = Step(state: State, calls: seq<Call>, error: Option<string>)

  /** `saveTasks` on the state's store; a refused write changes nothing. */
  function Save(s: State, tasks: seq<Task>, fits: seq<Task> -> bool): Storage.Store {
    Storage.SaveTasks(s.store, tasks, fits).store
  }

  /** The cache holds exactly `tasks`, unless the browser refused the write. */
  predicate Cached(store: Storage.Store, before: Storage.Store, tasks: seq<Task>, fits: seq<Task> -> bool) {
    if fits(tasks) then Storage.GetTasks(store) == Storage.Tasks(tasks) else store == before
  }

  // ---------------------------------------------------------------- init

  /** How start-up ends: running, or stopped by a cached value that is not a
      list (the fallback render then throws before the listeners are set). */
  datatype Boot = Running(state: State) | Halted

  /** `init()`: the server list when the fetch succeeds, written to the cache;
      otherwise the cached list, offline. */
  function Init(store: Storage.Store, fetched: Remote<seq<Task>>, fits: seq<Task> -> bool): (b: Boot)
    ensures fetched.Ok? ==>
      (b.Running? && b.state.tasks == fetched.value && b.state.online && Cached(b.state.store, store, fetched.value, fits))
    ensures fetched.Failed? ==> (b.Running? <==> Storage.GetTasks(store).Tasks?)
    ensures fetched.Failed? && b.Running? ==>
      b.state.tasks == Storage.GetTasks(store).tasks && !b.state.online && b.state.store == store
    ensures b.Running? ==> b.state.filter == "all"
  {
    match fetched
    case Ok(list) => Running(State(list, "all", true, Storage.SaveTasks(store, list, fits).store))
    case Failed(_) =>
      match Storage.GetTasks(store)
      case Tasks(ts) => Running(State(ts, "all", false, store))
      case NotAList => Halted
  }

  /** Offline start-up with nothing cached, or with an empty or unreadable
      cache entry, shows no tasks. */
  lemma InitOfflineWithoutCache(store: Storage.Store, message: string, fits: seq<Task> -> bool)
    requires Storage.StorageKey !in store ||
      store[Storage.StorageKey].Blank? || store[Storage.StorageKey].Unparseable?
    ensures Init(store, Failed(message), fits) == Running(State([], "all", false, store))
  {
  }

  /** Going online and then offline again at the next start shows the same
      tasks, when the cache write was accepted. */
  lemma InitFallsBackToLastFetch(store: Storage.Store, list: seq<Task>, message: string, fits: seq<Task> -> bool)
    requires fits(list)
    ensures var first := Init(store, Ok(list), fits);
      Init(first.state.store, Failed(message), fits).state.tasks == list
  {
  }

  // ---------------------------------------------------------------- add

  const AddFailedMessage: string := "Failed to add task. Please try again."

  /** `handleAddTask()` with `input` the text field's value. */
  function AddTask(s: State, input: string, created: Remote<Task>, fits: seq<Task> -> bool): (r: Step)
    ensures !ValidateTaskTitle(Some(input)).IsValid() ==>
      r == Step(s, [], Some(TitleMessage(ValidateTaskTitle(Some(input)).error)))
    ensures ValidateTaskTitle(Some(input)).IsValid() && HasDuplicate(Trim(input), s.tasks) ==>
      r == Step(s, [], Some(DuplicateMessage))
    ensures r.calls != [] ==> r.calls == [Create(Trim(input))] && AcceptableTitle(input) && !HasDuplicate(Trim(input), s.tasks)
    ensures r.calls != [] && created.Ok? ==>
      r.state.tasks == [created.value] + s.tasks && r.error == None &&
      Cached(r.state.store, s.store, r.state.tasks, fits)
    ensures created.Failed? ==> r.state == s
    ensures r.calls != [] && created.Failed? ==>
      r.error == Some(if created.message != "" then created.message else AddFailedMessage)
    ensures r.state.filter == s.filter && r.state.online == s.online
  {
    var v := ValidateTaskTitle(Some(input));
    if !v.IsValid() then Step(s, [], Some(v.Errors()[0]))
    else
      var title := v.trimmedTitle;
      var dup := CheckDuplicateTitle(title, s.tasks);
      if dup.isDuplicate then Step(s, [], dup.message)
      else match created
        case Ok(t) =>
          var tasks := [t] + s.tasks;
          Step(s.(tasks := tasks, store := Save(s, tasks, fits)), [Create(title)], None)
        case Failed(msg) =>
          Step(s, [Create(title)], Some(if msg != "" then msg else AddFailedMessage))
  }

  /** The create request is sent exactly when the title passes validation and
      no task already has it, up to case and surrounding whitespace. */
  lemma AddTaskSendsIff(s: State, input: string, created: Remote<Task>, fits: seq<Task> -> bool)
    ensures AddTask(s, input, created, fits).calls != [] <==>
      AcceptableTitle(input) && !HasDuplicate(Trim(input), s.tasks)
  {
  }

  /** A second add of the same title, whatever its case or padding, is refused
      without a request once the server has stored the first under that
      title. */
  lemma {:induction false} AddTaskTwiceIsRefused(s: State, input: string, again: string, t: Task,
                                                created: Remote<Task>, fits: seq<Task> -> bool)
    requires AcceptableTitle(input) && !HasDuplicate(Trim(input), s.tasks)
    requires t.title == Trim(input)
    requires AcceptableTitle(again) && TitleKey(again) == TitleKey(input)
    ensures var first := AddTask(s, input, Ok(t), fits);
      AddTask(first.state, again, created, fits) == Step(first.state, [], Some(DuplicateMessage))
  {
    var first := AddTask(s, input, Ok(t), fits);
    TrimIdempotent(input);
    assert TitleKey(first.state.tasks[0].title) == TitleKey(Trim(again)) by {
      TrimIdempotent(again);
    }
  }

  // ---------------------------------------------------------------- toggle

  const ToggleFailedMessage: string := "Failed to update task status"

  /** The update a toggle sends. */
  function StatusPatch(status: string): Storage.Patch {
    Storage.Patch(None, None, Some(status), None, None)
  }

  /** `handleToggleStatus(taskId, currentStatus)`: an optimistic status change
      at the first task with the id, kept and replaced by the server's copy on
      success, undone on failure. */
  function ToggleStatus(s: State, id: string, currentStatus: string, updated: Remote<Task>, fits: seq<Task> -> bool): (r: Step)
    ensures !HasId(s.tasks, id) ==> r == Step(s, [], None)
    ensures HasId(s.tasks, id) ==> r.calls == [Update(id, StatusPatch(Flip(currentStatus)))]
    ensures HasId(s.tasks, id) && updated.Ok? ==>
      r.state.tasks == s.tasks[FindIndex(s.tasks, id) := updated.value] && r.error == None &&
      Cached(r.state.store, s.store, r.state.tasks, fits)
    ensures r.state.filter == s.filter && r.state.online == s.online
  {
    var i := FindIndex(s.tasks, id);
    if i == -1 then Step(s, [], None)
    else
      var newStatus := Flip(currentStatus);
      var oldStatus := s.tasks[i].status;
      var optimistic := s.tasks[i := s.tasks[i].(status := newStatus)];
      var call := [Update(id, StatusPatch(newStatus))];
      match updated
      case Ok(t) =>
        var tasks := optimistic[i := t];
        Step(s.(tasks := tasks, store := Save(s, tasks, fits)), call, None)
      case Failed(_) =>
        var reverted := optimistic[i := optimistic[i].(status := oldStatus)];
        Step(s.(tasks := reverted), call, Some(ToggleFailedMessage))
  }

  /** A failed toggle restores the list exactly as it was and leaves the cache
      alone. */
  lemma ToggleFailureRollsBack(s: State, id: string, currentStatus: string, message: string, fits: seq<Task> -> bool)
    ensures var r := ToggleStatus(s, id, currentStatus, Failed(message), fits);
      r.state == s && (HasId(s.tasks, id) <==> r.error == Some(ToggleFailedMessage))
  {
    var i := FindIndex(s.tasks, id);
    if i != -1 {
      var optimistic := s.tasks[i := s.tasks[i].(status := Flip(currentStatus))];
      assert optimistic[i := optimistic[i].(status := s.tasks[i].status)] == s.tasks;
    }
  }

  /** The status sent is the flip of the status the caller passed in, not of
      the one held in the list: the two agree only when the caller is up to
      date. */
  lemma ToggleSendsCallersFlip(s: State, id: string, updated: Remote<Task>, fits: seq<Task> -> bool)
    requires HasId(s.tasks, id)
    ensures ToggleStatus(s, id, Completed, updated, fits).calls == [Update(id, StatusPatch(Pending))]
    ensures ToggleStatus(s, id, Pending, updated, fits).calls == [Update(id, StatusPatch(Completed))]
  {
  }

  // ---------------------------------------------------------------- edit

  const EditFailedMessage: string := "Failed to update task"

  /** The update an edit sends. */
  function TitlePatch(title: string): Storage.Patch {
    Storage.Patch(None, Some(title), None, None, None)
  }

  /** The tasks an edit's duplicate check compares against: all but the
      edited one. */
  function OtherTasks(tasks: seq<Task>, id: string): (r: seq<Task>)
    ensures forall t :: t in r <==> t in tasks && t.id != id
  {
    Filter(tasks, (t: Task) => t.id != id)
  }

  /** `saveEdit()` of the inline editor opened on task `id` whose title was
      `currentTitle`, with `input` the editor's value. Nothing changes until
      the server answers. */
  function SaveEdit(s: State, id: string, currentTitle: string, input: string, updated: Remote<Task>,
                    fits: seq<Task> -> bool): (r: Step)
    ensures r.calls != [] ==>
      r.calls == [Update(id, TitlePatch(Trim(input)))] && AcceptableTitle(input) &&
      Trim(input) != currentTitle && !HasDuplicate(Trim(input), OtherTasks(s.tasks, id))
    ensures updated.Failed? ==> r.state == s
    ensures r.calls != [] && updated.Ok? ==>
      r.state.tasks == (if HasId(s.tasks, id) then s.tasks[FindIndex(s.tasks, id) := updated.value] else s.tasks) &&
      r.error == None && Cached(r.state.store, s.store, r.state.tasks, fits)
    ensures r.calls == [] ==> r.state == s
    ensures r.calls != [] && updated.Failed? ==> r.error == Some(EditFailedMessage)
    ensures r.state.filter == s.filter && r.state.online == s.online
  {
    TrimIdempotent(input);
    var v := ValidateTaskTitle(Some(Trim(input)));
    if !v.IsValid() then Step(s, [], Some(v.Errors()[0]))
    else if v.trimmedTitle == currentTitle then Step(s, [], None)
    else
      var dup := CheckDuplicateTitle(v.trimmedTitle, OtherTasks(s.tasks, id));
      if dup.isDuplicate then Step(s, [], dup.message)
      else
        var call := [Update(id, TitlePatch(v.trimmedTitle))];
        match updated
        case Ok(t) =>
          var i := FindIndex(s.tasks, id);
          var tasks := if i != -1 then s.tasks[i := t] else s.tasks;
          Step(s.(tasks := tasks, store := Save(s, tasks, fits)), call, None)
        case Failed(_) => Step(s, call, Some(EditFailedMessage))
  }

  /** The update request is sent exactly when the trimmed input is a valid
      title, differs from the current one, and no other task has it. */
  lemma SaveEditSendsIff(s: State, id: string, currentTitle: string, input: string, updated: Remote<Task>,
                         fits: seq<Task> -> bool)
    ensures SaveEdit(s, id, currentTitle, input, updated, fits).calls != [] <==>
      AcceptableTitle(input) && Trim(input) != currentTitle && !HasDuplicate(Trim(input), OtherTasks(s.tasks, id))
  {
    TrimIdempotent(input);
  }

  /** Recasing a task's own title is not a duplicate of itself: with no other
      task under that title, the edit is sent. */
  lemma EditMayRecaseOwnTitle(s: State, t: Task, input: string, updated: Remote<Task>, fits: seq<Task> -> bool)
    requires t in s.tasks && AcceptableTitle(input) && Trim(input) != t.title
    requires forall u :: u in s.tasks && u.id != t.id ==> TitleKey(u.title) != TitleKey(input)
    ensures SaveEdit(s, t.id, t.title, input, updated, fits).calls != []
  {
    SaveEditSendsIff(s, t.id, t.title, input, updated, fits);
    var others := OtherTasks(s.tasks, t.id);
    TrimIdempotent(input);
    LowerIdempotent(Trim(input));
    assert TitleKey(Trim(input)) == TitleKey(input);
  }

  // ---------------------------------------------------------------- delete

  const DeleteFailedMessage: string := "Failed to delete task"

  /** `handleDeleteTask(taskId)` with `confirmed` the answer to the browser's
      confirmation. The removal is optimistic and reaches the cache before the
      request; a failed request is followed by a reload of the whole list. */
  function DeleteTask(s: State, id: string, confirmed: bool, deleted: Remote<()>, reloaded: Remote<seq<Task>>,
                      fits: seq<Task> -> bool): (r: Step)
    ensures !confirmed ==> r == Step(s, [], None)
    ensures confirmed && deleted.Ok? ==> r.calls == [Delete(id)] && r.error == None
    ensures confirmed && deleted.Failed? ==> r.calls == [Delete(id), GetAll] && r.error == Some(DeleteFailedMessage)
    ensures confirmed && !(deleted.Failed? && reloaded.Ok?) ==>
      r.state.tasks == OtherTasks(s.tasks, id) && Cached(r.state.store, s.store, r.state.tasks, fits)
    ensures confirmed && deleted.Failed? && reloaded.Ok? ==> r.state.tasks == reloaded.value
    ensures r.state.filter == s.filter && r.state.online == s.online
  {
    if !confirmed then Step(s, [], None)
    else
      var remaining := OtherTasks(s.tasks, id);
      var removed := s.(tasks := remaining, store := Save(s, remaining, fits));
      match deleted
      case Ok(_) => Step(removed, [Delete(id)], None)
      case Failed(_) =>
        match reloaded
        case Ok(list) => Step(removed.(tasks := list, store := Save(removed, list, fits)), [Delete(id), GetAll], Some(DeleteFailedMessage))
        case Failed(_) => Step(removed, [Delete(id), GetAll], Some(DeleteFailedMessage))
  }

  /** Unless a reload brings it back, the deleted id is gone from the list
      and every other task stays, in order. */
  lemma DeleteRemovesTask(s: State, id: string, deleted: Remote<()>, reloaded: Remote<seq<Task>>,
                          fits: seq<Task> -> bool)
    requires !(deleted.Failed? && reloaded.Ok?)
    ensures var after := DeleteTask(s, id, true, deleted, reloaded, fits).state.tasks;
      !HasId(after, id) && IsSubsequence(after, s.tasks) && |after| < |s.tasks| + (if HasId(s.tasks, id) then 0 else 1)
  {
    var after := OtherTasks(s.tasks, id);
    FilterIsSubsequence(s.tasks, (t: Task) => t.id != id);
    if HasId(s.tasks, id) {
      var j :| 0 <= j < |s.tasks| && s.tasks[j].id == id;
      FilterDropsOne(s.tasks, (t: Task) => t.id != id, j);
    }
  }

  /** Filtering out an element the predicate rejects shortens the sequence. */
  lemma {:induction false} FilterDropsOne<T>(s: seq<T>, p: T -> bool, j: nat)
    requires j < |s| && !p(s[j])
    ensures |Filter(s, p)| < |s|
  {
    if j == 0 {
      assert Filter(s, p) == Filter(s[1..], p);
    } else {
      FilterDropsOne(s[1..], p, j - 1);
    }
  }

  // ---------------------------------------------------------------- render

  /** The list `renderTasks` shows for a filter: exact status matches for
      "pending" and "completed", everything for any other filter. */
  function VisibleTasks(tasks: seq<Task>, filter: string): (r: seq<Task>)
    ensures filter == Pending || filter == Completed ==> forall t :: t in r <==> t in tasks && t.status == filter
    ensures filter != Pending && filter != Completed ==> r == tasks
  {
    if filter == Pending then Filter(tasks, (t: Task) => t.status == Pending)
    else if filter == Completed then Filter(tasks, (t: Task) => t.status == Completed)
    else tasks
  }

  /** The pending and completed views together hold the list, each in its
      own order, when every status is one of the two. */
  lemma {:induction false} VisibleViewsPartition(tasks: seq<Task>)
    requires forall i :: 0 <= i < |tasks| ==> ValidStatus(tasks[i].status)
    ensures |VisibleTasks(tasks, Pending)| + |VisibleTasks(tasks, Completed)| == |tasks|
    ensures IsSubsequence(VisibleTasks(tasks, Pending), tasks) && IsSubsequence(VisibleTasks(tasks, Completed), tasks)
  {
    var p := (t: Task) => t.status == Pending;
    var c := (t: Task) => t.status == Completed;
    FilterIsSubsequence(tasks, p);
    FilterIsSubsequence(tasks, c);
    ViewsSplit(tasks);
  }

  lemma {:induction false} ViewsSplit(tasks: seq<Task>)
    requires forall i :: 0 <= i < |tasks| ==> ValidStatus(tasks[i].status)
    ensures |Filter(tasks, (t: Task) => t.status == Pending)| + |Filter(tasks, (t: Task) => t.status == Completed)| == |tasks|
  {
    if tasks != [] {
      ViewsSplit(tasks[1..]);
    }
  }

  /** `charAt(0).toUpperCase() + slice(1)`. */
  function Capitalize(s: string): (r: string)
    ensures |r| == |s|
    ensures s != [] ==> r[0] == UpperChar(s[0]) && r[1..] == s[1..]
  {
    if s == [] then [] else Upper(s[..1]) + s[1..]
  }

  /** `updateTaskCount(filteredCount, totalCount)` under a filter. */
  function TaskCountText(filter: string, filteredCount: nat, totalCount: nat): (r: string)
    ensures filter == "all" ==> r == Show(totalCount) + (if totalCount == 1 then " task" else " tasks")
    ensures filter != "all" ==>
      r == Show(filteredCount) + " " + Capitalize(filter) + (if totalCount != filteredCount then " of " + Show(totalCount) else "")
  {
    if filter == "all" then Show(totalCount) + " task" + (if totalCount != 1 then "s" else "")
    else
      var text := Show(filteredCount) + " " + Capitalize(filter);
      if totalCount != filteredCount then text + " of " + Show(totalCount) else text
  }

  /** The counter as the page shows it. */
  function CountText(s: State): string {
    TaskCountText(s.filter, |VisibleTasks(s.tasks, s.filter)|, |s.tasks|)
  }

  /** Under a status filter that keeps everything, the counter omits the
      total; otherwise it names it. */
  lemma CountTextNamesTotalIffSomeHidden(s: State)
    requires s.filter == Pending || s.filter == Completed
    ensures var shown := |VisibleTasks(s.tasks, s.filter)|;
      CountText(s) == Show(shown) + " " + Capitalize(s.filter) +
        (if exists i :: 0 <= i < |s.tasks| && s.tasks[i].status != s.filter then " of " + Show(|s.tasks|) else "")
  {
    var p := (t: Task) => t.status == s.filter;
    assert VisibleTasks(s.tasks, s.filter) == Filter(s.tasks, p);
    if exists i :: 0 <= i < |s.tasks| && s.tasks[i].status != s.filter {
      var i :| 0 <= i < |s.tasks| && s.tasks[i].status != s.filter;
      FilterDropsOne(s.tasks, p, i);
    } else {
      FilterAll(s.tasks, p);
    }
  }

  /** What the counter reads with no filter. */
  lemma CountTextAllExamples()
    ensures TaskCountText("all", 1, 1) == "1 task"
    ensures TaskCountText("all", 0, 0) == "0 tasks"
  {
    assert Show(0) == "0" && Show(1) == "1";
  }

  /** What the counter reads under the pending filter. */
  lemma CountTextPendingExample()
    ensures TaskCountText("pending", 2, 5) == "2 Pending of 5"
  {
    assert Show(2) == "2" && Show(5) == "5";
    assert Capitalize("pending") == "Pending" by {
      assert Upper("p") == "P";
    }
  }

  /** What the counter reads under the completed filter. */
  lemma CountTextCompletedExample()
    ensures TaskCountText("completed", 3, 3) == "3 Completed"
  {
    assert Show(3) == "3";
    assert Capitalize("completed") == "Completed" by {
      assert Upper("c") == "C";
    }
  }
}

=== FILE: bulk.dfy ===
/**
 * Selection of tasks for bulk actions (frontend/bulkOperations.js). The
 * selection is a JavaScript `Set` of ids; it is modelled as a duplicate-free
 * sequence in insertion order, which is what `Array.from` on the set lists.
 * Updating the page after each change is left out; the tri-state rule of the
 * "select all" checkbox is modelled on its own.
 */
module Bulk {
  import opened Seqs
  import opened Tasks
  import opened Text

  /** `selectedTasks.has(id)`. */
  predicate IsSelected(sel: seq<string>, id: string) {
    id in sel
  }

  /** `selectTask(id)`: adding an id already present changes nothing. */
  function Select(sel: seq<string>, id: string): (r: seq<string>)
    requires Distinct(sel)
    ensures Distinct(r)
    ensures forall x :: x in r <==> x in sel || x == id
    ensures |r| >= |sel| && r[..|sel|] == sel
  {
    if id in sel then sel else sel + [id]
  }

  /** `deselectTask(id)`. */
  function Deselect(sel: seq<string>, id: string): (r: seq<string>)
    requires Distinct(sel)
    ensures Distinct(r)
    ensures forall x :: x in r <==> x in sel && x != id
    ensures |r| == if id in sel then |sel| - 1 else |sel|
  {
    if sel == [] then []
    else
      assert forall x :: x in sel <==> x == sel[0] || x in sel[1..];
      assert sel[0] !in sel[1..];
      if sel[0] == id then sel[1..]
      else
        var rest := Deselect(sel[1..], id);
        var r := [sel[0]] + rest;
        assert forall x :: x in r <==> x == sel[0] || x in rest;
        assert forall i :: 1 <= i < |r| ==> r[i] == rest[i - 1];
        r
  }

  /** Deselecting keeps the remaining ids in their order. */
  lemma {:induction false} DeselectKeepsOrder(sel: seq<string>, id: string)
    requires Distinct(sel)
    ensures IsSubsequence(Deselect(sel, id), sel)
  {
    if sel != [] {
      if sel[0] == id {
        SuffixIsSubsequence(sel);
      } else {
        DeselectKeepsOrder(sel[1..], id);
        var r := Deselect(sel, id);
        assert r[0] == sel[0] && r[1..] == Deselect(sel[1..], id);
      }
    }
  }

  /** Dropping the first element leaves a subsequence. */
  lemma SuffixIsSubsequence(s: seq<string>)
    requires s != []
    ensures IsSubsequence(s[1..], s)
  {
    SubsequenceReflexive(s[1..]);
  }

  /** `toggleTaskSelection(id)`. */
  function Toggle(sel: seq<string>, id: string): (r: seq<string>)
    requires Distinct(sel)
    ensures Distinct(r)
    ensures id in r <==> id !in sel
    ensures forall x :: x != id ==> (x in r <==> x in sel)
  {
    if IsSelected(sel, id) then Deselect(sel, id) else Select(sel, id)
  }

  /** Removing an id that was just appended gives back the original sequence. */
  lemma {:induction false} DeselectAppended(sel: seq<string>, id: string)
    requires Distinct(sel) && id !in sel
    ensures Distinct(sel + [id])
    ensures Deselect(sel + [id], id) == sel
  {
    assert Distinct(sel + [id]) by {
      forall i, j | 0 <= i < j < |sel + [id]|
        ensures (sel + [id])[i] != (sel + [id])[j]
      {
        if j == |sel| {
          assert sel[i] in sel;
        }
      }
    }
    if sel != [] {
      assert (sel + [id])[0] == sel[0];
      assert (sel + [id])[1..] == sel[1..] + [id];
      DeselectAppended(sel[1..], id);
    }
  }

  /** Toggling the same id twice restores the selection as a set; when the id
      was not selected before, it restores the exact sequence. */
  lemma ToggleTwice(sel: seq<string>, id: string)
    requires Distinct(sel)
    ensures forall x :: x in Toggle(Toggle(sel, id), id) <==> x in sel
    ensures id !in sel ==> Toggle(Toggle(sel, id), id) == sel
  {
    if !IsSelected(sel, id) {
      DeselectAppended(sel, id);
    }
  }

  /** `selectAll(ids)`: every id is added in turn. */
  function SelectAll(sel: seq<string>, ids: seq<string>): (r: seq<string>)
    requires Distinct(sel)
    ensures Distinct(r)
    ensures forall x :: x in r <==> x in sel || x in ids
    ensures |r| >= |sel| && r[..|sel|] == sel
    decreases |ids|
  {
    if ids == [] then sel
    else
      var next := Select(sel, ids[0]);
      var r := SelectAll(next, ids[1..]);
      assert r[..|sel|] == r[..|next|][..|sel|];
      assert forall x :: x in ids <==> x == ids[0] || x in ids[1..];
      r
  }

  /** `deselectAll()` and `clearSelection()`. */
  function DeselectAll(sel: seq<string>): (r: seq<string>)
    ensures Distinct(r)
    ensures forall x :: x !in r
  {
    []
  }

  /** A duplicate-free sequence has as many elements as its set. */
  lemma {:induction false} DistinctCardinality(s: seq<string>)
    requires Distinct(s)
    ensures |set x | x in s| == |s|
  {
    if s != [] {
      DistinctCardinality(s[1..]);
      assert (set x | x in s) == (set x | x in s[1..]) + {s[0]};
      assert s[0] !in (set x | x in s[1..]);
    }
  }

  /** `getSelectedCount()` is the size of the set, and `getSelectedTaskIds()`
      lists every selected id exactly once. */
  lemma SelectedCountIsSetSize(sel: seq<string>)
    requires Distinct(sel)
    ensures |set x | x in sel| == |sel|
    ensures forall x :: x in sel ==> exists i :: 0 <= i < |sel| && sel[i] == x && forall j :: 0 <= j < |sel| && sel[j] == x ==> j == i
  {
    DistinctCardinality(sel);
  }

  /** The two flags of the "select all" checkbox. */
  datatype Checkbox = Checkbox(checked: bool, indeterminate: bool)

  /** The checkbox rule of `updateSelectionUI`, from the number of task
      checkboxes on the page and the number of selected ids. */
  function SelectAllCheckbox(visibleCount: nat, count: nat): (c: Checkbox)
    ensures !(c.checked && c.indeterminate)
    ensures c.checked <==> visibleCount > 0 && count == visibleCount
    ensures c.indeterminate <==> visibleCount > 0 && count > 0 && count != visibleCount
  {
    if visibleCount == 0 then Checkbox(false, false)
    else if count == 0 then Checkbox(false, false)
    else if count == visibleCount then Checkbox(true, false)
    else Checkbox(false, true)
  }

  /** Result of `validateBulkOperation`. */
  datatype Verdict = Verdict(isValid: bool, message: string)

  const NothingSelectedMessage: string := "Please select at least one task"
  const AlreadyCompletedMessage: string := "All selected tasks are already completed"
  const AlreadyPendingMessage: string := "All selected tasks are already pending"

  /** The listed tasks whose id is selected. */
  function SelectedTasks(tasks: seq<Task>, sel: seq<string>): (r: seq<Task>)
    ensures forall i :: 0 <= i < |r| ==> r[i] in tasks && r[i].id in sel
    ensures forall i :: 0 <= i < |tasks| && tasks[i].id in sel ==> tasks[i] in r
    ensures IsSubsequence(r, tasks)
  {
    FilterIsSubsequence(tasks, (t: Task) => t.id in sel);
    Filter(tasks, (t: Task) => t.id in sel)
  }

  /** How many of the selected listed tasks have the given status. */
  function SelectedWithStatus(tasks: seq<Task>, sel: seq<string>, status: string): nat {
    |Filter(SelectedTasks(tasks, sel), (t: Task) => t.status == status)|
  }

  /** `validateBulkOperation(operation, tasks)`: an empty selection is never
      valid; marking completed (pending) is rejected when as many selected
      listed tasks already have that status as there are selected ids. */
  function ValidateBulkOperation(operation: string, sel: seq<string>, tasks: seq<Task>): (v: Verdict)
    ensures v.isValid <==> v.message == ""
    ensures |sel| == 0 ==> v == Verdict(false, NothingSelectedMessage)
    ensures |sel| > 0 && operation != "complete" && operation != "pending" ==> v.isValid
    ensures |sel| > 0 && operation == "complete" ==>
      (v.isValid <==> SelectedWithStatus(tasks, sel, Completed) != |sel|)
    ensures |sel| > 0 && operation == "pending" ==>
      (v.isValid <==> SelectedWithStatus(tasks, sel, Pending) != |sel|)
    ensures |sel| > 0 && operation == "complete" && !v.isValid ==> v.message == AlreadyCompletedMessage
    ensures |sel| > 0 && operation == "pending" && !v.isValid ==> v.message == AlreadyPendingMessage
  {
    if |sel| == 0 then Verdict(false, NothingSelectedMessage)
    else if operation == "complete" && SelectedWithStatus(tasks, sel, Completed) == |sel| then
      Verdict(false, AlreadyCompletedMessage)
    else if operation == "pending" && SelectedWithStatus(tasks, sel, Pending) == |sel| then
      Verdict(false, AlreadyPendingMessage)
    else Verdict(true, "")
  }

  /** The ids of a list of tasks, in order. */
  function Ids(tasks: seq<Task>): (r: seq<string>)
    ensures |r| == |tasks|
    ensures forall i :: 0 <= i < |tasks| ==> r[i] == tasks[i].id
  {
    if tasks == [] then [] else [tasks[0].id] + Ids(tasks[1..])
  }

  /** A filter only looks at the elements: two predicates that agree on them
      select the same subsequence. */
  lemma {:induction false} FilterAgrees(s: seq<Task>, p: Task -> bool, q: Task -> bool)
    requires forall i :: 0 <= i < |s| ==> p(s[i]) == q(s[i])
    ensures Filter(s, p) == Filter(s, q)
  {
    if s != [] {
      FilterAgrees(s[1..], p, q);
    }
  }

  /** Dropping filtered-out elements only shortens a filter: the length is the
      input's exactly when every element passes. */
  lemma {:induction false} FilterKeepsAll(s: seq<Task>, p: Task -> bool)
    ensures |Filter(s, p)| == |s| <==> forall i :: 0 <= i < |s| ==> p(s[i])
  {
    if s != [] {
      FilterKeepsAll(s[1..], p);
      assert forall i :: 1 <= i < |s| ==> s[i] == s[1..][i - 1];
      if !p(s[0]) {
        assert |Filter(s, p)| == |Filter(s[1..], p)| <= |s| - 1;
      }
    }
  }

  lemma HeadIsMember(s: seq<string>)
    ensures |s| == 0 || s[0] in s
  {
  }

  /** An id listed after the first task is listed in the rest. */
  lemma IdInRest(tasks: seq<Task>, x: string)
    requires tasks != [] && x in Ids(tasks) && x != tasks[0].id
    ensures x in Ids(tasks[1..])
  {
    var k :| 0 <= k < |Ids(tasks)| && Ids(tasks)[k] == x;
    assert Ids(tasks[1..])[k - 1] == x;
  }

  /** With unique ids, no later task shares the first task's id. */
  lemma FirstIdUnique(tasks: seq<Task>)
    requires tasks != [] && Distinct(Ids(tasks))
    ensures forall j :: 0 <= j < |tasks| - 1 ==> tasks[1..][j].id != tasks[0].id
  {
    forall j | 0 <= j < |tasks| - 1
      ensures tasks[1..][j].id != tasks[0].id
    {
      assert Ids(tasks)[j + 1] == tasks[1..][j].id && Ids(tasks)[0] == tasks[0].id;
    }
  }

  /** When the listed ids are unique and every selected id is listed, the
      selected listed tasks are exactly as many as the selected ids. */
  lemma {:induction false} SelectedTasksCount(tasks: seq<Task>, sel: seq<string>)
    requires Distinct(Ids(tasks)) && Distinct(sel)
    requires forall x :: x in sel ==> x in Ids(tasks)
    ensures |SelectedTasks(tasks, sel)| == |sel|
  {
    if tasks == [] {
      HeadIsMember(sel);
    } else {
      var t := tasks[0];
      var rest := tasks[1..];
      assert Ids(rest) == Ids(tasks)[1..];
      FirstIdUnique(tasks);
      if t.id in sel {
        var sel' := Deselect(sel, t.id);
        assert forall j :: 0 <= j < |rest| ==> (rest[j].id in sel <==> rest[j].id in sel');
        FilterAgrees(rest, (u: Task) => u.id in sel, (u: Task) => u.id in sel');
        forall x | x in sel'
          ensures x in Ids(rest)
        {
          IdInRest(tasks, x);
        }
        SelectedTasksCount(rest, sel');
      } else {
        forall x | x in sel
          ensures x in Ids(rest)
        {
          IdInRest(tasks, x);
        }
        SelectedTasksCount(rest, sel);
      }
    }
  }

  /** What the rejection means when the selection matches the list: with unique
      listed ids and every selected id listed, "complete" is rejected exactly
      when every selected task is already completed, and "pending" exactly
      when every selected task is already pending. */
  lemma RejectedIffAllAlreadyInTarget(operation: string, sel: seq<string>, tasks: seq<Task>)
    requires Distinct(Ids(tasks)) && Distinct(sel) && |sel| > 0
    requires forall x :: x in sel ==> x in Ids(tasks)
    requires operation == "complete" || operation == "pending"
    ensures var target := if operation == "complete" then Completed else Pending;
      !ValidateBulkOperation(operation, sel, tasks).isValid <==>
        forall t :: t in tasks && t.id in sel ==> t.status == target
  {
    var target := if operation == "complete" then Completed else Pending;
    var chosen := SelectedTasks(tasks, sel);
    SelectedTasksCount(tasks, sel);
    FilterKeepsAll(chosen, (t: Task) => t.status == target);
    forall t | t in tasks && t.id in sel
      ensures t in chosen
    {
      FilterMembers(tasks, (u: Task) => u.id in sel, t);
    }
  }

  /** A selected id that is no longer listed keeps the rejection from firing:
      one listed task, completed and selected, plus one stale id. */
  lemma StaleSelectionIsAccepted()
    ensures ValidateBulkOperation("complete", ["a", "b"], [Task("a", "Write", Completed, 0, 0)]).isValid
  {
    var tasks := [Task("a", "Write", Completed, 0, 0)];
    assert SelectedTasks(tasks, ["a", "b"]) == tasks;
  }

  /** `count === 1 ? 'task' : 'tasks'`. */
  function TaskWord(count: int): (w: string)
    ensures w == "task" <==> count == 1
    ensures w == "tasks" <==> count != 1
  {
    if count == 1 then "task" else "tasks"
  }

  /** The words of a confirmation before the count. */
  function ConfirmationLead(operation: string): string {
    if operation == "complete" || operation == "pending" then "Mark "
    else if operation == "delete" then "Are you sure you want to delete "
    else "Perform bulk operation on "
  }

  /** The words of a confirmation after the count and its noun. */
  function ConfirmationTail(operation: string): string {
    if operation == "complete" then " as completed?"
    else if operation == "pending" then " as pending?"
    else if operation == "delete" then "? This action cannot be undone."
    else "?"
  }

  /** `getConfirmationMessage(operation, count)`. */
  function ConfirmationMessage(operation: string, count: int): (r: string)
    ensures var n := Show(count) + " " + TaskWord(count);
      (operation == "complete" ==> r == "Mark " + n + " as completed?") &&
      (operation == "pending" ==> r == "Mark " + n + " as pending?") &&
      (operation == "delete" ==> r == "Are you sure you want to delete " + n + "? This action cannot be undone.") &&
      (operation != "complete" && operation != "pending" && operation != "delete" ==>
        r == "Perform bulk operation on " + n + "?")
  {
    ConfirmationLead(operation) + (Show(count) + " " + TaskWord(count)) + ConfirmationTail(operation)
  }

  /** A confirmation is its lead, the count's digits, a space, and the rest. */
  lemma ConfirmationShape(operation: string, c: nat)
    ensures ConfirmationMessage(operation, c)
         == ConfirmationLead(operation) + (ShowNat(c) + " " + (TaskWord(c) + ConfirmationTail(operation)))
  {
  }

  /** Stripping a common lead leaves equal remainders. */
  lemma DropLead(lead: string, u: string, u': string)
    requires lead + u == lead + u'
    ensures u == u'
  {
    assert u == (lead + u)[|lead|..];
  }

  /** The confirmation tells the user how many tasks are affected: two
      different selection sizes never give the same question. */
  lemma ConfirmationNamesCount(operation: string, c: nat, c': nat)
    requires ConfirmationMessage(operation, c) == ConfirmationMessage(operation, c')
    ensures c == c'
  {
    var lead, tail := ConfirmationLead(operation), ConfirmationTail(operation);
    ConfirmationShape(operation, c);
    ConfirmationShape(operation, c');
    DropLead(lead, ShowNat(c) + " " + (TaskWord(c) + tail), ShowNat(c') + " " + (TaskWord(c') + tail));
    DigitsBeforeSpace(ShowNat(c), TaskWord(c) + tail, ShowNat(c'), TaskWord(c') + tail);
    ShowNatInjective(c, c');
  }

  /** The singular form as the user sees it. */
  lemma ConfirmationSingular()
    ensures ConfirmationMessage("complete", 1) == "Mark 1 task as completed?"
  {
    assert Show(1) + " " + TaskWord(1) == "1 task";
  }

  /** The plural form as the user sees it. */
  lemma ConfirmationPlural()
    ensures ConfirmationMessage("pending", 2) == "Mark 2 tasks as pending?"
  {
    assert Show(2) + " " + TaskWord(2) == "2 tasks";
  }
}

=== FILE: csv.dfy ===
/**
 * CSV field quoting and line parsing (frontend/exportImport.js). Quoting
 * follows section 2 of RFC 4180, rules 6 and 7: a field holding a comma, a
 * double quote or a line break is enclosed in double quotes, and a double
 * quote inside it is written twice. The parser is a quote-toggling state
 * machine over one line.
 */
module Csv {
  import opened Text

  const Quote: char := '"'
  const Comma: char := ','
  const Newline: char := '\n'

  /** Whether a value must be quoted. */
  predicate NeedsQuoting(v: string) {
    Comma in v || Quote in v || Newline in v
  }

  /** `value.replace(/"/g, '""')`. */
  function DoubleQuotes(v: string): string {
    ReplaceAll(v, Quote, [Quote, Quote])
  }

  /** `escapeCsvValue(value)`. */
  function EscapeCsvValue(v: string): (r: string)
    ensures !NeedsQuoting(v) ==> r == v
    ensures NeedsQuoting(v) ==> |r| >= 2 && r[0] == Quote && r[|r| - 1] == Quote
  {
    if NeedsQuoting(v) then [Quote] + DoubleQuotes(v) + [Quote] else v
  }

  /** The parser's loop from a given state: the unread rest of the line, the
      field being read, whether a quoted section is open, the fields done. */
  function ParseFrom(rest: string, current: string, inQuotes: bool, fields: seq<string>): (r: seq<string>)
    ensures |r| >= |fields| + 1
    decreases |rest|
  {
    if rest == [] then fields + [current]
    else if rest[0] == Quote then
      if inQuotes && |rest| >= 2 && rest[1] == Quote then ParseFrom(rest[2..], current + [Quote], inQuotes, fields)
      else ParseFrom(rest[1..], current, !inQuotes, fields)
    else if rest[0] == Comma && !inQuotes then ParseFrom(rest[1..], "", inQuotes, fields + [current])
    else ParseFrom(rest[1..], current + [rest[0]], inQuotes, fields)
  }

  /** `parseCsvLine(line)`. */
  function ParseCsvLine(line: string): (r: seq<string>)
    ensures |r| >= 1
  {
    ParseFrom(line, "", false, [])
  }

  /** The commas of `s` that a reader starting with quotes open (or not)
      sees outside quotes, where every double quote flips the state. */
  function CommasOutsideQuotes(s: string, inQuotes: bool): nat
    decreases |s|
  {
    if s == [] then 0
    else if s[0] == Quote then CommasOutsideQuotes(s[1..], !inQuotes)
    else (if s[0] == Comma && !inQuotes then 1 else 0) + CommasOutsideQuotes(s[1..], inQuotes)
  }

  lemma {:induction false} ParseFromCount(rest: string, current: string, inQuotes: bool, fields: seq<string>)
    ensures |ParseFrom(rest, current, inQuotes, fields)| == |fields| + 1 + CommasOutsideQuotes(rest, inQuotes)
    decreases |rest|
  {
    if rest == [] {
    } else if rest[0] == Quote {
      if inQuotes && |rest| >= 2 && rest[1] == Quote {
        ParseFromCount(rest[2..], current + [Quote], inQuotes, fields);
        assert rest[1..][1..] == rest[2..];
      } else {
        ParseFromCount(rest[1..], current, !inQuotes, fields);
      }
    } else if rest[0] == Comma && !inQuotes {
      ParseFromCount(rest[1..], "", inQuotes, fields + [current]);
    } else {
      ParseFromCount(rest[1..], current + [rest[0]], inQuotes, fields);
    }
  }

  /** Inside quotes, text without quotes has no comma outside them. */
  lemma {:induction false} QuotedRestHasNoCommas(s: string)
    requires Quote !in s
    ensures CommasOutsideQuotes(s, true) == 0
    decreases |s|
  {
    if s != [] {
      QuotedRestHasNoCommas(s[1..]);
    }
  }

  /** Text without quotes or commas in front adds no comma outside quotes. */
  lemma {:induction false} PlainPrefixAddsNoCommas(p: string, rest: string, inQuotes: bool)
    requires Quote !in p && Comma !in p
    ensures CommasOutsideQuotes(p + rest, inQuotes) == CommasOutsideQuotes(rest, inQuotes)
    decreases |p|
  {
    if p != [] {
      assert (p + rest)[1..] == p[1..] + rest;
      PlainPrefixAddsNoCommas(p[1..], rest, inQuotes);
    } else {
      assert p + rest == rest;
    }
  }

  /** A line yields one field more than it has commas outside quotes. */
  lemma ParseCsvLineFieldCount(line: string)
    ensures |ParseCsvLine(line)| == 1 + CommasOutsideQuotes(line, false)
  {
    ParseFromCount(line, "", false, []);
  }

  /** The fields already read are never revised. */
  lemma {:induction false} ParseFromKeepsFields(rest: string, current: string, inQuotes: bool, fields: seq<string>)
    ensures ParseFrom(rest, current, inQuotes, fields)[..|fields|] == fields
    decreases |rest|
  {
    if rest == [] {
    } else if rest[0] == Quote {
      if inQuotes && |rest| >= 2 && rest[1] == Quote {
        ParseFromKeepsFields(rest[2..], current + [Quote], inQuotes, fields);
      } else {
        ParseFromKeepsFields(rest[1..], current, !inQuotes, fields);
      }
    } else if rest[0] == Comma && !inQuotes {
      ParseFromKeepsFields(rest[1..], "", inQuotes, fields + [current]);
      var r := ParseFrom(rest, current, inQuotes, fields);
      assert r[..|fields| + 1][..|fields|] == r[..|fields|];
      assert (fields + [current])[..|fields|] == fields;
    } else {
      ParseFromKeepsFields(rest[1..], current + [rest[0]], inQuotes, fields);
    }
  }

  /** Outside quotes, text without commas or quotes is copied into the field. */
  lemma {:induction false} ParsePlain(v: string, tail: string, current: string, fields: seq<string>)
    requires Comma !in v && Quote !in v
    ensures ParseFrom(v + tail, current, false, fields) == ParseFrom(tail, current + v, false, fields)
    decreases |v|
  {
    if v == [] {
      assert v + tail == tail;
      assert current + v == current;
    } else {
      assert (v + tail)[0] == v[0];
      assert (v + tail)[1..] == v[1..] + tail;
      ParsePlain(v[1..], tail, current + [v[0]], fields);
      assert current + [v[0]] + v[1..] == current + v;
    }
  }

  /** Inside quotes, a value with its quotes doubled reads back as the value. */
  lemma {:induction false} ParseQuoted(v: string, tail: string, current: string, fields: seq<string>)
    ensures ParseFrom(DoubleQuotes(v) + tail, current, true, fields) == ParseFrom(tail, current + v, true, fields)
    decreases |v|
  {
    if v == [] {
      assert DoubleQuotes(v) + tail == tail;
      assert current + v == current;
    } else {
      var d := DoubleQuotes(v);
      var rest := DoubleQuotes(v[1..]);
      assert d == (if v[0] == Quote then [Quote, Quote] else [v[0]]) + rest;
      ParseQuoted(v[1..], tail, current + [v[0]], fields);
      assert current + [v[0]] + v[1..] == current + v;
      var s := d + tail;
      if v[0] == Quote {
        assert s[0] == Quote && s[1] == Quote;
        assert s[2..] == rest + tail;
      } else {
        assert s[0] == v[0];
        assert s[1..] == rest + tail;
      }
    }
  }

  /** An escaped value followed by a comma reads back as exactly that field,
      and parsing carries on with the rest of the line. */
  lemma EscapedFieldThenComma(v: string, rest: string, fields: seq<string>)
    ensures ParseFrom(EscapeCsvValue(v) + [Comma] + rest, "", false, fields) == ParseFrom(rest, "", false, fields + [v])
  {
    if NeedsQuoting(v) {
      var d := DoubleQuotes(v);
      var s := [Quote] + d + [Quote] + [Comma] + rest;
      assert s[0] == Quote && s[1..] == d + ([Quote, Comma] + rest);
      ParseQuoted(v, [Quote, Comma] + rest, "", fields);
      assert "" + v == v;
      var t := [Quote, Comma] + rest;
      assert t[1] == Comma && t[1..] == [Comma] + rest;
      assert ([Comma] + rest)[1..] == rest;
    } else {
      assert EscapeCsvValue(v) + [Comma] + rest == v + ([Comma] + rest);
      ParsePlain(v, [Comma] + rest, "", fields);
      assert "" + v == v;
      assert ([Comma] + rest)[1..] == rest;
    }
  }

  /** Round trip: a value escaped on its own parses back to that one value. */
  lemma EscapeParseRoundTrip(v: string)
    ensures ParseCsvLine(EscapeCsvValue(v)) == [v]
  {
    if NeedsQuoting(v) {
      var d := DoubleQuotes(v);
      var s := [Quote] + d + [Quote];
      assert s[0] == Quote && s[1..] == d + [Quote];
      ParseQuoted(v, [Quote], "", []);
      assert "" + v == v;
      assert [Quote][1..] == [];
    } else {
      assert v + [] == v;
      ParsePlain(v, [], "", []);
      assert "" + v == v;
    }
  }

  /** Inside a quoted section a doubled quote stands for one quote character. */
  lemma DoubledQuoteInsideQuotes(current: string, tail: string, fields: seq<string>)
    ensures ParseFrom([Quote, Quote] + tail, current, true, fields) == ParseFrom(tail, current + [Quote], true, fields)
  {
    assert ([Quote, Quote] + tail)[2..] == tail;
  }

  // ---------------------------------------------------------------- records

  /** The quoted state after reading `s` from state `q`: every double quote
      flips it (a doubled quote flips it twice). */
  function QuoteState(s: string, q: bool): bool
    decreases |s|
  {
    if s == [] then q else QuoteState(s[1..], if s[0] == Quote then !q else q)
  }

  /** Read from state `q`, every line break of `s` falls inside quotes. */
  predicate LineBreaksQuoted(s: string, q: bool)
    decreases |s|
  {
    s == [] || ((s[0] == Newline ==> q) && LineBreaksQuoted(s[1..], if s[0] == Quote then !q else q))
  }

  /** One record of a file: its line breaks are all quoted and its quotes
      are balanced. */
  predicate WellQuoted(s: string) {
    LineBreaksQuoted(s, false) && !QuoteState(s, false)
  }

  /** Record splitting from a given state: the unread text, the record being
      read, and whether a quoted field is open. A line break ends a record
      only outside quotes (section 2 of RFC 4180, rule 6). */
  function RecordsFrom(rest: string, current: string, inQuotes: bool): (r: seq<string>)
    ensures |r| >= 1
    decreases |rest|
  {
    if rest == [] then [current]
    else if rest[0] == Newline && !inQuotes then [current] + RecordsFrom(rest[1..], "", false)
    else RecordsFrom(rest[1..], current + [rest[0]], if rest[0] == Quote then !inQuotes else inQuotes)
  }

  /** The records of a CSV text. */
  function SplitRecords(s: string): (r: seq<string>)
    ensures |r| >= 1
  {
    RecordsFrom(s, "", false)
  }

  lemma {:induction false} QuoteStateAppend(a: string, b: string, q: bool)
    ensures QuoteState(a + b, q) == QuoteState(b, QuoteState(a, q))
    decreases |a|
  {
    if a == [] {
      assert a + b == b;
    } else {
      assert (a + b)[0] == a[0] && (a + b)[1..] == a[1..] + b;
      QuoteStateAppend(a[1..], b, if a[0] == Quote then !q else q);
    }
  }

  lemma {:induction false} LineBreaksQuotedAppend(a: string, b: string, q: bool)
    requires LineBreaksQuoted(a, q) && LineBreaksQuoted(b, QuoteState(a, q))
    ensures LineBreaksQuoted(a + b, q)
    decreases |a|
  {
    if a == [] {
      assert a + b == b;
    } else {
      assert (a + b)[0] == a[0] && (a + b)[1..] == a[1..] + b;
      LineBreaksQuotedAppend(a[1..], b, if a[0] == Quote then !q else q);
    }
  }

  /** Text without quotes or line breaks changes nothing in either state. */
  lemma {:induction false} PlainText(s: string, q: bool)
    requires Quote !in s && Newline !in s
    ensures LineBreaksQuoted(s, q) && QuoteState(s, q) == q
    decreases |s|
  {
    if s != [] {
      assert s[0] != Quote && s[0] != Newline;
      PlainText(s[1..], q);
    }
  }

  /** Inside quotes, a value with its quotes doubled leaves the quotes open
      and keeps its line breaks quoted. */
  lemma {:induction false} DoubledQuotesStayQuoted(v: string)
    ensures LineBreaksQuoted(DoubleQuotes(v), true) && QuoteState(DoubleQuotes(v), true)
    decreases |v|
  {
    if v != [] {
      var head := if v[0] == Quote then [Quote, Quote] else [v[0]];
      var rest := DoubleQuotes(v[1..]);
      assert DoubleQuotes(v) == head + rest;
      DoubledQuotesStayQuoted(v[1..]);
      if v[0] == Quote {
        assert QuoteState(head, true) by {
          assert head[1..] == [Quote] && [Quote][1..] == [];
        }
        assert LineBreaksQuoted(head, true) by {
          assert head[1..] == [Quote] && [Quote][1..] == [];
        }
      } else {
        assert head[1..] == [];
      }
      QuoteStateAppend(head, rest, true);
      LineBreaksQuotedAppend(head, rest, true);
    }
  }

  /** Every escaped value is a well-quoted piece of a record. */
  lemma EscapeWellQuoted(v: string)
    ensures WellQuoted(EscapeCsvValue(v))
  {
    if NeedsQuoting(v) {
      var d := DoubleQuotes(v);
      DoubledQuotesStayQuoted(v);
      assert [Quote][1..] == [];
      assert QuoteState([Quote], false) && LineBreaksQuoted([Quote], false);
      assert !QuoteState([Quote], true) && LineBreaksQuoted([Quote], true);
      QuoteStateAppend([Quote], d, false);
      LineBreaksQuotedAppend([Quote], d, false);
      QuoteStateAppend([Quote] + d, [Quote], false);
      LineBreaksQuotedAppend([Quote] + d, [Quote], false);
    } else {
      PlainText(v, false);
    }
  }

  /** Well-quoted pieces joined by a plain separator form a well-quoted record. */
  lemma {:induction false} JoinWellQuoted(parts: seq<string>, sep: string)
    requires Quote !in sep && Newline !in sep
    requires forall i :: 0 <= i < |parts| ==> WellQuoted(parts[i])
    ensures WellQuoted(Join(parts, sep))
  {
    if |parts| == 0 {
    } else if |parts| > 1 {
      JoinWellQuoted(parts[1..], sep);
      var rest := Join(parts[1..], sep);
      PlainText(sep, false);
      assert WellQuoted(parts[0]);
      QuoteStateAppend(parts[0], sep, false);
      LineBreaksQuotedAppend(parts[0], sep, false);
      QuoteStateAppend(parts[0] + sep, rest, false);
      LineBreaksQuotedAppend(parts[0] + sep, rest, false);
    }
  }

  /** A well-quoted stretch of text is absorbed into the current record. */
  lemma {:induction false} RecordsAbsorb(s: string, rest: string, current: string, q: bool)
    requires LineBreaksQuoted(s, q)
    ensures RecordsFrom(s + rest, current, q) == RecordsFrom(rest, current + s, QuoteState(s, q))
    decreases |s|
  {
    if s == [] {
      assert s + rest == rest && current + s == current;
    } else {
      assert (s + rest)[0] == s[0] && (s + rest)[1..] == s[1..] + rest;
      RecordsAbsorb(s[1..], rest, current + [s[0]], if s[0] == Quote then !q else q);
      assert current + [s[0]] + s[1..] == current + s;
    }
  }

  /** Splitting undoes joining records with line breaks, whatever quoted line
      breaks the records hold. */
  lemma {:induction false} SplitRecordsJoin(records: seq<string>)
    requires |records| >= 1
    requires forall i :: 0 <= i < |records| ==> WellQuoted(records[i])
    ensures SplitRecords(Join(records, [Newline])) == records
  {
    var r := records[0];
    if |records| == 1 {
      RecordsAbsorb(r, [], "", false);
      assert r + [] == r && "" + r == r;
    } else {
      var rest := Join(records[1..], [Newline]);
      SplitRecordsJoin(records[1..]);
      assert Join(records, [Newline]) == r + ([Newline] + rest);
      RecordsAbsorb(r, [Newline] + rest, "", false);
      assert "" + r == r;
      assert ([Newline] + rest)[0] == Newline && ([Newline] + rest)[1..] == rest;
      assert [r] + records[1..] == records;
    }
  }
}

=== FILE: errors.dfy ===
/**
 * Error classification, the bounded error log and recovery strategies
 * (frontend/errorHandler.js). An error is the part of a JavaScript `Error`
 * the handler reads: its message, an HTTP status and a stack. Recovery
 * strategies are asynchronous calls into caller code; each is modelled by
 * the outcome it produced. The time stamp of a log entry is a parameter.
 */
module Errors {
  import opened Wrappers
  import opened Text
  import opened Seqs
  import opened Tasks
  import Storage

  datatype ErrorType = NetworkError | ValidationError | ServerError | StorageError | UnknownError {
    /** The value in `errorTypes`. */
    function Name(): string {
      match this
      case NetworkError => "network"
      case ValidationError => "validation"
      case ServerError => "server"
      case StorageError => "storage"
      case UnknownError => "unknown"
    }
  }

  /** The fields of a thrown value the handler reads; absent ones are `None`. */
  datatype ErrorValue = ErrorValue(message: Option<string>, status: Option<int>, stack: Option<string>)

  /** `error.message?.toLowerCase() || ''`. */
  function LoweredMessage(e: ErrorValue): string {
    if e.message.Some? then Lower(e.message.value) else ""
  }

  predicate MentionsNetwork(m: string) {
    Contains(m, "network") || Contains(m, "fetch") || Contains(m, "connection")
  }

  predicate MentionsValidation(m: string) {
    Contains(m, "validation") || Contains(m, "invalid")
  }

  predicate MentionsStorage(m: string) {
    Contains(m, "storage") || Contains(m, "quota")
  }

  /** `classifyError(error)`, with `None` for a null or undefined error. */
  function ClassifyError(error: Option<ErrorValue>): (t: ErrorType)
    ensures error.None? ==> t == UnknownError
    ensures error.Some? ==> var m := LoweredMessage(error.value);
      var serverish := (error.value.status.Some? && error.value.status.value >= 500) || Contains(m, "server");
      (t == NetworkError <==> MentionsNetwork(m)) &&
      (t == ValidationError <==> !MentionsNetwork(m) && MentionsValidation(m)) &&
      (t == ServerError <==> !MentionsNetwork(m) && !MentionsValidation(m) && serverish) &&
      (t == StorageError <==> !MentionsNetwork(m) && !MentionsValidation(m) && !serverish && MentionsStorage(m))
  {
    if error.None? then UnknownError
    else
      var m := LoweredMessage(error.value);
      if MentionsNetwork(m) then NetworkError
      else if MentionsValidation(m) then ValidationError
      else if (error.value.status.Some? && error.value.status.value >= 500) || Contains(m, "server") then ServerError
      else if MentionsStorage(m) then StorageError
      else UnknownError
  }

  /** A word anywhere in a string is contained in it. */
  lemma {:induction false} ContainsMiddle(a: string, t: string, b: string)
    ensures Contains(a + t + b, t)
    decreases |a|
  {
    if a == [] {
      assert a + t + b == t + b;
      assert (t + b)[..|t|] == t;
    } else {
      ContainsMiddle(a[1..], t, b);
      assert (a + t + b)[1..] == a[1..] + t + b;
    }
  }

  /** Matching ignores letter case: an error classifies as its message
      lowercased does. */
  lemma ClassifyIgnoresCase(message: string, status: Option<int>, stack: Option<string>)
    ensures ClassifyError(Some(ErrorValue(Some(Lower(message)), status, stack)))
         == ClassifyError(Some(ErrorValue(Some(message), status, stack)))
  {
    LowerIdempotent(message);
  }

  /** A message naming the network wins over every later test, even a 500
      status. */
  lemma NetworkWordWins(before: string, after: string, status: Option<int>, stack: Option<string>)
    requires before + "fetch" + after == Lower(before + "fetch" + after)
    ensures ClassifyError(Some(ErrorValue(Some(before + "fetch" + after), status, stack))) == NetworkError
  {
    ContainsMiddle(before, "fetch", after);
  }

  /** A status of 500 or more makes an error a server error unless its message
      names a network or validation problem. */
  lemma ServerStatusWins(message: Option<string>, status: int, stack: Option<string>)
    requires status >= 500
    requires !MentionsNetwork(LoweredMessage(ErrorValue(message, Some(status), stack)))
    requires !MentionsValidation(LoweredMessage(ErrorValue(message, Some(status), stack)))
    ensures ClassifyError(Some(ErrorValue(message, Some(status), stack))) == ServerError
  {
  }

  const NetworkMessage: string := "\U{1F310} Network error. Please check your connection and try again."
  const ValidationMessage: string := "\U{26A0}\U{FE0F} Invalid input. Please check your data and try again."
  const ServerMessage: string := "\U{1F527} Server error. Our team has been notified. Please try again later."
  const StorageMessage: string := "\U{1F4BE} Storage error. Your browser storage might be full."
  const UnknownMessage: string := "\U{274C} An unexpected error occurred. Please try again."

  /** The message table of `getUserMessage`. */
  function MessageFor(t: ErrorType): (m: string)
    ensures m != ""
  {
    match t
    case NetworkError => NetworkMessage
    case ValidationError => ValidationMessage
    case ServerError => ServerMessage
    case StorageError => StorageMessage
    case UnknownError => UnknownMessage
  }

  /** Different classifications get different messages, so the table never
      falls back to the unknown message for a known type. */
  lemma MessagesDistinct(a: ErrorType, b: ErrorType)
    ensures MessageFor(a) == MessageFor(b) <==> a == b
  {
    assert |NetworkMessage| == 60 && |ValidationMessage| == 55 && |ServerMessage| == 67;
    assert |StorageMessage| == 52 && |UnknownMessage| == 49;
  }

  /** `getUserMessage(error)`. */
  function UserMessage(error: Option<ErrorValue>): (m: string)
    ensures m != ""
    ensures m == UnknownMessage <==> ClassifyError(error) == UnknownError
  {
    MessagesDistinct(ClassifyError(error), UnknownError);
    MessageFor(ClassifyError(error))
  }

  const MaxLogSize: nat := 50

  /** One log entry; the context object is left out. */
  datatype Entry = Entry(timestamp: string, message: string, errorType: ErrorType, stack: string)

  /** `logError` either logs or throws: reading `.message` of a null error is a
      `TypeError`. */
  datatype Logged = Logged(log: seq<Entry>, entry: Entry) | ThrewTypeError

  /** `logError(error)`: append, then drop the oldest entry when over the cap. */
  function LogError(log: seq<Entry>, error: Option<ErrorValue>, timestamp: string): (r: Logged)
    ensures error.None? <==> r.ThrewTypeError?
    ensures r.Logged? ==> (
      |r.log| == (if |log| + 1 > MaxLogSize then |log| else |log| + 1) &&
      r.log[|r.log| - 1] == r.entry &&
      r.log == (log + [r.entry])[|log| + 1 - |r.log|..])
    ensures r.Logged? ==> r.entry.errorType == ClassifyError(error)
    ensures r.Logged? ==> r.entry.message != ""
    ensures r.Logged? ==> r.entry.timestamp == timestamp
    ensures r.Logged? ==> var e := error.value;
      (e.message.Some? && e.message.value != "" ==> r.entry.message == e.message.value) &&
      (e.message.None? || e.message.value == "" ==> r.entry.message == "Unknown error")
    ensures r.Logged? ==> var e := error.value;
      (e.stack.Some? && e.stack.value != "" ==> r.entry.stack == e.stack.value) &&
      (e.stack.None? || e.stack.value == "" ==> r.entry.stack == "No stack trace available")
  {
    if error.None? then ThrewTypeError
    else
      var e := error.value;
      var message := if e.message.Some? && e.message.value != "" then e.message.value else "Unknown error";
      var stack := if e.stack.Some? && e.stack.value != "" then e.stack.value else "No stack trace available";
      var entry := Entry(timestamp, message, ClassifyError(error), stack);
      Logged(Capped(log + [entry]), entry)
  }

  /** `if (errorLog.length > MAX_LOG_SIZE) errorLog.shift()`: the newest
      entries, at most one fewer than before the shift. */
  function Capped(grown: seq<Entry>): (r: seq<Entry>)
    ensures |r| == (if |grown| > MaxLogSize then |grown| - 1 else |grown|)
    ensures r == grown[|grown| - |r|..]
  {
    if |grown| > MaxLogSize then grown[1..] else grown
  }

  /** The log never outgrows its cap, and on overflow exactly the oldest entry
      goes. */
  lemma LogStaysBounded(log: seq<Entry>, error: ErrorValue, timestamp: string)
    requires |log| <= MaxLogSize
    ensures var r := LogError(log, Some(error), timestamp);
      r.Logged? && |r.log| <= MaxLogSize &&
      (|log| == MaxLogSize ==> r.log == log[1..] + [r.entry]) &&
      (|log| < MaxLogSize ==> r.log == log + [r.entry])
  {
    var r := LogError(log, Some(error), timestamp);
    if |log| == MaxLogSize {
      assert (log + [r.entry])[1..] == log[1..] + [r.entry];
    }
  }

  /** How many logged entries have a type. */
  function CountType(log: seq<Entry>, t: ErrorType): nat {
    Count(log, (e: Entry) => e.errorType == t)
  }

  const AllTypes: seq<ErrorType> := [NetworkError, ValidationError, ServerError, StorageError, UnknownError]

  lemma AllTypesComplete()
    ensures forall t :: t in AllTypes
  {
    forall t: ErrorType
      ensures t in AllTypes
    {
      match t
      case NetworkError => assert AllTypes[0] == t;
      case ValidationError => assert AllTypes[1] == t;
      case ServerError => assert AllTypes[2] == t;
      case StorageError => assert AllTypes[3] == t;
      case UnknownError => assert AllTypes[4] == t;
    }
  }

  /** What `getErrorReport()` returns. */
  datatype Report = Report(total: nat, byType: map<ErrorType, nat>, recentErrors: seq<Entry>,
                           oldestError: Option<Entry>, newestError: Option<Entry>)

  /** `getErrorReport()`: `byType` has a key only for types that occur. */
  function ErrorReport(log: seq<Entry>): (r: Report)
    ensures r.total == |log|
    ensures forall t :: t in r.byType <==> CountType(log, t) > 0
    ensures forall t :: t in r.byType ==> r.byType[t] == CountType(log, t)
    ensures |r.recentErrors| == if |log| < 10 then |log| else 10
    ensures r.recentErrors == log[|log| - |r.recentErrors|..]
    ensures r.oldestError == (if log == [] then None else Some(log[0]))
    ensures r.newestError == (if log == [] then None else Some(log[|log| - 1]))
  {
    var byType := map t | t in AllTypes && CountType(log, t) > 0 :: CountType(log, t);
    AllTypesComplete();
    Report(|log|, byType,
           if |log| <= 10 then log else log[|log| - 10..],
           if log == [] then None else Some(log[0]),
           if log == [] then None else Some(log[|log| - 1]))
  }

  /** Every entry has exactly one type, so the per-type counts add up to the
      total. */
  lemma {:induction false} TypeCountsSumToTotal(log: seq<Entry>)
    ensures CountType(log, NetworkError) + CountType(log, ValidationError) + CountType(log, ServerError)
          + CountType(log, StorageError) + CountType(log, UnknownError) == |log|
  {
    if log != [] {
      TypeCountsSumToTotal(log[1..]);
    }
  }

  /** The report's counts sum to its total (types that do not occur count 0). */
  lemma ReportCountsSumToTotal(log: seq<Entry>)
    ensures var r := ErrorReport(log);
      var n := (t: ErrorType) => if t in r.byType then r.byType[t] else 0;
      n(NetworkError) + n(ValidationError) + n(ServerError) + n(StorageError) + n(UnknownError) == r.total
  {
    TypeCountsSumToTotal(log);
  }

  /** `clearErrorLog()`. */
  function ClearErrorLog(log: seq<Entry>): (r: seq<Entry>)
    ensures ErrorReport(r).total == 0 && ErrorReport(r).newestError == None
  {
    []
  }

  // ---------------------------------------------------------------- recovery

  /** What one recovery strategy did: reported success with data, reported
      failure, or threw. */
  datatype Attempt<D> = Succeeded(data: D) | Unsuccessful | Threw

  /** The index of the first successful strategy, if any. */
  function FirstSuccess<D>(outcomes: seq<Attempt<D>>): (r: Option<nat>)
    ensures r.Some? ==> (r.value < |outcomes| && outcomes[r.value].Succeeded? &&
      forall j :: 0 <= j < r.value ==> !outcomes[j].Succeeded?)
    ensures r.None? ==> forall j :: 0 <= j < |outcomes| ==> !outcomes[j].Succeeded?
  {
    if outcomes == [] then None
    else if outcomes[0].Succeeded? then Some(0)
    else match FirstSuccess(outcomes[1..])
      case None => None
      case Some(k) => Some(k + 1)
  }

  /** What `handleError` resolves to. */
  datatype Handled<D> = Recovered(result: D) | Unrecovered(error: Entry, userMessage: string) | Rejected

  /** `handleError(error, context, strategies)`: the error is logged, then the
      strategies run in order until one reports success. A null error makes
      the logging throw, so the promise rejects. */
  function HandleError<D>(log: seq<Entry>, error: Option<ErrorValue>, timestamp: string,
                          outcomes: seq<Attempt<D>>): (r: (seq<Entry>, Handled<D>))
    ensures r.1.Rejected? <==> error.None?
    ensures error.Some? ==> r.0 == LogError(log, error, timestamp).log
    ensures r.1.Recovered? ==> (exists i :: (0 <= i < |outcomes| && outcomes[i] == Succeeded(r.1.result) &&
      forall j :: 0 <= j < i ==> !outcomes[j].Succeeded?))
    ensures error.Some? && (exists i :: 0 <= i < |outcomes| && outcomes[i].Succeeded?) ==> r.1.Recovered?
    ensures r.1.Unrecovered? ==> r.1.userMessage == UserMessage(error)
  {
    match LogError(log, error, timestamp)
    case ThrewTypeError => (log, Rejected)
    case Logged(log', entry) =>
      match FirstSuccess(outcomes)
      case Some(i) => (log', Recovered(outcomes[i].data))
      case None => (log', Unrecovered(entry, UserMessage(error)))
  }

  /** `Math.pow(2, i)`. */
  function Pow2(i: nat): (p: nat)
    ensures p >= 1
  {
    if i == 0 then 1 else 2 * Pow2(i - 1)
  }

  /** `retryWithBackoff(maxRetries, initialDelay)` applied to an operation:
      `attempt(i)` is what the i-th call of the operation settles to. Returns
      whether it succeeded, the data, and the delays waited before each call. */
  method RetryWithBackoff<D>(maxRetries: int, initialDelay: int, hasOperation: bool, attempt: nat -> Remote<D>)
    returns (success: bool, data: Option<D>, delays: seq<int>)
    ensures !hasOperation ==> !success && delays == []
    ensures |delays| <= (if maxRetries < 0 then 0 else maxRetries)
    ensures forall i :: 0 <= i < |delays| ==> delays[i] == initialDelay * Pow2(i)
    ensures success <==> data.Some?
    ensures success ==> (|delays| >= 1 && attempt(|delays| - 1) == Ok(data.value) &&
      forall i :: 0 <= i < |delays| - 1 ==> attempt(i).Failed?)
    ensures hasOperation && !success ==> (|delays| == (if maxRetries < 0 then 0 else maxRetries) &&
      forall i :: 0 <= i < |delays| ==> attempt(i).Failed?)
  {
    delays := [];
    if !hasOperation {
      return false, None, delays;
    }
    var i := 0;
    while i < maxRetries
      invariant 0 <= i <= (if maxRetries < 0 then 0 else maxRetries)
      invariant |delays| == i
      invariant forall j :: 0 <= j < i ==> delays[j] == initialDelay * Pow2(j) && attempt(j).Failed?
    {
      delays := delays + [initialDelay * Pow2(i)];
      match attempt(i)
      case Ok(v) =>
        return true, Some(v), delays;
      case Failed(_) =>
        if i == maxRetries - 1 {
          return false, None, delays;
        }
      i := i + 1;
    }
    return false, None, delays;
  }

  /** `useCachedData()` as a strategy: without a truthy cache key or a storage
      object it fails; a cached list counts as recovery only if non-empty. */
  function UseCachedData(cacheKey: Option<string>, store: Option<Storage.Store>): (r: Attempt<seq<Task>>)
    ensures r.Succeeded? <==> (cacheKey.Some? && cacheKey.value != "" && store.Some? &&
      Storage.GetTasks(store.value).Tasks? && |Storage.GetTasks(store.value).tasks| > 0)
    ensures r.Succeeded? ==> r.data == Storage.GetTasks(store.value).tasks
    ensures !r.Threw?
  {
    if cacheKey.None? || cacheKey.value == "" || store.None? then Unsuccessful
    else match Storage.GetTasks(store.value)
      case Tasks(ts) => if |ts| > 0 then Succeeded(ts) else Unsuccessful
      case NotAList => Unsuccessful
  }

  /** An empty cache is a failure, not a recovery with nothing. */
  lemma EmptyCacheIsNoRecovery(cacheKey: Option<string>, store: Storage.Store)
    requires Storage.GetTasks(store) == Storage.Tasks([])
    ensures UseCachedData(cacheKey, Some(store)) == Unsuccessful
  {
  }

  /** `clearCorruptedStorage()` as a strategy: with a storage object it clears
      the task cache and recovers with the empty list. */
  function ClearCorruptedStorage(store: Option<Storage.Store>): (r: (Option<Storage.Store>, Attempt<seq<Task>>))
    ensures store.None? ==> r == (None, Unsuccessful)
    ensures store.Some? ==> (r.1 == Succeeded([]) && r.0.Some? &&
      Storage.GetTasks(r.0.value) == Storage.Tasks([]))
  {
    if store.None? then (None, Unsuccessful)
    else (Some(Storage.ClearTasks(store.value).store), Succeeded([]))
  }
}

=== FILE: exportimport.dfy ===
/**
 * Building the CSV export and reading CSV and JSON imports
 * (frontend/exportImport.js). Date formatting (`toLocaleString`) is the
 * parameter `formatDate`; the clock that stamps imported rows is `now`.
 * Reading the file and `JSON.parse` happen before: the JSON import receives
 * the parsed value, or `None` when parsing failed.
 */
module ExportImport {
  import opened Wrappers
  import opened Text
  import opened Seqs
  import opened Tasks
  import opened Json
  import opened Csv
  import Validator

  /** What an import resolves with, or rejects with. */
  datatype Import<T> = Imported(items: seq<T>, message: string) | Rejected(message: string)

  // ---------------------------------------------------------------------
  // Export

  const Header: string := "Title,Status,Created At,Updated At"

  /** One exported row: the escaped title, the status and the two dates. */
  function CsvRow(t: Task, formatDate: int -> string): string {
    Join([EscapeCsvValue(t.title), t.status, formatDate(t.createdAt), formatDate(t.updatedAt)], [Comma])
  }

  function CsvRows(tasks: seq<Task>, formatDate: int -> string): (r: seq<string>)
    ensures |r| == |tasks|
    ensures forall i :: 0 <= i < |tasks| ==> r[i] == CsvRow(tasks[i], formatDate)
  {
    if tasks == [] then [] else [CsvRow(tasks[0], formatDate)] + CsvRows(tasks[1..], formatDate)
  }

  /** The text `exportToCSV` writes: the header line, then one line per task. */
  function ExportCsv(tasks: seq<Task>, formatDate: int -> string): (r: string)
    ensures tasks == [] ==> r == Header
    ensures tasks != [] ==> |Header| < |r| && r[..|Header| + 1] == Header + [Newline]
  {
    var rows := CsvRows(tasks, formatDate);
    assert ([Header] + rows)[0] == Header && ([Header] + rows)[1..] == rows;
    Join([Header] + rows, [Newline])
  }

  lemma JoinFour(a: string, b: string, c: string, d: string, sep: string)
    ensures Join([a, b, c, d], sep) == a + sep + (b + sep + Join([c, d], sep))
  {
    assert [a, b, c, d][1..] == [b, c, d];
    assert [b, c, d][1..] == [c, d];
    assert a + sep + (b + sep + Join([c, d], sep)) == a + sep + b + sep + Join([c, d], sep);
  }

  /** Parsing an exported row gives back the title and the status as its
      first two fields, whatever the date columns hold. */
  lemma ParseExportedRow(t: Task, formatDate: int -> string)
    requires Comma !in t.status && Quote !in t.status
    ensures var values := ParseCsvLine(CsvRow(t, formatDate));
      |values| >= 2 && values[0] == t.title && values[1] == t.status
  {
    var rest := Join([formatDate(t.createdAt), formatDate(t.updatedAt)], [Comma]);
    JoinFour(EscapeCsvValue(t.title), t.status, formatDate(t.createdAt), formatDate(t.updatedAt), [Comma]);
    ParseTwoFields(t.title, t.status, rest);
  }

  /** An escaped value and a plain one, each followed by a comma, parse as
      the first two fields. */
  lemma ParseTwoFields(title: string, status: string, rest: string)
    requires Comma !in status && Quote !in status
    ensures var values := ParseCsvLine(EscapeCsvValue(title) + [Comma] + (status + [Comma] + rest));
      |values| >= 2 && values[0] == title && values[1] == status
  {
    EscapedFieldThenComma(title, status + [Comma] + rest, []);
    assert [] + [title] == [title];
    assert status + [Comma] + rest == status + ([Comma] + rest);
    ParsePlain(status, [Comma] + rest, "", [title]);
    assert "" + status == status;
    assert ([Comma] + rest)[0] == Comma && ([Comma] + rest)[1..] == rest;
    assert [title] + [status] == [title, status];
    assert ParseFrom([Comma] + rest, status, false, [title]) == ParseFrom(rest, "", false, [title, status]);
    ParseFromKeepsFields(rest, "", false, [title, status]);
    var values := ParseFrom(rest, "", false, [title, status]);
    assert values[..2] == [title, status];
    assert values[0] == values[..2][0] && values[1] == values[..2][1];
  }

  // ---------------------------------------------------------------------
  // CSV import

  /** `line => line.trim()`: a line counts unless it is blank. */
  predicate NonBlank(line: string) {
    |Trim(line)| > 0
  }

  /** Whether a data line yields a task: at least two fields, a title that is
      not blank and a status that is valid once trimmed and lower-cased. */
  predicate RowAccepted(line: string) {
    var values := ParseCsvLine(line);
    |values| >= 2 && |Trim(values[0])| > 0 && ValidStatus(Lower(Trim(values[1])))
  }

  /** The task an accepted line yields. */
  function RowTask(line: string, now: int): Task
    requires RowAccepted(line)
  {
    var values := ParseCsvLine(line);
    Task("", Trim(values[0]), Lower(Trim(values[1])), now, now)
  }

  /** The data lines' loop: accepted lines become tasks, in order. */
  function ImportRows(lines: seq<string>, now: int): (r: seq<Task>)
    ensures |r| <= |lines|
    ensures forall i :: 0 <= i < |r| ==>
      |r[i].title| > 0 && Trim(r[i].title) == r[i].title && ValidStatus(r[i].status) && r[i].createdAt == now
  {
    if lines == [] then []
    else
      (if RowAccepted(lines[0]) then TrimIdempotent(ParseCsvLine(lines[0])[0]); [RowTask(lines[0], now)] else [])
      + ImportRows(lines[1..], now)
  }

  /** `task${n !== 1 ? 's' : ''}`. */
  function Plural(n: nat): string {
    if n != 1 then "tasks" else "task"
  }

  /** The body of `importFromCSV`'s load handler. */
  function ImportCsv(content: string, now: int): (r: Import<Task>)
    ensures |Filter(Split(content, Newline), NonBlank)| < 2 ==> r == Rejected("CSV file is empty or invalid")
    ensures var lines := Filter(Split(content, Newline), NonBlank);
      |lines| >= 2 ==>
        (r.Imported? <==> exists i :: 1 <= i < |lines| && RowAccepted(lines[i])) &&
        (!r.Imported? ==> r == Rejected("No valid tasks found in CSV"))
    ensures r.Imported? ==> (|r.items| > 0 &&
      r.items == ImportRows(Filter(Split(content, Newline), NonBlank)[1..], now) &&
      r.message == "Successfully imported " + Show(|r.items|) + " " + Plural(|r.items|) + " from CSV")
  {
    var lines := Filter(Split(content, Newline), NonBlank);
    if |lines| < 2 then Rejected("CSV file is empty or invalid")
    else
      SomeRowAccepted(lines, now);
      var tasks := ImportRows(lines[1..], now);
      if |tasks| == 0 then Rejected("No valid tasks found in CSV")
      else Imported(tasks, "Successfully imported " + Show(|tasks|) + " " + Plural(|tasks|) + " from CSV")
  }

  /** Past the header line, an import yields some task exactly when some
      data line is accepted. */
  lemma SomeRowAccepted(lines: seq<string>, now: int)
    requires |lines| >= 1
    ensures |ImportRows(lines[1..], now)| > 0 <==> exists i :: 1 <= i < |lines| && RowAccepted(lines[i])
  {
    var rows := lines[1..];
    ImportRowsSelects(rows, now);
    CountIsFilterLength(rows, RowAccepted);
    FilterNonEmptyIff(rows, RowAccepted);
    if exists i :: 1 <= i < |lines| && RowAccepted(lines[i]) {
      var i :| 1 <= i < |lines| && RowAccepted(lines[i]);
      assert rows[i - 1] == lines[i];
    }
    if exists j :: 0 <= j < |rows| && RowAccepted(rows[j]) {
      var j :| 0 <= j < |rows| && RowAccepted(rows[j]);
      assert lines[j + 1] == rows[j];
    }
  }

  /** One task per accepted line, in the lines' order. */
  function RowTasks(accepted: seq<string>, now: int): (r: seq<Task>)
    requires forall i :: 0 <= i < |accepted| ==> RowAccepted(accepted[i])
    ensures |r| == |accepted|
    ensures forall i :: 0 <= i < |r| ==> r[i] == RowTask(accepted[i], now)
  {
    if accepted == [] then [] else [RowTask(accepted[0], now)] + RowTasks(accepted[1..], now)
  }

  /** The tasks a CSV import yields are the accepted lines' tasks, in order
      and nothing else: every line after the header is judged on its own. */
  lemma {:induction false} ImportRowsAreAcceptedTasks(lines: seq<string>, now: int)
    ensures ImportRows(lines, now) == RowTasks(Filter(lines, RowAccepted), now)
  {
    if lines != [] {
      ImportRowsAreAcceptedTasks(lines[1..], now);
      var rest := Filter(lines[1..], RowAccepted);
      if RowAccepted(lines[0]) {
        assert Filter(lines, RowAccepted) == [lines[0]] + rest;
        assert ([lines[0]] + rest)[1..] == rest;
      } else {
        assert Filter(lines, RowAccepted) == [] + rest == rest;
      }
    }
  }

  /** Hence one task per accepted line, and every accepted line's task is
      among them. */
  lemma {:induction false} ImportRowsSelects(lines: seq<string>, now: int)
    ensures ImportRows(lines, now) == RowTasks(Filter(lines, RowAccepted), now)
    ensures |ImportRows(lines, now)| == Count(lines, RowAccepted)
    ensures forall i :: 0 <= i < |lines| && RowAccepted(lines[i]) ==> RowTask(lines[i], now) in ImportRows(lines, now)
  {
    ImportRowsAreAcceptedTasks(lines, now);
    CountIsFilterLength(lines, RowAccepted);
    var accepted := Filter(lines, RowAccepted);
    forall i | 0 <= i < |lines| && RowAccepted(lines[i]) ensures RowTask(lines[i], now) in ImportRows(lines, now) {
      var k :| 0 <= k < |accepted| && accepted[k] == lines[i];
      assert ImportRows(lines, now)[k] == RowTask(lines[i], now);
    }
  }

  lemma {:induction false} JoinAvoids(parts: seq<string>, sep: string, c: char)
    requires c !in sep
    requires forall i :: 0 <= i < |parts| ==> c !in parts[i]
    ensures c !in Join(parts, sep)
  {
    if |parts| > 1 {
      JoinAvoids(parts[1..], sep, c);
    }
  }

  lemma EscapeAvoidsNewline(v: string)
    requires Newline !in v
    ensures Newline !in EscapeCsvValue(v)
  {
    if NeedsQuoting(v) {
      ReplaceAllKeeps(v, Quote, [Quote, Quote], Newline);
    }
  }

  lemma {:induction false} ReplaceAllKeeps(s: string, c: char, rep: string, x: char)
    requires x !in s && x !in rep
    ensures x !in ReplaceAll(s, c, rep)
  {
    if s != [] {
      ReplaceAllKeeps(s[1..], c, rep, x);
    }
  }

  /** A task whose row the import accepts as it stands: a non-blank title
      without surrounding whitespace and one of the two statuses. */
  predicate Importable(t: Task) {
    |t.title| > 0 && Trim(t.title) == t.title && ValidStatus(t.status)
  }

  /** A task the export writes and the import can read back. */
  predicate Exportable(t: Task, formatDate: int -> string) {
    Newline !in t.title && Importable(t) &&
    Newline !in formatDate(t.createdAt) && Newline !in formatDate(t.updatedAt)
  }

  /** A word of lower-case ASCII letters reads back as itself and holds no
      comma, quote or line break. */
  lemma LowercaseWordReadsBack(s: string)
    requires |s| > 0 && forall i :: 0 <= i < |s| ==> 'a' <= s[i] <= 'z'
    ensures Lower(Trim(s)) == s && Comma !in s && Quote !in s && Newline !in s
  {
    assert !IsSpace(s[0]) && !IsSpace(s[|s| - 1]);
    TrimOfSolid(s);
    LowerOfLowercase(s);
  }

  lemma ValidStatusReadsBack(s: string)
    requires ValidStatus(s)
    ensures Lower(Trim(s)) == s && Comma !in s && Quote !in s && Newline !in s
  {
    if s == Pending {
      assert forall i :: 0 <= i < |Pending| ==> 'a' <= Pending[i] <= 'z';
    } else {
      assert forall i :: 0 <= i < |Completed| ==> 'a' <= Completed[i] <= 'z';
    }
    LowercaseWordReadsBack(s);
  }

  lemma TrimOfSolid(s: string)
    requires |s| > 0 && !IsSpace(s[0]) && !IsSpace(s[|s| - 1])
    ensures Trim(s) == s
  {
    TrimStartShape(s);
    TrimEndShape(s);
    assert TrimStart(s) == s;
    TrimEndShape(TrimStart(s));
  }

  lemma LowerOfLowercase(s: string)
    requires forall i :: 0 <= i < |s| ==> 'a' <= s[i] <= 'z'
    ensures Lower(s) == s
  {
  }

  lemma {:induction false} ExportedRowsAccepted(tasks: seq<Task>, formatDate: int -> string, now: int)
    requires forall i :: 0 <= i < |tasks| ==> Importable(tasks[i])
    ensures var r := ImportRows(CsvRows(tasks, formatDate), now);
      |r| == |tasks| &&
      forall i :: 0 <= i < |tasks| ==> r[i] == Task("", tasks[i].title, tasks[i].status, now, now)
  {
    if tasks != [] {
      var t := tasks[0];
      ValidStatusReadsBack(t.status);
      ParseExportedRow(t, formatDate);
      ExportedRowsAccepted(tasks[1..], formatDate, now);
      var rows := CsvRows(tasks, formatDate);
      assert rows[1..] == CsvRows(tasks[1..], formatDate);
      assert RowAccepted(rows[0]);
      var r := ImportRows(rows, now);
      assert r == [RowTask(rows[0], now)] + ImportRows(rows[1..], now);
    }
  }

  /** An exported row has no line break and is not blank. */
  lemma CsvRowSolid(t: Task, formatDate: int -> string)
    requires Exportable(t, formatDate)
    ensures Newline !in CsvRow(t, formatDate) && NonBlank(CsvRow(t, formatDate))
  {
    var p := [EscapeCsvValue(t.title), t.status, formatDate(t.createdAt), formatDate(t.updatedAt)];
    ValidStatusReadsBack(t.status);
    EscapeAvoidsNewline(t.title);
    forall i | 0 <= i < |p| ensures Newline !in p[i] {
      if i == 0 {} else if i == 1 {} else if i == 2 {} else {}
    }
    assert Newline !in [Comma];
    JoinAvoids(p, [Comma], Newline);
    CsvRowNonBlank(t, formatDate);
  }

  /** A row always has the comma after its title, so it is never blank. */
  lemma CsvRowNonBlank(t: Task, formatDate: int -> string)
    ensures NonBlank(CsvRow(t, formatDate))
  {
    var p := [EscapeCsvValue(t.title), t.status, formatDate(t.createdAt), formatDate(t.updatedAt)];
    var line := CsvRow(t, formatDate);
    JoinFour(p[0], p[1], p[2], p[3], [Comma]);
    assert line[|p[0]|] == Comma;
    SolidCharNotBlank(line, |p[0]|);
  }

  /** The header has no quote and no line break, and is not blank. */
  lemma HeaderSolid()
    ensures Newline !in Header && Quote !in Header && NonBlank(Header)
  {
    assert forall i :: 0 <= i < |Header| ==> Header[i] != Newline && Header[i] != Quote;
    assert Header[5] == Comma;
    SolidCharNotBlank(Header, 5);
  }

  /** Round trip: importing an export yields the same titles and statuses,
      in order, stamped with the import time. */
  lemma ExportImportRoundTrip(tasks: seq<Task>, formatDate: int -> string, now: int)
    requires |tasks| > 0
    requires forall i :: 0 <= i < |tasks| ==> Exportable(tasks[i], formatDate)
    ensures var r := ImportCsv(ExportCsv(tasks, formatDate), now);
      r.Imported? && |r.items| == |tasks| &&
      forall i :: 0 <= i < |tasks| ==> r.items[i] == Task("", tasks[i].title, tasks[i].status, now, now)
  {
    var rows := CsvRows(tasks, formatDate);
    var lines := [Header] + rows;
    forall i | 0 <= i < |lines| ensures Newline !in lines[i] && NonBlank(lines[i]) {
      if i == 0 {
        HeaderSolid();
      } else {
        assert lines[i] == CsvRow(tasks[i - 1], formatDate);
        CsvRowSolid(tasks[i - 1], formatDate);
      }
    }
    SplitJoin(lines, Newline);
    assert Split(ExportCsv(tasks, formatDate), Newline) == lines;
    FilterAll(lines, NonBlank);
    assert lines[1..] == rows;
    ExportedRowsAccepted(tasks, formatDate, now);
  }

  /** The two date fields of a row, comma-separated. */
  function DateFields(t: Task, formatDate: int -> string): string {
    Join([formatDate(t.createdAt), formatDate(t.updatedAt)], [Comma])
  }

  /** The line after the cut: the rest of the title, the closing quote and
      the remaining fields. */
  function AfterBreak(y: string, t: Task, formatDate: int -> string): string {
    y + [Quote] + ([Comma] + (t.status + [Comma] + DateFields(t, formatDate)))
  }

  /** Whatever the status and the dates, the row of a task titled `x`, line
      break, `y` (no quotes, and no comma after the break) is cut by the
      import's split at every line break into two lines that each have a
      single field, so the import finds no task. */
  lemma TitleWithLineBreakIsLost(x: string, y: string, t: Task, formatDate: int -> string, now: int)
    requires t.title == x + [Newline] + y
    requires Quote !in x && Newline !in x
    requires Quote !in y && Newline !in y && Comma !in y
    requires ValidStatus(t.status) && PlainDates(t, formatDate)
    ensures ImportCsv(ExportCsv([t], formatDate), now) == Rejected("No valid tasks found in CSV")
  {
    var first := [Quote] + x;
    var second := AfterBreak(y, t, formatDate);
    TitleWithLineBreakSplits(x, y, t, formatDate);
    HeaderSolid();
    AfterBreakRejected(y, t, formatDate);
    OpenQuoteRejected(first, x);
    SolidCharNotBlank(first, 0);
    NoRowAccepted(ExportCsv([t], formatDate), Header, first, second, now);
  }

  /** The export of such a task splits into the header and the two halves. */
  lemma TitleWithLineBreakSplits(x: string, y: string, t: Task, formatDate: int -> string)
    requires t.title == x + [Newline] + y
    requires Quote !in x && Newline !in x
    requires Quote !in y && Newline !in y
    requires ValidStatus(t.status) && PlainDates(t, formatDate)
    ensures Split(ExportCsv([t], formatDate), Newline) == [Header, [Quote] + x, AfterBreak(y, t, formatDate)]
  {
    TitleWithLineBreakRow(x, y, t, formatDate);
    assert CsvRows([t], formatDate) == [CsvRow(t, formatDate)];
    DateFieldsPlain(t, formatDate);
    ValidStatusReadsBack(t.status);
    OneRowSplits(CsvRow(t, formatDate), [Quote] + x, AfterBreak(y, t, formatDate));
  }

  /** An export of one row that holds one line break splits into three lines. */
  lemma OneRowSplits(row: string, first: string, second: string)
    requires row == first + [Newline] + second
    requires Newline !in first && Newline !in second
    ensures Split(Join([Header] + [row], [Newline]), Newline) == [Header, first, second]
  {
    ExportOfOne(row);
    HeaderSolid();
    SplitThree(Header, first, second);
  }

  /** Plain dates make plain date fields. */
  lemma DateFieldsPlain(t: Task, formatDate: int -> string)
    requires PlainDates(t, formatDate)
    ensures Newline !in DateFields(t, formatDate) && Quote !in DateFields(t, formatDate)
  {
    var p := [formatDate(t.createdAt), formatDate(t.updatedAt)];
    assert Newline !in p[0] && Newline !in p[1] && Quote !in p[0] && Quote !in p[1];
    JoinAvoids(p, [Comma], Newline);
    JoinAvoids(p, [Comma], Quote);
  }

  /** The line after the cut is not blank and has one field. */
  lemma AfterBreakRejected(y: string, t: Task, formatDate: int -> string)
    requires Quote !in y && Comma !in y
    requires ValidStatus(t.status) && PlainDates(t, formatDate)
    ensures NonBlank(AfterBreak(y, t, formatDate)) && !RowAccepted(AfterBreak(y, t, formatDate))
  {
    var tail := [Comma] + (t.status + [Comma] + DateFields(t, formatDate));
    var line := AfterBreak(y, t, formatDate);
    DateFieldsPlain(t, formatDate);
    ValidStatusReadsBack(t.status);
    assert Quote !in tail;
    SingleFieldRejected(line, y, tail);
    assert line[|y|] == Quote;
    SolidCharNotBlank(line, |y|);
  }

  /** The row of such a task: the quoted title, cut by its line break. */
  lemma TitleWithLineBreakRow(x: string, y: string, t: Task, formatDate: int -> string)
    requires t.title == x + [Newline] + y
    requires Quote !in x && Quote !in y
    ensures CsvRow(t, formatDate) == [Quote] + x + [Newline] + AfterBreak(y, t, formatDate)
  {
    assert t.title[|x|] == Newline;
    assert NeedsQuoting(t.title);
    assert Quote !in t.title;
    ReplaceAllAbsent(t.title, Quote, [Quote, Quote]);
    var e := [Quote] + t.title + [Quote];
    assert EscapeCsvValue(t.title) == e;
    JoinFour(e, t.status, formatDate(t.createdAt), formatDate(t.updatedAt), [Comma]);
    var rest := t.status + [Comma] + DateFields(t, formatDate);
    assert CsvRow(t, formatDate) == e + [Comma] + rest;
    Regroup([Quote], x, [Newline], y, [Comma], rest);
  }

  lemma Regroup(q: string, x: string, n: string, y: string, c: string, rest: string)
    ensures q + (x + n + y) + q + c + rest == q + x + n + (y + q + (c + rest))
  {
  }

  /** The export of one row is the header, a line break and the row. */
  lemma ExportOfOne(row: string)
    ensures Join([Header] + [row], [Newline]) == Header + [Newline] + row
  {
    assert [Header] + [row] == [Header, row];
    assert [Header, row][1..] == [row];
  }

  /** A line that opens a quote it never closes has one field, so it yields
      no task. */
  lemma OpenQuoteRejected(line: string, rest: string)
    requires line == [Quote] + rest && Quote !in rest
    ensures !RowAccepted(line)
  {
    assert line[1..] == rest;
    QuotedRestHasNoCommas(rest);
    ParseCsvLineFieldCount(line);
  }

  /** A line made of a quote-and-comma-free prefix, a quote, and quote-free
      text has one field, so it yields no task. */
  lemma SingleFieldRejected(line: string, p: string, rest: string)
    requires line == p + [Quote] + rest
    requires Quote !in p && Comma !in p && Quote !in rest
    ensures !RowAccepted(line)
  {
    assert line == p + ([Quote] + rest);
    PlainPrefixAddsNoCommas(p, [Quote] + rest, false);
    assert ([Quote] + rest)[1..] == rest;
    QuotedRestHasNoCommas(rest);
    ParseCsvLineFieldCount(line);
  }

  /** A title with a line break passes the title check, yet the import of
      its export finds no task. */
  lemma NewlineTitleIsLost(now: int)
    ensures Validator.ValidateTaskTitle(Some("a\nb")).TitleOk?
    ensures ImportCsv(ExportCsv([Task("", "a\nb", Pending, 0, 0)], Stamp), now) ==
      Rejected("No valid tasks found in CSV")
  {
    NewlineTitleValid();
    var t := Task("", "a\nb", Pending, 0, 0);
    assert t.title == "a" + [Newline] + "b";
    TitleWithLineBreakIsLost("a", "b", t, Stamp, now);
  }

  /** The record splitter reads the same export back with its task. */
  lemma NewlineTitleKeptByRecords(now: int)
    ensures var r := ImportCsvRecords(ExportCsv([Task("", "a\nb", Pending, 0, 0)], Stamp), now);
      r.Imported? && r.items == [Task("", "a\nb", Pending, now, now)]
  {
    var t := Task("", "a\nb", Pending, 0, 0);
    assert !IsSpace(t.title[0]) && !IsSpace(t.title[2]);
    TrimOfSolid(t.title);
    assert Importable(t) && PlainDates(t, Stamp);
    ExportImportRecordsRoundTrip([t], Stamp, now);
  }

  /** A text of a header and two lines, neither of which is accepted, is
      rejected as holding no task. */
  lemma NoRowAccepted(content: string, header: string, first: string, second: string, now: int)
    requires Split(content, Newline) == [header, first, second]
    requires NonBlank(header) && NonBlank(first) && NonBlank(second)
    requires !RowAccepted(first) && !RowAccepted(second)
    ensures ImportCsv(content, now) == Rejected("No valid tasks found in CSV")
  {
    var lines := [header, first, second];
    FilterAll(lines, NonBlank);
    assert lines[1..] == [first, second];
    assert [first, second][1..] == [second];
    assert ImportRows([first, second], now) == [];
  }

  lemma NewlineTitleValid()
    ensures Validator.ValidateTaskTitle(Some("a\nb")).TitleOk?
  {
    var title := "a\nb";
    assert !IsSpace(title[0]) && !IsSpace(title[2]);
    TrimOfSolid(title);
    assert IsAsciiAlnum(title[0]);
  }

  /** Three line-break-free pieces joined by line breaks split back apart. */
  lemma SplitThree(a: string, b: string, c: string)
    requires Newline !in a && Newline !in b && Newline !in c
    ensures Split(a + [Newline] + (b + [Newline] + c), Newline) == [a, b, c]
  {
    SplitAtSeparator(a, Newline, b + [Newline] + c);
    SplitAtSeparator(b, Newline, c);
    SplitNoSeparator(c, Newline);
  }

  /** A stand-in for `toLocaleString`, for the example. */
  function Stamp(ms: int): string { "d" }

  /** The records of a CSV text, split only at line breaks outside quoted
      fields, and with blank records dropped. */
  function Records(content: string): seq<string> {
    Filter(SplitRecords(content), NonBlank)
  }

  /** `importFromCSV` with the text cut into records by `SplitRecords`
      instead of at every line break, so that a quoted title may hold one. */
  function ImportCsvRecords(content: string, now: int): (r: Import<Task>)
    ensures |Records(content)| < 2 ==> r == Rejected("CSV file is empty or invalid")
    ensures var lines := Records(content);
      |lines| >= 2 ==>
        (r.Imported? <==> exists i :: 1 <= i < |lines| && RowAccepted(lines[i])) &&
        (!r.Imported? ==> r == Rejected("No valid tasks found in CSV"))
    ensures r.Imported? ==> (|r.items| > 0 &&
      r.items == ImportRows(Records(content)[1..], now) &&
      r.message == "Successfully imported " + Show(|r.items|) + " " + Plural(|r.items|) + " from CSV")
  {
    var lines := Records(content);
    if |lines| < 2 then Rejected("CSV file is empty or invalid")
    else
      SomeRowAccepted(lines, now);
      var tasks := ImportRows(lines[1..], now);
      if |tasks| == 0 then Rejected("No valid tasks found in CSV")
      else Imported(tasks, "Successfully imported " + Show(|tasks|) + " " + Plural(|tasks|) + " from CSV")
  }

  /** Dates as `toLocaleString` writes them: no quotes, no line breaks. */
  predicate PlainDates(t: Task, formatDate: int -> string) {
    Quote !in formatDate(t.createdAt) && Newline !in formatDate(t.createdAt) &&
    Quote !in formatDate(t.updatedAt) && Newline !in formatDate(t.updatedAt)
  }

  /** Four well-quoted fields joined by commas form a well-quoted record. */
  lemma FourFieldsWellQuoted(a: string, b: string, c: string, d: string)
    requires WellQuoted(a) && WellQuoted(b) && WellQuoted(c) && WellQuoted(d)
    ensures WellQuoted(Join([a, b, c, d], [Comma]))
  {
    var p := [a, b, c, d];
    forall i | 0 <= i < |p| ensures WellQuoted(p[i]) {
      if i == 0 {} else if i == 1 {} else if i == 2 {} else {}
    }
    assert Quote !in [Comma] && Newline !in [Comma];
    JoinWellQuoted(p, [Comma]);
  }

  /** Text without quotes or line breaks is one well-quoted record. */
  lemma PlainWellQuoted(s: string)
    requires Quote !in s && Newline !in s
    ensures WellQuoted(s)
  {
    PlainText(s, false);
  }

  /** An exported row is one well-quoted record. */
  lemma CsvRowWellQuoted(t: Task, formatDate: int -> string)
    requires ValidStatus(t.status) && PlainDates(t, formatDate)
    ensures WellQuoted(CsvRow(t, formatDate))
  {
    ValidStatusReadsBack(t.status);
    EscapeWellQuoted(t.title);
    PlainWellQuoted(t.status);
    PlainWellQuoted(formatDate(t.createdAt));
    PlainWellQuoted(formatDate(t.updatedAt));
    FourFieldsWellQuoted(EscapeCsvValue(t.title), t.status, formatDate(t.createdAt), formatDate(t.updatedAt));
  }

  /** Well-quoted, non-blank lines joined by line breaks are read back as
      the same records. */
  lemma JoinedRecords(lines: seq<string>)
    requires |lines| >= 1
    requires forall i :: 0 <= i < |lines| ==> WellQuoted(lines[i]) && NonBlank(lines[i])
    ensures Filter(SplitRecords(Join(lines, [Newline])), NonBlank) == lines
  {
    SplitRecordsJoin(lines);
    FilterAll(lines, NonBlank);
  }

  /** A header in front of well-quoted, non-blank rows. */
  lemma HeaderThenRows(header: string, rows: seq<string>)
    requires WellQuoted(header) && NonBlank(header)
    requires forall i :: 0 <= i < |rows| ==> WellQuoted(rows[i]) && NonBlank(rows[i])
    ensures forall i :: 0 <= i < |[header] + rows| ==> WellQuoted(([header] + rows)[i]) && NonBlank(([header] + rows)[i])
  {
    var lines := [header] + rows;
    forall i | 0 <= i < |lines| ensures WellQuoted(lines[i]) && NonBlank(lines[i]) {
      if i > 0 {
        assert lines[i] == rows[i - 1];
      }
    }
  }

  /** Every exported row is one well-quoted, non-blank record. */
  lemma RowsWellQuoted(tasks: seq<Task>, formatDate: int -> string)
    requires forall i :: 0 <= i < |tasks| ==> Importable(tasks[i]) && PlainDates(tasks[i], formatDate)
    ensures forall i :: 0 <= i < |tasks| ==>
      WellQuoted(CsvRows(tasks, formatDate)[i]) && NonBlank(CsvRows(tasks, formatDate)[i])
  {
    forall i | 0 <= i < |tasks|
      ensures WellQuoted(CsvRow(tasks[i], formatDate)) && NonBlank(CsvRow(tasks[i], formatDate))
    {
      CsvRowWellQuoted(tasks[i], formatDate);
      CsvRowNonBlank(tasks[i], formatDate);
    }
  }

  /** The records of a header line followed by rows are the header and the
      rows, when each of them is a well-quoted, non-blank record. */
  lemma RecordsOfLines(header: string, rows: seq<string>)
    requires WellQuoted(header) && NonBlank(header)
    requires forall i :: 0 <= i < |rows| ==> WellQuoted(rows[i]) && NonBlank(rows[i])
    ensures Records(Join([header] + rows, [Newline])) == [header] + rows
  {
    HeaderThenRows(header, rows);
    JoinedRecords([header] + rows);
  }

  /** The header is one well-quoted record. */
  lemma HeaderWellQuoted()
    ensures WellQuoted(Header) && NonBlank(Header)
  {
    HeaderSolid();
    PlainText(Header, false);
  }

  /** Round trip through the record splitter: importing an export yields the
      same titles and statuses, in order, line breaks in titles included. */
  lemma ExportImportRecordsRoundTrip(tasks: seq<Task>, formatDate: int -> string, now: int)
    requires |tasks| > 0
    requires forall i :: 0 <= i < |tasks| ==> Importable(tasks[i]) && PlainDates(tasks[i], formatDate)
    ensures var r := ImportCsvRecords(ExportCsv(tasks, formatDate), now);
      r.Imported? && |r.items| == |tasks| &&
      forall i :: 0 <= i < |tasks| ==> r.items[i] == Task("", tasks[i].title, tasks[i].status, now, now)
  {
    var rows := CsvRows(tasks, formatDate);
    HeaderWellQuoted();
    RowsWellQuoted(tasks, formatDate);
    RecordsOfLines(Header, rows);
    assert ([Header] + rows)[1..] == rows;
    ExportedRowsAccepted(tasks, formatDate, now);
  }

  lemma SolidCharNotBlank(s: string, k: int)
    requires 0 <= k < |s| && !IsSpace(s[k])
    ensures NonBlank(s)
  {
    TrimEmptyIffAllSpace(s);
  }

  // ---------------------------------------------------------------------
  // JSON import

  /** The per-entry test of `importFromJSON`: a non-blank string title and a
      status that is exactly "pending" or "completed". */
  predicate JsonTaskValid(v: Json) {
    var title := Get(v, "title");
    Truthy(title) && title.value.JStr? && |Trim(title.value.s)| > 0 &&
    Get(v, "status") in {Some(JStr(Pending)), Some(JStr(Completed))}
  }

  /** The JSON import, given the result of `JSON.parse` (`None` if it threw).
      Reading `task.title` on a `null` entry throws, which the handler
      reports like a parse failure. */
  function ImportJson(parsed: Option<Json>): (r: Import<Json>)
    ensures parsed.None? ==> r == Rejected("Failed to parse JSON file")
    ensures parsed.Some? && !parsed.value.JArr? ==> r == Rejected("Invalid file format: Expected an array of tasks")
    ensures r.Imported? ==> (
      parsed.Some? && parsed.value.JArr? && JNull !in parsed.value.items && |r.items| > 0 &&
      r.items == Filter(parsed.value.items, JsonTaskValid) &&
      r.message == "Successfully imported " + Show(|r.items|) + " " + Plural(|r.items|))
  {
    match parsed
    case None => Rejected("Failed to parse JSON file")
    case Some(JArr(items)) =>
      if JNull in items then Rejected("Failed to parse JSON file")
      else
        var valid := Filter(items, JsonTaskValid);
        if |valid| == 0 then Rejected("No valid tasks found in file")
        else Imported(valid, "Successfully imported " + Show(|valid|) + " " + Plural(|valid|))
    case Some(_) => Rejected("Invalid file format: Expected an array of tasks")
  }

  /** An array without `null` entries is accepted exactly when one of its
      entries is a valid task, and then every valid entry is kept. */
  lemma ImportJsonAcceptsValidEntries(items: seq<Json>)
    requires JNull !in items
    ensures ImportJson(Some(JArr(items))).Imported? <==> exists i :: 0 <= i < |items| && JsonTaskValid(items[i])
    ensures ImportJson(Some(JArr(items))).Imported? ==>
      forall i :: 0 <= i < |items| && JsonTaskValid(items[i]) ==> items[i] in ImportJson(Some(JArr(items))).items
  {
    FilterNonEmptyIff(items, JsonTaskValid);
  }
}

=== FILE: json.dfy ===
/**
 * JSON values, as `JSON.parse` produces them, and JavaScript truthiness of a
 * property read on them.
 */
module Json {
  import opened Wrappers

  datatype Json =
    | JNull
    | JBool(b: bool)
    | JNum(n: int)
    | JStr(s: string)
    | JArr(items: seq<Json>)
    | JObj(fields: map<string, Json>)

  /** `v[key]` where `undefined` is `None`. Reading a property of `null`
      throws; callers handle that case before calling. */
  function Get(v: Json, key: string): Option<Json> {
    match v
    case JObj(fields) => if key in fields then Some(fields[key]) else None
    case _ => None
  }

  /** JavaScript truthiness of a JSON value (`undefined` counts as `None`). */
  predicate Truthy(v: Option<Json>) {
    match v
    case None => false
    case Some(JNull) => false
    case Some(JBool(b)) => b
    case Some(JNum(n)) => n != 0
    case Some(JStr(s)) => s != ""
    case Some(_) => true
  }
}

=== FILE: keyboard.dfy ===
/**
 * Keyboard shortcuts (frontend/keyboard.js): the shortcut table, the dispatch
 * of one `keydown` event to at most one action, calling a registered
 * callback, and the printed form of a shortcut. Key names are compared as
 * `KeyboardEvent.key` strings; lower- and upper-casing are ASCII only.
 */
module Keyboard {
  import opened Wrappers
  import opened Text

  datatype Action =
    | NewTask | Search | SelectAll | DeleteSelected | Escape
    | FilterAll | FilterPending | FilterCompleted | Export
  {
    /** The action name callbacks are registered under. */
    function Name(): string {
      match this
      case NewTask => "newTask"
      case Search => "search"
      case SelectAll => "selectAll"
      case DeleteSelected => "deleteSelected"
      case Escape => "escape"
      case FilterAll => "filterAll"
      case FilterPending => "filterPending"
      case FilterCompleted => "filterCompleted"
      case Export => "export"
    }
  }

  /** One row of the `shortcuts` table; a missing modifier flag is false. */
  datatype Shortcut = Shortcut(key: string, ctrl: bool, alt: bool, shift: bool, description: string, action: Action)

  const Shortcuts: seq<Shortcut> := [
    Shortcut("n", true, false, false, "Add new task", NewTask),
    Shortcut("s", true, false, false, "Focus search", Search),
    Shortcut("a", true, false, false, "Select all tasks", SelectAll),
    Shortcut("Delete", false, false, false, "Delete selected tasks", DeleteSelected),
    Shortcut("Escape", false, false, false, "Clear selection/search", Escape),
    Shortcut("1", false, true, false, "Show all tasks", FilterAll),
    Shortcut("2", false, true, false, "Show pending tasks", FilterPending),
    Shortcut("3", false, true, false, "Show completed tasks", FilterCompleted),
    Shortcut("e", true, false, false, "Export tasks", Export),
    Shortcut("/", false, false, false, "Focus search", Search)
  ]

  /** The parts of a `keydown` event the handler reads. */
  datatype KeyEvent = KeyEvent(key: string, ctrl: bool, alt: bool, targetTag: string)

  /** What one event does: the action run, if any, and whether the browser's
      default was prevented. */
  datatype Dispatch = Dispatch(action: Option<Action>, preventDefault: bool)

  /** The tag names of text fields, in which most shortcuts are ignored. */
  const FieldTags: seq<string> := ["INPUT", "TEXTAREA"]

  /** `['INPUT', 'TEXTAREA'].includes(e.target.tagName)`. */
  predicate IsInputFocused(e: KeyEvent): (focused: bool)
    ensures focused <==> e.targetTag in FieldTags
  {
    e.targetTag == "INPUT" || e.targetTag == "TEXTAREA"
  }

  /** The action an event selects, in the handler's order of tests: Escape
      acts everywhere and is the only key acting in a text field; with no
      modifier held, only Escape, "/" and Delete act. */
  function ActionFor(e: KeyEvent): (r: Option<Action>)
    ensures r == Some(Escape) <==> e.key == "Escape"
    ensures IsInputFocused(e) ==> (r.Some? <==> e.key == "Escape")
    ensures !e.ctrl && !e.alt && !IsInputFocused(e) ==>
      (r.Some? <==> e.key == "Escape" || e.key == "/" || e.key == "Delete")
  {
    if e.key == "Escape" then Some(Escape)
    else if e.key == "/" && !IsInputFocused(e) then Some(Search)
    else if IsInputFocused(e) then None
    else if e.ctrl && Lower(e.key) == "n" then Some(NewTask)
    else if e.ctrl && Lower(e.key) == "s" then Some(Search)
    else if e.ctrl && Lower(e.key) == "a" then Some(SelectAll)
    else if e.ctrl && Lower(e.key) == "e" then Some(Export)
    else if e.key == "Delete" then Some(DeleteSelected)
    else if e.alt && e.key == "1" then Some(FilterAll)
    else if e.alt && e.key == "2" then Some(FilterPending)
    else if e.alt && e.key == "3" then Some(FilterCompleted)
    else None
  }

  /** `handleKeyPress(e)`: at most one action, and the default is prevented
      exactly when one ran. */
  function HandleKeyPress(e: KeyEvent): (d: Dispatch)
    ensures d.preventDefault <==> d.action.Some?
    ensures e.key == "Escape" ==> d.action == Some(Escape)
    ensures IsInputFocused(e) && e.key != "Escape" ==> d.action == None
    ensures e.key == "/" && !IsInputFocused(e) ==> d.action == Some(Search)
  {
    var a := ActionFor(e);
    Dispatch(a, a.Some?)
  }

  /** Control-key shortcuts match either letter case: Ctrl with a letter
      and Ctrl with its capital run the same action. */
  lemma CtrlShortcutsIgnoreCase(c: char, alt: bool, tag: string)
    requires 'a' <= c <= 'z'
    ensures HandleKeyPress(KeyEvent([UpperChar(c)], true, alt, tag)) == HandleKeyPress(KeyEvent([c], true, alt, tag))
  {
    assert Lower([UpperChar(c)]) == [c] == Lower([c]);
  }

  /** Every row of the table, pressed with exactly its modifiers outside a
      text field, runs its own action. */
  lemma ShortcutTableIsDispatched(i: nat)
    requires i < |Shortcuts|
    ensures var s := Shortcuts[i];
      HandleKeyPress(KeyEvent(s.key, s.ctrl, s.alt, "BODY")).action == Some(s.action)
  {
    assert Lower("n") == "n" && Lower("s") == "s" && Lower("a") == "a" && Lower("e") == "e";
  }

  /** A registered callback: a function or some other value. */
  datatype Callback = Function | NotAFunction(truthy: bool)

  /** `executeAction(action)`: whether the callback is called. */
  function ExecuteAction(callbacks: map<string, Callback>, action: Action): (called: bool)
    ensures called <==> action.Name() in callbacks && callbacks[action.Name()] == Function
  {
    action.Name() in callbacks && callbacks[action.Name()].Function?
  }

  /** Every action is registered under a name of its own. */
  lemma NamesDistinct(a: Action, b: Action)
    requires a != b
    ensures a.Name() != b.Name()
  {
  }

  /** Registering a callback for one action decides whether that action runs
      and leaves every other action as it was. */
  lemma {:induction false} CallbacksIndependent(callbacks: map<string, Callback>, a: Action, cb: Callback, b: Action)
    ensures ExecuteAction(callbacks[a.Name() := cb], a) <==> cb == Function
    ensures b != a ==> ExecuteAction(callbacks[a.Name() := cb], b) == ExecuteAction(callbacks, b)
  {
    if b != a {
      NamesDistinct(a, b);
    }
  }

  /** `join` of a part followed by at least one more. */
  lemma JoinCons(x: string, rest: seq<string>, sep: string)
    requires |rest| >= 1
    ensures Join([x] + rest, sep) == x + sep + Join(rest, sep)
  {
    assert ([x] + rest)[0] == x && ([x] + rest)[1..] == rest;
  }

  /** `getShortcutString(shortcut)`. */
  function ShortcutString(s: Shortcut): (r: string)
    ensures !s.ctrl && !s.alt && !s.shift ==> r == Upper(s.key)
    ensures s.ctrl && !s.alt && !s.shift ==> r == "Ctrl + " + Upper(s.key)
    ensures !s.ctrl && s.alt && !s.shift ==> r == "Alt + " + Upper(s.key)
  {
    var parts := (if s.ctrl then ["Ctrl"] else []) + (if s.alt then ["Alt"] else []) + (if s.shift then ["Shift"] else []);
    var r := Join(parts + [Upper(s.key)], " + ");
    if s.ctrl && !s.alt && !s.shift then
      JoinCons("Ctrl", [Upper(s.key)], " + ");
      r
    else if !s.ctrl && s.alt && !s.shift then
      JoinCons("Alt", [Upper(s.key)], " + ");
      r
    else r
  }

  /** Modifiers are printed Ctrl, then Alt, then Shift, then the key. */
  lemma ShortcutStringOrder(key: string, description: string, action: Action)
    ensures ShortcutString(Shortcut(key, true, true, true, description, action)) == "Ctrl + Alt + Shift + " + Upper(key)
  {
    JoinOfFour("Ctrl", "Alt", "Shift", Upper(key), " + ");
  }

  /** `join` of four parts. */
  lemma JoinOfFour(a: string, b: string, c: string, k: string, sep: string)
    ensures Join([a] + [b] + [c] + [k], sep) == a + sep + b + sep + c + sep + k
  {
    assert [a] + [b] + [c] + [k] == [a] + ([b] + ([c] + [k]));
    JoinCons(a, [b] + ([c] + [k]), sep);
    JoinCons(b, [c] + [k], sep);
    JoinCons(c, [k], sep);
  }

  /** How the table is shown in the help dialog. */
  lemma ShortcutStringsOfTable()
    ensures ShortcutString(Shortcuts[0]) == "Ctrl + N"
    ensures ShortcutString(Shortcuts[3]) == "DELETE"
    ensures ShortcutString(Shortcuts[5]) == "Alt + 1"
  {
    assert Upper("n") == "N" && Upper("1") == "1";
    assert Upper("Delete") == "DELETE";
  }
}

=== FILE: performance.dfy ===
/**
 * Two pieces of frontend/performance.js with logic of their own: the window
 * arithmetic of `virtualScroll`'s `render`, and the expiring key-value cache.
 * The clock is a parameter `now` (milliseconds); whether the browser accepts a
 * write is a parameter `fits`. Pixel sizes are whole numbers.
 */
module Performance {
  import opened Wrappers
  import opened Text
  import opened Json

  // ---------------------------------------------------------------- virtual scroll

  /** `Math.floor(a / b)` brackets `a` between two multiples of `b`. */
  lemma FloorDivBounds(a: nat, b: nat)
    requires b > 0
    ensures (a / b) * b <= a < (a / b) * b + b
  {
    assert a == (a / b) * b + a % b;
  }

  /** `Math.ceil(a / b)` for whole numbers. */
  function CeilDiv(a: nat, b: nat): (q: nat)
    requires b > 0
    ensures a <= q * b < a + b
  {
    FloorDivBounds(a + b - 1, b);
    (a + b - 1) / b
  }

  /** What one `render()` call lays out. */
  datatype Window = Window(startIndex: nat, endIndex: nat, paddingTop: nat, paddingBottom: nat, rendered: seq<nat>)

  /** Rows shown at once: enough to cover the viewport, plus two. */
  function VisibleCount(clientHeight: nat, itemHeight: nat): nat
    requires itemHeight > 0
  {
    CeilDiv(clientHeight, itemHeight) + 2
  }

  /** Consecutive indices from `lo` up to, not including, `hi`. */
  function Range(lo: nat, hi: nat): (r: seq<nat>)
    ensures |r| == if lo <= hi then hi - lo else 0
    ensures forall k :: 0 <= k < |r| ==> r[k] == lo + k
    decreases hi - lo
  {
    if lo >= hi then [] else [lo] + Range(lo + 1, hi)
  }

  lemma RangeMembers(lo: nat, hi: nat)
    ensures forall i: nat :: i in Range(lo, hi) <==> lo <= i < hi
  {
    var r := Range(lo, hi);
    forall i: nat | lo <= i < hi
      ensures i in r
    {
      assert r[i - lo] == i;
    }
  }

  /** `render()` for a list of `count` items scrolled to `scrollTop`. */
  function Render(count: nat, clientHeight: nat, itemHeight: nat, scrollTop: nat): (w: Window)
    requires itemHeight > 0
    ensures w.startIndex * itemHeight <= scrollTop < w.startIndex * itemHeight + itemHeight
    ensures w.endIndex <= count
    ensures w.endIndex <= w.startIndex + VisibleCount(clientHeight, itemHeight)
    ensures w.paddingTop == w.startIndex * itemHeight
    ensures w.paddingBottom == (count - w.endIndex) * itemHeight
    ensures |w.rendered| <= VisibleCount(clientHeight, itemHeight)
    ensures forall i: nat :: i in w.rendered <==> w.startIndex <= i < w.endIndex
  {
    var startIndex := scrollTop / itemHeight;
    FloorDivBounds(scrollTop, itemHeight);
    var visibleCount := VisibleCount(clientHeight, itemHeight);
    var endIndex := if startIndex + visibleCount < count then startIndex + visibleCount else count;
    RangeMembers(startIndex, endIndex);
    Window(startIndex, endIndex, startIndex * itemHeight, (count - endIndex) * itemHeight, Range(startIndex, endIndex))
  }

  /** While the window starts inside the list, the two paddings and the rows
      drawn add up to the full height of the list, so the scroll bar keeps its
      size. */
  lemma RenderKeepsHeight(count: nat, clientHeight: nat, itemHeight: nat, scrollTop: nat)
    requires itemHeight > 0
    requires scrollTop / itemHeight <= count
    ensures var w := Render(count, clientHeight, itemHeight, scrollTop);
      w.paddingTop + |w.rendered| * itemHeight + w.paddingBottom == count * itemHeight
  {
    var w := Render(count, clientHeight, itemHeight, scrollTop);
    assert w.paddingTop + |w.rendered| * itemHeight + w.paddingBottom
        == (w.startIndex + (w.endIndex - w.startIndex) + (count - w.endIndex)) * itemHeight;
  }

  /** For whole numbers: `a * h < b * h` with `h > 0` means `a < b`. */
  lemma CancelFactor(a: int, b: int, h: nat)
    requires h > 0 && a * h < b * h
    ensures a < b
  {
  }

  /** An item overlapping the viewport lies between the first row of the
      window and the row the viewport's height reaches. */
  lemma ViewportRows(h: nat, scrollTop: nat, clientHeight: nat, i: nat, s: nat, c: nat)
    requires h > 0
    requires s * h <= scrollTop < s * h + h && clientHeight <= c * h
    requires i * h < scrollTop + clientHeight && scrollTop < (i + 1) * h
    ensures s <= i < s + 1 + c
  {
    assert (i + 1) * h == i * h + h;
    CancelFactor(s, i + 1, h);
    assert (s + 1 + c) * h == s * h + h + c * h;
    CancelFactor(i, s + 1 + c, h);
  }

  /** Every item that shows, even partly, in the viewport is drawn. */
  lemma RenderCoversViewport(count: nat, clientHeight: nat, itemHeight: nat, scrollTop: nat, i: nat)
    requires itemHeight > 0
    requires i < count
    requires i * itemHeight < scrollTop + clientHeight && scrollTop < (i + 1) * itemHeight
    ensures i in Render(count, clientHeight, itemHeight, scrollTop).rendered
  {
    var w := Render(count, clientHeight, itemHeight, scrollTop);
    ViewportRows(itemHeight, scrollTop, clientHeight, i, w.startIndex, CeilDiv(clientHeight, itemHeight));
  }

  // ---------------------------------------------------------------- expiring cache

  const CachePrefix: string := "cache_"
  const MillisPerMinute: nat := 60 * 1000

  /** The stored text under a key: an entry with its expiry time, the empty
      string, or text `JSON.parse` rejects (or that parses to `null`). */
  datatype CacheSlot = Entry(value: Json, expiration: int) | Blank | Garbage

  type Store = map<string, CacheSlot>

  /** The storage key of a cache key. */
  function CacheKey(key: string): (k: string)
    ensures StartsWith(k, CachePrefix)
  {
    CachePrefix + key
  }

  /** `cache.set(key, value, minutes)`: a refused write is swallowed and the
      store is left as it was. */
  function CacheSet(store: Store, key: string, value: Json, minutes: int, now: int, fits: bool): (r: Store)
    ensures fits ==> r == store[CacheKey(key) := Entry(value, now + minutes * MillisPerMinute)]
    ensures !fits ==> r == store
  {
    if fits then store[CacheKey(key) := Entry(value, now + minutes * MillisPerMinute)] else store
  }

  /** What `cache.get` returns (`null` as `None`) and the store after it. */
  datatype Lookup = Lookup(value: Option<Json>, store: Store)

  /** `cache.get(key)`: an expired entry is removed and reads as missing. */
  function CacheGet(store: Store, key: string, now: int): (r: Lookup)
    ensures r.value.Some? <==> CacheKey(key) in store && store[CacheKey(key)].Entry? && now <= store[CacheKey(key)].expiration
    ensures r.value.Some? ==> r.value.value == store[CacheKey(key)].value
    ensures CacheKey(key) in store && store[CacheKey(key)].Entry? && now > store[CacheKey(key)].expiration ==>
      r.store == map k | k in store && k != CacheKey(key) :: store[k]
    ensures !(CacheKey(key) in store && store[CacheKey(key)].Entry? && now > store[CacheKey(key)].expiration) ==>
      r.store == store
  {
    var k := CacheKey(key);
    if k !in store then Lookup(None, store)
    else match store[k]
      case Blank => Lookup(None, store)
      case Garbage => Lookup(None, store)
      case Entry(value, expiration) =>
        if now > expiration then Lookup(None, map k' | k' in store && k' != k :: store[k'])
        else Lookup(Some(value), store)
  }

  /** `cache.clear(key)`: a truthy key removes that entry; no key (or the empty
      string) removes every key with the cache prefix and nothing else. */
  function CacheClear(store: Store, key: Option<string>): (r: Store)
    ensures key.Some? && key.value != "" ==>
      forall k :: k in r <==> k in store && k != CacheKey(key.value)
    ensures !(key.Some? && key.value != "") ==>
      forall k :: k in r <==> k in store && !StartsWith(k, CachePrefix)
    ensures forall k :: k in r ==> k in store && r[k] == store[k]
  {
    if key.Some? && key.value != "" then map k | k in store && k != CacheKey(key.value) :: store[k]
    else map k | k in store && !StartsWith(k, CachePrefix) :: store[k]
  }

  /** What was set is read back, unchanged, until it expires. */
  lemma SetThenGet(store: Store, key: string, value: Json, minutes: int, setAt: int, now: int)
    requires now <= setAt + minutes * MillisPerMinute
    ensures CacheGet(CacheSet(store, key, value, minutes, setAt, true), key, now).value == Some(value)
  {
  }

  /** After it expires, the entry reads as missing and is gone from the store. */
  lemma SetThenGetExpired(store: Store, key: string, value: Json, minutes: int, setAt: int, now: int)
    requires now > setAt + minutes * MillisPerMinute
    ensures var r := CacheGet(CacheSet(store, key, value, minutes, setAt, true), key, now);
      r.value == None && CacheKey(key) !in r.store
  {
  }

  /** Clearing everything leaves the task cache and other foreign keys alone. */
  lemma ClearAllKeepsForeignKeys(store: Store, k: string)
    requires k in store && !StartsWith(k, CachePrefix)
    ensures k in CacheClear(store, None) && CacheClear(store, None)[k] == store[k]
  {
  }
}

=== FILE: routes.dfy ===
/**
 * The decision logic of the REST handlers (backend/routes/taskRoutes.js).
 *
 * The database is an oracle: every query a handler would issue is recorded
 * in `queries`, and what the store answered is a parameter (`Answer`). The
 * duplicate-title query is a case-insensitive regular-expression match in
 * the store; the model takes its answer (the id of a matching task, if any)
 * as given.
 */
module Routes {
  import opened Wrappers
  import opened Text
  import opened Tasks
  import opened Json
  import Validator

  /** The queries a handler can issue against the store. */
  datatype Query =
    | FindAll
    | FindById(id: string)
    | FindDuplicate(title: string, excluding: Option<string>)
    | Create(title: string, status: string)
    | Save(task: Task)
    | DeleteById(id: string)
    | FindByStatus(status: string)

  /** The JSON body's payload besides `success` and `message`. */
  datatype Body =
    | NoData
    | One(task: Task)
    | Many(count: nat, tasks: seq<Task>)
    | Errors(errors: seq<string>)
    | Conflict(existingTaskId: string)

  datatype Reply = Reply(code: int, message: string, body: Body) {
    predicate Success() { code < 400 }
  }

  /** A handler's reply together with the store queries it issued, in order. */
  datatype Handled = Handled(reply: Reply, queries: seq<Query>)

  const InvalidIdMessage: string := "Invalid task ID format"
  const NotFoundMessage: string := "Task not found"
  const InvalidStatusMessage: string := "Invalid status. Must be \"pending\" or \"completed\""
  const DuplicateMessage: string := "A task with this title already exists"
  const NoChangesMessage: string := "No changes made"

  predicate IsHexDigit(c: char) {
    ('0' <= c <= '9') || ('a' <= c <= 'f') || ('A' <= c <= 'F')
  }

  /** `/^[0-9a-fA-F]{24}$/`: the shape of a MongoDB ObjectId. */
  predicate ValidObjectId(id: string) {
    |id| == 24 && forall i :: 0 <= i < |id| ==> IsHexDigit(id[i])
  }

  // ---------------------------------------------------------------------
  // Title validation on the server

  /** The server's title check either decides, or throws because the body's
      title is a truthy value that is not a string (it has no `trim`). */
  datatype ServerTitleCheck = Decided(check: Validator.TitleCheck) | Throws

  /** JavaScript truthiness of a request-body field. */
  predicate FalsyField(v: Option<Json>) {
    !Truthy(v)
  }

  /** The server's `validateTaskTitle(title)`, applied to a JSON body field. */
  function ValidateTaskTitle(title: Option<Json>): (r: ServerTitleCheck)
    ensures FalsyField(title) ==> r == Decided(Validator.TitleRejected(Validator.Required))
    ensures !FalsyField(title) && !title.value.JStr? ==> r == Throws
  {
    if FalsyField(title) then Decided(Validator.TitleRejected(Validator.Required))
    else if !title.value.JStr? then Throws
    else
      var trimmed := Trim(title.value.s);
      if |trimmed| == 0 then Decided(Validator.TitleRejected(Validator.Blank))
      else if |trimmed| < 3 then Decided(Validator.TitleRejected(Validator.TooShort))
      else if |trimmed| > 200 then Decided(Validator.TitleRejected(Validator.TooLong))
      else if |trimmed| > 0 && forall i :: 0 <= i < |trimmed| ==> !IsAsciiAlnum(trimmed[i]) then
        Decided(Validator.TitleRejected(Validator.NoAlphanumeric))
      else Decided(Validator.TitleOk(trimmed))
  }

  /** A client-side title as the server receives it in a JSON body. */
  function AsField(title: Option<string>): Option<Json> {
    match title
    case None => None
    case Some(s) => Some(JStr(s))
  }

  /** The server's copy of the title check agrees with the client's on every
      string (or absent) title: same validity, same error, same trimmed title. */
  lemma ServerAgreesWithClient(title: Option<string>)
    ensures ValidateTaskTitle(AsField(title)) == Decided(Validator.ValidateTaskTitle(title))
  {
  }

  // ---------------------------------------------------------------------
  // Handlers

  /** `GET /api/tasks`: the store's list (newest first, as the store sorts it). */
  function GetAll(found: Answer<seq<Task>>): (h: Handled)
    ensures h.queries == [FindAll]
    ensures found.Answer? ==> h.reply.code == 200 && h.reply.body == Many(|found.value|, found.value)
    ensures !found.Answer? ==> h.reply.code == 500
  {
    match found
    case Answer(tasks) =>
      Handled(Reply(200, if |tasks| == 0 then "No tasks found" else "Tasks retrieved successfully", Many(|tasks|, tasks)), [FindAll])
    case _ => Handled(Reply(500, "Error fetching tasks", NoData), [FindAll])
  }

  /** `GET /api/tasks/:id`. */
  function GetById(id: string, found: Answer<Option<Task>>): (h: Handled)
    ensures !ValidObjectId(id) <==> h.queries == []
    ensures !ValidObjectId(id) ==> h.reply == Reply(400, InvalidIdMessage, NoData)
    ensures ValidObjectId(id) ==> h.queries == [FindById(id)]
    ensures ValidObjectId(id) && found == Answer(None) ==> h.reply == Reply(404, NotFoundMessage, NoData)
    ensures ValidObjectId(id) && found.Answer? && found.value.Some? ==> h.reply.code == 200 && h.reply.body == One(found.value.value)
  {
    if !ValidObjectId(id) then Handled(Reply(400, InvalidIdMessage, NoData), [])
    else
      var q := [FindById(id)];
      match found
      case Answer(None) => Handled(Reply(404, NotFoundMessage, NoData), q)
      case Answer(Some(t)) => Handled(Reply(200, "Task retrieved successfully", One(t)), q)
      case _ => Handled(Reply(500, "Error fetching task", NoData), q)
  }

  /** The reply to a rejected title: 400 with the first error as message. */
  function TitleRejection(check: Validator.TitleCheck): Reply
    requires check.TitleRejected?
  {
    Reply(400, check.Errors()[0], Errors(check.Errors()))
  }

  /** The catch block shared by POST and PUT: schema errors are 400, the rest 500. */
  function StoreFailure<T>(a: Answer<T>, fallback: string): Reply
    requires !a.Answer?
  {
    match a
    case SchemaError(es) => Reply(400, "Validation error", Errors(es))
    case StoreError(_) => Reply(500, fallback, NoData)
  }

  /** `POST /api/tasks`. `duplicate` is the id of a task the store matched
      against the trimmed title; `created` is the record the store returned. */
  function Post(title: Option<Json>, duplicate: Answer<Option<string>>, created: Answer<Task>): (h: Handled)
    ensures ValidateTaskTitle(title).Decided? && ValidateTaskTitle(title).check.TitleRejected? ==>
      h.queries == [] && h.reply.code == 400 && h.reply.message == ValidateTaskTitle(title).check.Errors()[0]
    ensures h.reply.code == 201 ==>
      ValidateTaskTitle(title).Decided? && ValidateTaskTitle(title).check.TitleOk? &&
      h.queries == [FindDuplicate(ValidateTaskTitle(title).check.trimmedTitle, None),
                    Create(ValidateTaskTitle(title).check.trimmedTitle, Pending)]
    ensures duplicate.Answer? && duplicate.value.Some? ==> h.reply.code != 201
    ensures ValidateTaskTitle(title) == Throws ==> h == Handled(Reply(500, "Error creating task", NoData), [])
    ensures ValidateTaskTitle(title).Decided? && ValidateTaskTitle(title).check.TitleOk? ==>
      var t := ValidateTaskTitle(title).check.trimmedTitle;
      (duplicate.Answer? && duplicate.value.Some? ==>
        h == Handled(Reply(409, DuplicateMessage, Conflict(duplicate.value.value)), [FindDuplicate(t, None)])) &&
      (duplicate == Answer(None) && created.Answer? ==>
        h == Handled(Reply(201, "Task created successfully", One(created.value)),
                     [FindDuplicate(t, None), Create(t, Pending)]))
  {
    match ValidateTaskTitle(title)
    case Throws => Handled(Reply(500, "Error creating task", NoData), [])
    case Decided(check) =>
      if check.TitleRejected? then Handled(TitleRejection(check), [])
      else
        var trimmed := check.trimmedTitle;
        var q1 := [FindDuplicate(trimmed, None)];
        match duplicate
        case Answer(Some(existing)) => Handled(Reply(409, DuplicateMessage, Conflict(existing)), q1)
        case Answer(None) =>
          var q2 := q1 + [Create(trimmed, Pending)];
          (match created
           case Answer(t) => Handled(Reply(201, "Task created successfully", One(t)), q2)
           case _ => Handled(StoreFailure(created, "Error creating task"), q2))
        case _ => Handled(StoreFailure(duplicate, "Error creating task"), q1)
  }

  /** Where PUT stands after applying the title field. */
  datatype TitleStep = TitleStep(task: Task, changed: bool, queries: seq<Query>) | TitleStop(reply: Reply, queries: seq<Query>)

  /** The title part of `PUT /api/tasks/:id`: validate, then look for a
      duplicate (excluding this task) only if the title really changes. */
  function PutTitle(id: string, task: Task, title: Option<Json>, duplicate: Answer<Option<string>>): TitleStep {
    if title.None? then TitleStep(task, false, [])
    else
      match ValidateTaskTitle(title)
      case Throws => TitleStop(Reply(500, "Error updating task", NoData), [])
      case Decided(check) =>
        if check.TitleRejected? then TitleStop(TitleRejection(check), [])
        else if check.trimmedTitle == task.title then TitleStep(task, false, [])
        else
          var q := [FindDuplicate(check.trimmedTitle, Some(id))];
          match duplicate
          case Answer(Some(existing)) => TitleStop(Reply(409, DuplicateMessage, Conflict(existing)), q)
          case Answer(None) => TitleStep(task.(title := check.trimmedTitle), true, q)
          case _ => TitleStop(StoreFailure(duplicate, "Error updating task"), q)
  }

  /** `status` in `['pending', 'completed']` (strict equality, so only strings). */
  predicate StatusField(v: Json) {
    v.JStr? && ValidStatus(v.s)
  }

  /** `PUT /api/tasks/:id`. `found` answers the lookup, `duplicate` the
      duplicate-title query, `savedAt` the save (the new `updatedAt`). */
  function Put(id: string, title: Option<Json>, status: Option<Json>,
               found: Answer<Option<Task>>, duplicate: Answer<Option<string>>, savedAt: Answer<int>): (h: Handled)
    ensures !ValidObjectId(id) ==> h == Handled(Reply(400, InvalidIdMessage, NoData), [])
    ensures ValidObjectId(id) ==> |h.queries| >= 1 && h.queries[0] == FindById(id)
    ensures ValidObjectId(id) && found == Answer(None) ==> h == Handled(Reply(404, NotFoundMessage, NoData), [FindById(id)])
    ensures (ValidObjectId(id) && found.Answer? && found.value.Some? && title.Some? &&
             ValidateTaskTitle(title).Decided? && ValidateTaskTitle(title).check.TitleOk? &&
             ValidateTaskTitle(title).check.trimmedTitle != found.value.value.title &&
             duplicate.Answer? && duplicate.value.Some?) ==>
        h == Handled(Reply(409, DuplicateMessage, Conflict(duplicate.value.value)),
                     [FindById(id), FindDuplicate(ValidateTaskTitle(title).check.trimmedTitle, Some(id))])
  {
    if !ValidObjectId(id) then Handled(Reply(400, InvalidIdMessage, NoData), [])
    else
      var q0 := [FindById(id)];
      match found
      case Answer(None) => Handled(Reply(404, NotFoundMessage, NoData), q0)
      case Answer(Some(stored)) =>
        (match PutTitle(id, stored, title, duplicate)
         case TitleStop(reply, q1) => Handled(reply, q0 + q1)
         case TitleStep(task, titleChanged, q1) =>
           if status.Some? && !StatusField(status.value) then
             Handled(Reply(400, InvalidStatusMessage, NoData), q0 + q1)
           else
             var statusChanged := status.Some? && status.value.s != task.status;
             var updated := if statusChanged then task.(status := status.value.s) else task;
             if !titleChanged && !statusChanged then
               Handled(Reply(200, NoChangesMessage, One(updated)), q0 + q1)
             else
               var q2 := q0 + q1 + [Save(updated)];
               match savedAt
               case Answer(at) => Handled(Reply(200, "Task updated successfully", One(updated.(updatedAt := at))), q2)
               case _ => Handled(StoreFailure(savedAt, "Error updating task"), q2))
      case _ => Handled(StoreFailure(found, "Error updating task"), q0)
  }

  /** `DELETE /api/tasks/:id`. `deleted` is what `findByIdAndDelete` returned. */
  function Delete(id: string, deleted: Answer<Option<Task>>): (h: Handled)
    ensures !ValidObjectId(id) ==> h == Handled(Reply(400, InvalidIdMessage, NoData), [])
    ensures ValidObjectId(id) ==> h.queries == [DeleteById(id)]
    ensures ValidObjectId(id) && deleted == Answer(None) ==> h.reply == Reply(404, NotFoundMessage, NoData)
    ensures h.reply.code == 200 <==> ValidObjectId(id) && deleted.Answer? && deleted.value.Some?
  {
    if !ValidObjectId(id) then Handled(Reply(400, InvalidIdMessage, NoData), [])
    else
      var q := [DeleteById(id)];
      match deleted
      case Answer(None) => Handled(Reply(404, NotFoundMessage, NoData), q)
      case Answer(Some(t)) => Handled(Reply(200, "Task deleted successfully", One(t)), q)
      case _ => Handled(Reply(500, "Error deleting task", NoData), q)
  }

  /** `GET /api/tasks/filter/:status`. */
  function FilterByStatus(status: string, found: Answer<seq<Task>>): (h: Handled)
    ensures !ValidStatus(status) <==> h.reply == Reply(400, InvalidStatusMessage, NoData)
    ensures !ValidStatus(status) <==> h.queries == []
    ensures ValidStatus(status) && found.Answer? ==>
      h.reply == Reply(200, status + " tasks retrieved successfully", Many(|found.value|, found.value))
  {
    if status !in [Pending, Completed] then Handled(Reply(400, InvalidStatusMessage, NoData), [])
    else
      var q := [FindByStatus(status)];
      match found
      case Answer(tasks) => Handled(Reply(200, status + " tasks retrieved successfully", Many(|tasks|, tasks)), q)
      case _ => Handled(Reply(500, "Error filtering tasks", NoData), q)
  }

  // ---------------------------------------------------------------------
  // Properties of the handlers

  /** GET, PUT and DELETE by id answer 400 without touching the store unless
      the id has the ObjectId shape, whatever the store would have said. */
  lemma MalformedIdNeverReachesStore(id: string, title: Option<Json>, status: Option<Json>,
                                     found: Answer<Option<Task>>, duplicate: Answer<Option<string>>,
                                     savedAt: Answer<int>, deleted: Answer<Option<Task>>)
    requires !ValidObjectId(id)
    ensures GetById(id, found).reply.code == 400 && GetById(id, found).queries == []
    ensures Put(id, title, status, found, duplicate, savedAt).reply.code == 400
    ensures Put(id, title, status, found, duplicate, savedAt).queries == []
    ensures Delete(id, deleted).reply.code == 400 && Delete(id, deleted).queries == []
  {
  }

  /** A successful POST asks the store to create the trimmed title with status
      "pending", after a duplicate query that found nothing. */
  lemma CreateStoresTrimmedPendingTitle(title: string, duplicate: Answer<Option<string>>, created: Answer<Task>)
    requires Post(Some(JStr(title)), duplicate, created).reply.code == 201
    ensures Validator.AcceptableTitle(title)
    ensures Post(Some(JStr(title)), duplicate, created).queries ==
      [FindDuplicate(Trim(title), None), Create(Trim(title), Pending)]
    ensures duplicate == Answer(None)
  {
    ServerAgreesWithClient(Some(title));
  }

  /** PUT checks the title before the status: on an existing task, an invalid
      title is what gets reported even if the status is invalid too. */
  lemma PutTitleErrorBeforeStatusError(id: string, title: Option<Json>, status: Option<Json>, stored: Task,
                                       duplicate: Answer<Option<string>>, savedAt: Answer<int>)
    requires ValidObjectId(id)
    requires title.Some? && ValidateTaskTitle(title).Decided? && ValidateTaskTitle(title).check.TitleRejected?
    ensures var h := Put(id, title, status, Answer(Some(stored)), duplicate, savedAt);
      h.reply.code == 400 && h.reply.message == ValidateTaskTitle(title).check.Errors()[0]
      && h.queries == [FindById(id)]
  {
  }

  /** PUT rejects any supplied status other than the strings "pending" and
      "completed" once the task exists and the title step passed: no title,
      or an acceptable title that is unchanged or clashes with no other task. */
  lemma PutRejectsInvalidStatus(id: string, title: Option<string>, status: Json, stored: Task,
                                duplicate: Answer<Option<string>>, savedAt: Answer<int>)
    requires ValidObjectId(id)
    requires title.Some? ==> Validator.AcceptableTitle(title.value)
    requires title.Some? && Trim(title.value) != stored.title ==> duplicate == Answer(None)
    requires !StatusField(status)
    ensures Put(id, AsField(title), Some(status), Answer(Some(stored)), duplicate, savedAt).reply
         == Reply(400, InvalidStatusMessage, NoData)
  {
    ServerAgreesWithClient(title);
  }

  /** A PUT that changes only the title saves the trimmed title, after the
      duplicate query that excludes the task itself. */
  lemma PutSavesTrimmedTitle(id: string, title: string, stored: Task, at: int)
    requires ValidObjectId(id)
    requires Validator.AcceptableTitle(title) && Trim(title) != stored.title
    ensures Put(id, Some(JStr(title)), None, Answer(Some(stored)), Answer(None), Answer(at))
         == Handled(Reply(200, "Task updated successfully", One(stored.(title := Trim(title), updatedAt := at))),
                    [FindById(id), FindDuplicate(Trim(title), Some(id)), Save(stored.(title := Trim(title)))])
  {
    ServerAgreesWithClient(Some(title));
  }

  /** A PUT renaming a task to a title another task already has is answered
      409 with that task's id, whatever the status field holds, and saves
      nothing. */
  lemma PutRejectsDuplicateTitle(id: string, title: string, status: Option<Json>, stored: Task,
                                 existing: string, savedAt: Answer<int>)
    requires ValidObjectId(id)
    requires Validator.AcceptableTitle(title) && Trim(title) != stored.title
    ensures var h := Put(id, Some(JStr(title)), status, Answer(Some(stored)), Answer(Some(existing)), savedAt);
      h == Handled(Reply(409, DuplicateMessage, Conflict(existing)),
                   [FindById(id), FindDuplicate(Trim(title), Some(id))]) &&
      forall k :: 0 <= k < |h.queries| ==> !h.queries[k].Save?
  {
    ServerAgreesWithClient(Some(title));
  }

  /** The duplicate query runs exactly when a valid title differs from the
      stored one, and it excludes the task's own id. */
  lemma PutDuplicateQueryOnlyOnRealChange(id: string, title: string, status: Option<Json>, stored: Task,
                                          duplicate: Answer<Option<string>>, savedAt: Answer<int>)
    requires ValidObjectId(id)
    requires Validator.AcceptableTitle(title)
    ensures var h := Put(id, Some(JStr(title)), status, Answer(Some(stored)), duplicate, savedAt);
      |h.queries| >= 2 && h.queries[1] == FindDuplicate(Trim(title), Some(id)) <==> Trim(title) != stored.title
    ensures var h := Put(id, Some(JStr(title)), status, Answer(Some(stored)), duplicate, savedAt);
      Trim(title) == stored.title ==> forall i :: 0 <= i < |h.queries| ==> !h.queries[i].FindDuplicate?
  {
    ServerAgreesWithClient(Some(title));
  }

  /** A PUT whose supplied fields all equal the stored values answers
      "No changes made" with the stored task and does not save. */
  lemma PutWithoutChangesDoesNotSave(id: string, stored: Task, sendTitle: bool, sendStatus: bool,
                                     duplicate: Answer<Option<string>>, savedAt: Answer<int>)
    requires ValidObjectId(id)
    requires Validator.AcceptableTitle(stored.title) && Trim(stored.title) == stored.title
    requires ValidStatus(stored.status)
    ensures var h := Put(id, if sendTitle then Some(JStr(stored.title)) else None,
                         if sendStatus then Some(JStr(stored.status)) else None,
                         Answer(Some(stored)), duplicate, savedAt);
      h == Handled(Reply(200, NoChangesMessage, One(stored)), [FindById(id)])
  {
    ServerAgreesWithClient(Some(stored.title));
  }

  /** A PUT that changes something saves exactly the updated record. */
  lemma PutSavesChangedStatus(id: string, stored: Task, status: string, at: int)
    requires ValidObjectId(id)
    requires ValidStatus(status) && status != stored.status
    ensures Put(id, None, Some(JStr(status)), Answer(Some(stored)), Answer(None), Answer(at))
         == Handled(Reply(200, "Task updated successfully", One(stored.(status := status, updatedAt := at))),
                    [FindById(id), Save(stored.(status := status))])
  {
  }
}

=== FILE: search.dfy ===
/**
 * Client-side search (frontend/search.js): substring search over title and
 * status, search suggestions, regular-expression escaping and the
 * multi-criteria search. Locale date formatting is a parameter: `dateMatch`
 * says whether a task's formatted creation date contains the search term.
 */
module Search {
  import opened Wrappers
  import opened Text
  import opened Seqs
  import opened Tasks

  /** `!query || query.trim().length === 0`. */
  predicate BlankQuery(query: Option<string>) {
    query.None? || |Trim(query.value)| == 0
  }

  /** `isSearchActive(query)`: truthy exactly when the trimmed query is non-empty. */
  function IsSearchActive(query: Option<string>): (r: bool)
    ensures r <==> query.Some? && exists i :: 0 <= i < |query.value| && !IsSpace(query.value[i])
  {
    if query.None? then false
    else
      TrimEmptyIffAllSpace(query.value);
      |Trim(query.value)| > 0
  }

  /** The search term: the trimmed, lower-cased query. */
  function Term(query: string): string {
    Lower(Trim(query))
  }

  /** Whether one task matches a term. `if (task.createdAt)` skips the date
      test for a zero (falsy) timestamp. */
  predicate Matches(task: Task, term: string, dateMatch: (Task, string) -> bool) {
    Contains(Lower(task.title), term) || Contains(Lower(task.status), term) ||
    (task.createdAt != 0 && dateMatch(task, term))
  }

  /** `searchTasks(tasks, query)`. */
  function SearchTasks(tasks: seq<Task>, query: Option<string>, dateMatch: (Task, string) -> bool): (r: seq<Task>)
    ensures BlankQuery(query) ==> r == tasks
    ensures !BlankQuery(query) ==>
      (forall i :: 0 <= i < |r| ==> r[i] in tasks && Matches(r[i], Term(query.value), dateMatch)) &&
      (forall i :: 0 <= i < |tasks| && Matches(tasks[i], Term(query.value), dateMatch) ==> tasks[i] in r)
  {
    if BlankQuery(query) then tasks
    else
      var term := Term(query.value);
      Filter(tasks, t => Matches(t, term, dateMatch))
  }

  /** The search result keeps the input order. */
  lemma SearchIsSubsequence(tasks: seq<Task>, query: Option<string>, dateMatch: (Task, string) -> bool)
    ensures IsSubsequence(SearchTasks(tasks, query, dateMatch), tasks)
  {
    if !BlankQuery(query) {
      var term := Term(query.value);
      FilterIsSubsequence(tasks, t => Matches(t, term, dateMatch));
    } else {
      FilterAll(tasks, (t: Task) => true);
      FilterIsSubsequence(tasks, (t: Task) => true);
    }
  }

  /** Search ignores the case of the query and whitespace around it. */
  lemma SearchIgnoresQueryCase(tasks: seq<Task>, query: string, dateMatch: (Task, string) -> bool)
    ensures SearchTasks(tasks, Some(Lower(query)), dateMatch) == SearchTasks(tasks, Some(query), dateMatch)
    ensures SearchTasks(tasks, Some(" " + query + " "), dateMatch) == SearchTasks(tasks, Some(query), dateMatch)
  {
    TrimLowerCommute(query);
    LowerIdempotent(Trim(query));
    assert Trim(" " + query + " ") == Trim(query) by {
      assert AllSpace(" ") by { assert IsSpace(' '); }
      TrimPadded(" ", query, " ");
    }
  }

  // ---------------------------------------------------------------------
  // Regular-expression escaping

  /** The characters `escapeRegex` protects: `. * + ? ^ $ { } ( ) | [ ] \`. */
  predicate IsRegexSpecial(c: char) {
    c in ".*+?^${}()|[]\\"
  }

  /** `escapeRegex(string)`: a backslash before each special character. */
  function EscapeRegex(s: string): (r: string)
    ensures |r| == |s| + Count(s, IsRegexSpecial)
  {
    if s == [] then []
    else (if IsRegexSpecial(s[0]) then ['\\', s[0]] else [s[0]]) + EscapeRegex(s[1..])
  }

  /** Reads an escaped pattern back: a backslash takes the next character literally. */
  function UnescapeRegex(p: string): string
    decreases |p|
  {
    if p == [] then []
    else if p[0] == '\\' && |p| >= 2 then [p[1]] + UnescapeRegex(p[2..])
    else [p[0]] + UnescapeRegex(p[1..])
  }

  /** The escaped pattern denotes the original text literally. */
  lemma {:induction false} EscapeRegexRoundTrip(s: string)
    ensures UnescapeRegex(EscapeRegex(s)) == s
  {
    if s != [] {
      EscapeRegexRoundTrip(s[1..]);
      var e := EscapeRegex(s);
      var rest := EscapeRegex(s[1..]);
      if IsRegexSpecial(s[0]) {
        assert e == ['\\', s[0]] + rest;
        assert e[2..] == rest;
      } else {
        assert e == [s[0]] + rest;
        assert e[1..] == rest;
      }
      assert s == [s[0]] + s[1..];
    }
  }

  /** Text without special characters is left unchanged. */
  lemma {:induction false} EscapeRegexPlain(s: string)
    requires forall i :: 0 <= i < |s| ==> !IsRegexSpecial(s[i])
    ensures EscapeRegex(s) == s
  {
    if s != [] {
      EscapeRegexPlain(s[1..]);
      assert s == [s[0]] + s[1..];
    }
  }

  /** Escaping distributes over concatenation, so each character is handled
      independently of its neighbours. */
  lemma {:induction false} EscapeRegexAppend(a: string, b: string)
    ensures EscapeRegex(a + b) == EscapeRegex(a) + EscapeRegex(b)
  {
    if a == [] {
      assert a + b == b;
    } else {
      assert (a + b)[0] == a[0];
      assert (a + b)[1..] == a[1..] + b;
      EscapeRegexAppend(a[1..], b);
    }
  }

  // ---------------------------------------------------------------------
  // Suggestions

  /** The distinct elements of `s`, in order of first occurrence (what a
      JavaScript `Set` filled from `s` iterates in). */
  function Dedup(s: seq<string>): (r: seq<string>)
    ensures Distinct(r)
    ensures forall x :: x in r <==> x in s
  {
    if s == [] then []
    else
      var d := Dedup(s[..|s| - 1]);
      assert forall x :: x in s <==> x in s[..|s| - 1] || x == s[|s| - 1] by {
        assert s == s[..|s| - 1] + [s[|s| - 1]];
      }
      if s[|s| - 1] in d then d else d + [s[|s| - 1]]
  }

  lemma {:induction false} DedupIsSubsequence(s: seq<string>)
    ensures IsSubsequence(Dedup(s), s)
  {
    if s != [] {
      var p := s[..|s| - 1];
      var x := s[|s| - 1];
      DedupIsSubsequence(p);
      assert s == p + [x];
      if x in Dedup(p) {
        SubsequenceExtend(Dedup(p), p, [x]);
      } else {
        SubsequenceAppendBoth(Dedup(p), p, x);
      }
    }
  }

  lemma {:induction false} SubsequenceExtend(a: seq<string>, b: seq<string>, c: seq<string>)
    requires IsSubsequence(a, b)
    ensures IsSubsequence(a, b + c)
    decreases |b|
  {
    if a != [] {
      assert (b + c)[0] == b[0];
      assert (b + c)[1..] == b[1..] + c;
      if a[0] == b[0] && IsSubsequence(a[1..], b[1..]) {
        SubsequenceExtend(a[1..], b[1..], c);
      } else {
        SubsequenceExtend(a, b[1..], c);
      }
    }
  }

  lemma {:induction false} SubsequenceAppendBoth(a: seq<string>, b: seq<string>, x: string)
    requires IsSubsequence(a, b)
    ensures IsSubsequence(a + [x], b + [x])
    decreases |b|
  {
    if a == [] {
      assert a + [x] == [x];
      if b == [] {
        assert IsSubsequence([x][1..], ([] + [x])[1..]);
      } else {
        assert (b + [x])[1..] == b[1..] + [x];
        SubsequenceAppendBoth(a, b[1..], x);
      }
    } else {
      assert (a + [x])[0] == a[0] && (a + [x])[1..] == a[1..] + [x];
      assert (b + [x])[0] == b[0] && (b + [x])[1..] == b[1..] + [x];
      if a[0] == b[0] && IsSubsequence(a[1..], b[1..]) {
        SubsequenceAppendBoth(a[1..], b[1..], x);
      } else {
        SubsequenceAppendBoth(a, b[1..], x);
      }
    }
  }

  /** The titles of `tasks` whose lower-cased form contains `term`. */
  function MatchingTitles(tasks: seq<Task>, term: string): (r: seq<string>)
    ensures |r| <= |tasks|
  {
    if tasks == [] then []
    else
      var last := tasks[|tasks| - 1];
      MatchingTitles(tasks[..|tasks| - 1], term) + (if Contains(Lower(last.title), term) then [last.title] else [])
  }

  const MaxSuggestions: nat := 5

  /** One more task adds its title to the distinct matching titles when it
      matches and is new. */
  lemma SuggestionStep(tasks: seq<Task>, i: nat, term: string)
    requires i < |tasks|
    ensures var d := Dedup(MatchingTitles(tasks[..i], term));
      var title := tasks[i].title;
      Dedup(MatchingTitles(tasks[..i + 1], term)) ==
        if Contains(Lower(title), term) && title !in d then d + [title] else d
  {
    var title := tasks[i].title;
    var before := MatchingTitles(tasks[..i], term);
    assert tasks[..i + 1][..i] == tasks[..i];
    assert MatchingTitles(tasks[..i + 1], term) ==
      before + (if Contains(Lower(title), term) then [title] else []);
    if Contains(Lower(title), term) {
      var m := before + [title];
      assert m[..|m| - 1] == before;
    } else {
      assert before + [] == before;
    }
  }

  /** `getSearchSuggestions(tasks, query)`: the first five distinct matching
      titles, in order of first appearance. */
  method GetSearchSuggestions(tasks: seq<Task>, query: Option<string>) returns (r: seq<string>)
    ensures BlankQuery(query) ==> r == []
    ensures !BlankQuery(query) ==>
      var all := Dedup(MatchingTitles(tasks, Term(query.value)));
      r == all[..if |all| < MaxSuggestions then |all| else MaxSuggestions]
  {
    if BlankQuery(query) {
      return [];
    }
    var term := Term(query.value);
    var suggestions: seq<string> := [];
    var i := 0;
    while i < |tasks|
      invariant 0 <= i <= |tasks|
      invariant suggestions == Dedup(MatchingTitles(tasks[..i], term))
    {
      var title := tasks[i].title;
      SuggestionStep(tasks, i, term);
      if Contains(Lower(title), term) && title !in suggestions {
        suggestions := suggestions + [title];
      }
      i := i + 1;
    }
    assert tasks[..|tasks|] == tasks;
    r := suggestions[..if |suggestions| < MaxSuggestions then |suggestions| else MaxSuggestions];
  }

  /** What the suggestion list promises: at most five distinct titles, each
      containing the term, in first-appearance order; when there are at
      most five distinct matching titles, all of them. */
  lemma SuggestionsProperties(tasks: seq<Task>, term: string, r: seq<string>)
    requires var all := Dedup(MatchingTitles(tasks, term));
      r == all[..if |all| < MaxSuggestions then |all| else MaxSuggestions]
    ensures |r| <= MaxSuggestions && Distinct(r)
    ensures forall i :: 0 <= i < |r| ==> Contains(Lower(r[i]), term) && exists j :: 0 <= j < |tasks| && tasks[j].title == r[i]
    ensures |Dedup(MatchingTitles(tasks, term))| <= MaxSuggestions ==>
      forall j :: 0 <= j < |tasks| && Contains(Lower(tasks[j].title), term) ==> tasks[j].title in r
  {
    var all := Dedup(MatchingTitles(tasks, term));
    MatchingTitlesSound(tasks, term);
    forall i | 0 <= i < |r| ensures Contains(Lower(r[i]), term) && exists j :: 0 <= j < |tasks| && tasks[j].title == r[i] {
      assert r[i] == all[i];
      assert r[i] in MatchingTitles(tasks, term);
    }
  }

  /** A title is listed exactly when some task has it and it contains the term. */
  lemma {:induction false} MatchingTitlesSound(tasks: seq<Task>, term: string)
    ensures forall x :: x in MatchingTitles(tasks, term) <==>
      Contains(Lower(x), term) && exists j :: 0 <= j < |tasks| && tasks[j].title == x
  {
    if tasks != [] {
      var p := tasks[..|tasks| - 1];
      MatchingTitlesSound(p, term);
      forall x ensures x in MatchingTitles(tasks, term) <==>
        Contains(Lower(x), term) && exists j :: 0 <= j < |tasks| && tasks[j].title == x
      {
        if x in MatchingTitles(tasks, term) && x !in MatchingTitles(p, term) {
          assert tasks[|tasks| - 1].title == x;
        }
        if Contains(Lower(x), term) && exists j :: 0 <= j < |tasks| && tasks[j].title == x {
          var j :| 0 <= j < |tasks| && tasks[j].title == x;
          if j < |tasks| - 1 {
            assert p[j] == tasks[j];
          }
        }
        if x in MatchingTitles(p, term) {
          var j :| 0 <= j < |p| && p[j].title == x;
          assert tasks[j] == p[j];
        }
      }
    }
  }

  // ---------------------------------------------------------------------
  // Advanced search

  /** The criteria object; dates are the user's date strings. */
  datatype Criteria = Criteria(query: Option<string>, status: Option<string>,
                               dateFrom: Option<string>, dateTo: Option<string>)

  /** JavaScript truthiness of an optional string. */
  predicate Given(v: Option<string>) {
    v.Some? && v.value != ""
  }

  predicate StatusApplies(c: Criteria) {
    Given(c.status) && c.status.value != "all"
  }

  /** Whether a task passes every filter the criteria switch on. `parseDate`
      turns a date string into a timestamp; `endOfDay` moves a timestamp to
      23:59:59.999 of its local day. */
  predicate PassesCriteria(t: Task, c: Criteria, dateMatch: (Task, string) -> bool,
                           parseDate: string -> int, endOfDay: int -> int) {
    (Given(c.query) && !BlankQuery(c.query) ==> Matches(t, Term(c.query.value), dateMatch)) &&
    (StatusApplies(c) ==> t.status == c.status.value) &&
    (Given(c.dateFrom) ==> t.createdAt >= parseDate(c.dateFrom.value)) &&
    (Given(c.dateTo) ==> t.createdAt <= endOfDay(parseDate(c.dateTo.value)))
  }

  /** One filter step of the advanced search: when `on`, keep the tasks
      satisfying `p`, else pass the list through. */
  function Step(s: seq<Task>, on: bool, p: Task -> bool): (r: seq<Task>)
    ensures IsSubsequence(r, s)
  {
    if on then FilterIsSubsequence(s, p); Filter(s, p)
    else SubsequenceReflexive(s); s
  }

  lemma StepMembers(s: seq<Task>, on: bool, p: Task -> bool, t: Task)
    ensures t in Step(s, on, p) <==> t in s && (on ==> p(t))
  {
    FilterMembers(s, p, t);
  }

  /** `advancedSearch(tasks, criteria)`: the filters applied one after another. */
  function AdvancedSearch(tasks: seq<Task>, c: Criteria, dateMatch: (Task, string) -> bool,
                          parseDate: string -> int, endOfDay: int -> int): (r: seq<Task>)
    ensures IsSubsequence(r, tasks)
    ensures !Given(c.query) && !StatusApplies(c) && !Given(c.dateFrom) && !Given(c.dateTo) ==> r == tasks
  {
    var r1 := if Given(c.query) then SearchTasks(tasks, c.query, dateMatch) else tasks;
    var r2 := Step(r1, StatusApplies(c), (t: Task) => c.status == Some(t.status));
    var from := if c.dateFrom.Some? then parseDate(c.dateFrom.value) else 0;
    var to := if c.dateTo.Some? then endOfDay(parseDate(c.dateTo.value)) else 0;
    var r3 := Step(r2, Given(c.dateFrom), (t: Task) => t.createdAt >= from);
    var r := Step(r3, Given(c.dateTo), (t: Task) => t.createdAt <= to);
    SearchIsSubsequence(tasks, c.query, dateMatch);
    assert IsSubsequence(r1, tasks) by {
      if !Given(c.query) { SubsequenceReflexive(tasks); }
    }
    SubsequenceTransitive(r2, r1, tasks);
    SubsequenceTransitive(r3, r2, tasks);
    SubsequenceTransitive(r, r3, tasks);
    r
  }

  /** The advanced search keeps the input order. */
  lemma AdvancedSearchIsSubsequence(tasks: seq<Task>, c: Criteria, dateMatch: (Task, string) -> bool,
                                    parseDate: string -> int, endOfDay: int -> int)
    ensures IsSubsequence(AdvancedSearch(tasks, c, dateMatch, parseDate, endOfDay), tasks)
  {
    var r1 := if Given(c.query) then SearchTasks(tasks, c.query, dateMatch) else tasks;
    var r2 := Step(r1, StatusApplies(c), (t: Task) => c.status == Some(t.status));
    var from := if c.dateFrom.Some? then parseDate(c.dateFrom.value) else 0;
    var to := if c.dateTo.Some? then endOfDay(parseDate(c.dateTo.value)) else 0;
    var r3 := Step(r2, Given(c.dateFrom), (t: Task) => t.createdAt >= from);
    var r := Step(r3, Given(c.dateTo), (t: Task) => t.createdAt <= to);
    assert r == AdvancedSearch(tasks, c, dateMatch, parseDate, endOfDay);
    SearchIsSubsequence(tasks, c.query, dateMatch);
    assert IsSubsequence(r1, tasks) by {
      if !Given(c.query) { SubsequenceReflexive(tasks); }
    }
    SubsequenceTransitive(r2, r1, tasks);
    SubsequenceTransitive(r3, r2, tasks);
    SubsequenceTransitive(r, r3, tasks);
  }

  /** The query step keeps the tasks that match a non-blank query. */
  lemma QueryStepMembers(tasks: seq<Task>, c: Criteria, dateMatch: (Task, string) -> bool, t: Task)
    ensures t in (if Given(c.query) then SearchTasks(tasks, c.query, dateMatch) else tasks) <==>
      t in tasks && (Given(c.query) && !BlankQuery(c.query) ==> Matches(t, Term(c.query.value), dateMatch))
  {
    if Given(c.query) && !BlankQuery(c.query) {
      var term := Term(c.query.value);
      FilterMembers(tasks, t => Matches(t, term, dateMatch), t);
    }
  }

  /** The advanced search keeps exactly the tasks that pass every switched-on
      filter; status "all" or no status filters nothing. */
  lemma AdvancedSearchSelects(tasks: seq<Task>, c: Criteria, dateMatch: (Task, string) -> bool,
                              parseDate: string -> int, endOfDay: int -> int, t: Task)
    ensures t in AdvancedSearch(tasks, c, dateMatch, parseDate, endOfDay) <==>
      t in tasks && PassesCriteria(t, c, dateMatch, parseDate, endOfDay)
  {
    var r1 := if Given(c.query) then SearchTasks(tasks, c.query, dateMatch) else tasks;
    var r2 := Step(r1, StatusApplies(c), (t: Task) => c.status == Some(t.status));
    var from := if c.dateFrom.Some? then parseDate(c.dateFrom.value) else 0;
    var to := if c.dateTo.Some? then endOfDay(parseDate(c.dateTo.value)) else 0;
    var r3 := Step(r2, Given(c.dateFrom), (t: Task) => t.createdAt >= from);
    var r := Step(r3, Given(c.dateTo), (t: Task) => t.createdAt <= to);
    assert r == AdvancedSearch(tasks, c, dateMatch, parseDate, endOfDay);
    QueryStepMembers(tasks, c, dateMatch, t);
    StepMembers(r1, StatusApplies(c), (t: Task) => c.status == Some(t.status), t);
    assert t in r2 <==> t in r1 && (StatusApplies(c) ==> t.status == c.status.value);
    StepMembers(r2, Given(c.dateFrom), (t: Task) => t.createdAt >= from, t);
    assert t in r3 <==> t in r2 && (Given(c.dateFrom) ==> t.createdAt >= parseDate(c.dateFrom.value));
    StepMembers(r3, Given(c.dateTo), (t: Task) => t.createdAt <= to, t);
    assert t in r <==> t in r3 && (Given(c.dateTo) ==> t.createdAt <= endOfDay(parseDate(c.dateTo.value)));
  }
}

=== FILE: seqs.dfy ===
/**
 * `Array.prototype.filter` and the order-preserving subsequence relation it
 * produces, plus element counting.
 */
module Seqs {

  /** `s.filter(p)`: the elements of `s` satisfying `p`, in their original order. */
  function Filter<T>(s: seq<T>, p: T -> bool): (r: seq<T>)
    ensures |r| <= |s|
    ensures forall i :: 0 <= i < |r| ==> r[i] in s && p(r[i])
    ensures forall i :: 0 <= i < |s| && p(s[i]) ==> s[i] in r
  {
    if s == [] then [] else (if p(s[0]) then [s[0]] else []) + Filter(s[1..], p)
  }

  /** An element is in the filtered sequence exactly when it is in the input
      and satisfies the predicate. */
  lemma FilterMembers<T(!new)>(s: seq<T>, p: T -> bool, x: T)
    ensures x in Filter(s, p) <==> x in s && p(x)
  {
    if x in Filter(s, p) {
      var i :| 0 <= i < |Filter(s, p)| && Filter(s, p)[i] == x;
    }
    if x in s && p(x) {
      var i :| 0 <= i < |s| && s[i] == x;
    }
  }

  /** `a` can be obtained from `b` by deleting elements, without reordering. */
  predicate IsSubsequence<T(==)>(a: seq<T>, b: seq<T>)
    decreases |b|
  {
    a == [] || (b != [] && ((a[0] == b[0] && IsSubsequence(a[1..], b[1..])) || IsSubsequence(a, b[1..])))
  }

  lemma {:induction false} FilterIsSubsequence<T>(s: seq<T>, p: T -> bool)
    ensures IsSubsequence(Filter(s, p), s)
  {
    if s != [] {
      FilterIsSubsequence(s[1..], p);
      var r := Filter(s, p);
      var rest := Filter(s[1..], p);
      if p(s[0]) {
        assert r == [s[0]] + rest;
        assert r[0] == s[0] && r[1..] == rest;
      } else {
        assert r == rest;
      }
    }
  }

  lemma FilterAppend<T>(a: seq<T>, b: seq<T>, p: T -> bool)
    ensures Filter(a + b, p) == Filter(a, p) + Filter(b, p)
  {
    if a != [] {
      assert (a + b)[0] == a[0];
      assert (a + b)[1..] == a[1..] + b;
      FilterAppend(a[1..], b, p);
    } else {
      assert a + b == b;
    }
  }

  /** A filter keeps something exactly when some element passes. */
  lemma FilterNonEmptyIff<T>(s: seq<T>, p: T -> bool)
    ensures |Filter(s, p)| > 0 <==> exists i :: 0 <= i < |s| && p(s[i])
  {
    var r := Filter(s, p);
    if exists i :: 0 <= i < |s| && p(s[i]) {
      var i :| 0 <= i < |s| && p(s[i]);
      assert s[i] in r;
    }
    if |r| > 0 {
      assert r[0] in s && p(r[0]);
      var i :| 0 <= i < |s| && s[i] == r[0];
    }
  }

  /** Filtering with a predicate every element satisfies changes nothing. */
  lemma {:induction false} FilterAll<T>(s: seq<T>, p: T -> bool)
    requires forall i :: 0 <= i < |s| ==> p(s[i])
    ensures Filter(s, p) == s
  {
    if s != [] {
      assert forall i :: 0 <= i < |s[1..]| ==> s[1..][i] == s[i + 1];
      FilterAll(s[1..], p);
      assert s == [s[0]] + s[1..];
    }
  }

  /** Filtering twice is filtering by the conjunction. */
  lemma FilterFilter<T>(s: seq<T>, p: T -> bool, q: T -> bool)
    ensures Filter(Filter(s, p), q) == Filter(s, x => p(x) && q(x))
  {
    if s != [] {
      FilterFilter(s[1..], p, q);
      FilterAppend(if p(s[0]) then [s[0]] else [], Filter(s[1..], p), q);
    }
  }

  /** Every sequence is a subsequence of itself. */
  lemma {:induction false} SubsequenceReflexive<T>(s: seq<T>)
    ensures IsSubsequence(s, s)
  {
    if s != [] {
      SubsequenceReflexive(s[1..]);
    }
  }

  /** Subsequence is transitive, so chains of filters stay subsequences. */
  lemma {:induction false} SubsequenceTransitive<T>(a: seq<T>, b: seq<T>, c: seq<T>)
    requires IsSubsequence(a, b) && IsSubsequence(b, c)
    ensures IsSubsequence(a, c)
    decreases |c|
  {
    if a != [] {
      assert b != [] && c != [];
      if b[0] == c[0] && IsSubsequence(b[1..], c[1..]) {
        if a[0] == b[0] && IsSubsequence(a[1..], b[1..]) {
          SubsequenceTransitive(a[1..], b[1..], c[1..]);
        } else {
          SubsequenceTransitive(a, b[1..], c[1..]);
        }
      } else {
        SubsequenceTransitive(a, b, c[1..]);
      }
    }
  }

  /** Number of elements of `s` satisfying `p`. */
  function Count<T>(s: seq<T>, p: T -> bool): (n: nat)
    ensures n <= |s|
  {
    if s == [] then 0 else (if p(s[0]) then 1 else 0) + Count(s[1..], p)
  }

  lemma CountIsFilterLength<T>(s: seq<T>, p: T -> bool)
    ensures Count(s, p) == |Filter(s, p)|
  {
  }

  lemma CountAppend<T>(a: seq<T>, b: seq<T>, p: T -> bool)
    ensures Count(a + b, p) == Count(a, p) + Count(b, p)
  {
    if a != [] {
      assert (a + b)[0] == a[0];
      assert (a + b)[1..] == a[1..] + b;
      CountAppend(a[1..], b, p);
    } else {
      assert a + b == b;
    }
  }

  /** Elements of a sequence are pairwise distinct. */
  predicate Distinct<T(==)>(s: seq<T>) {
    forall i, j :: 0 <= i < j < |s| ==> s[i] != s[j]
  }
}

=== FILE: sort.dfy ===
/**
 * The client's sort options (frontend/sort.js): six fixed orders, a
 * multi-criteria order, and the option labels and icons. Dates are integer
 * timestamps, so `new Date(b) - new Date(a)` is a plain difference; titles
 * are compared after ASCII lower-casing in code-point order.
 */
module TaskSort {
  import opened Wrappers
  import opened Text
  import opened Tasks
  import opened Sorting

  // ---------------------------------------------------------------------
  // The six fixed orders

  function Newest(a: Task, b: Task): int { b.createdAt - a.createdAt }
  function Oldest(a: Task, b: Task): int { a.createdAt - b.createdAt }
  function AToZ(a: Task, b: Task): int { CompareStrings(Lower(a.title), Lower(b.title)) }
  function ZToA(a: Task, b: Task): int { CompareStrings(Lower(b.title), Lower(a.title)) }

  /** Tasks with status `first` come before the others; newest first within a group. */
  function GroupFirst(first: string, a: Task, b: Task): int {
    if a.status == first && b.status != first then -1
    else if a.status != first && b.status == first then 1
    else b.createdAt - a.createdAt
  }

  function CompletedFirst(a: Task, b: Task): int { GroupFirst(Completed, a, b) }
  function PendingFirst(a: Task, b: Task): int { GroupFirst(Pending, a, b) }

  /** The keys `sortTasks` knows. */
  const SortKeys: seq<string> := ["newest", "oldest", "a-z", "z-a", "completed", "pending"]

  predicate IsSortKey(sortBy: string) {
    sortBy in SortKeys
  }

  /** `sortTasks(tasks, sortBy)`: a stably sorted copy; an unknown key keeps the order. */
  function SortTasks(tasks: seq<Task>, sortBy: string): (r: seq<Task>)
    ensures multiset(r) == multiset(tasks)
    ensures !IsSortKey(sortBy) ==> r == tasks
  {
    match sortBy
    case "newest" => Sort(tasks, Newest)
    case "oldest" => Sort(tasks, Oldest)
    case "a-z" => Sort(tasks, AToZ)
    case "z-a" => Sort(tasks, ZToA)
    case "completed" => Sort(tasks, CompletedFirst)
    case "pending" => Sort(tasks, PendingFirst)
    case _ => tasks
  }

  // Which comparator each known key sorts with, one key at a time.
  lemma SortsNewest(tasks: seq<Task>) ensures SortTasks(tasks, "newest") == Sort(tasks, Newest) {}
  lemma SortsOldest(tasks: seq<Task>) ensures SortTasks(tasks, "oldest") == Sort(tasks, Oldest) {}
  lemma SortsAToZ(tasks: seq<Task>) ensures SortTasks(tasks, "a-z") == Sort(tasks, AToZ) {}
  lemma SortsZToA(tasks: seq<Task>) ensures SortTasks(tasks, "z-a") == Sort(tasks, ZToA) {}
  lemma SortsCompletedFirst(tasks: seq<Task>) ensures SortTasks(tasks, "completed") == Sort(tasks, CompletedFirst) {}
  lemma SortsPendingFirst(tasks: seq<Task>) ensures SortTasks(tasks, "pending") == Sort(tasks, PendingFirst) {}

  lemma DateOrdersValid()
    ensures ValidComparator(Newest) && ValidComparator(Oldest)
  {
  }

  lemma GroupOrdersValid()
    ensures ValidComparator(CompletedFirst) && ValidComparator(PendingFirst)
  {
    forall a, b, c | CompletedFirst(a, b) <= 0 && CompletedFirst(b, c) <= 0
      ensures CompletedFirst(a, c) <= 0
    {
    }
    forall a, b, c | PendingFirst(a, b) <= 0 && PendingFirst(b, c) <= 0
      ensures PendingFirst(a, c) <= 0
    {
    }
  }

  /** "newest" orders by non-increasing creation time and "oldest" by
      non-decreasing; tasks created at the same instant keep their order. */
  lemma DateSortOrders(tasks: seq<Task>, k: Task)
    ensures var r := SortTasks(tasks, "newest");
      (forall i, j :: 0 <= i < j < |r| ==> r[i].createdAt >= r[j].createdAt) &&
      Ties(r, k, Newest) == Ties(tasks, k, Newest)
    ensures var r := SortTasks(tasks, "oldest");
      (forall i, j :: 0 <= i < j < |r| ==> r[i].createdAt <= r[j].createdAt) &&
      Ties(r, k, Oldest) == Ties(tasks, k, Oldest)
  {
    DateOrdersValid();
    SortsNewest(tasks);
    SortsOldest(tasks);
    SortSorted(tasks, Newest);
    SortSorted(tasks, Oldest);
    SortStable(tasks, k, Newest);
    SortStable(tasks, k, Oldest);
  }

  lemma AToZValid()
    ensures ValidComparator(AToZ)
  {
    forall a, b ensures AToZ(a, b) < 0 <==> AToZ(b, a) > 0 {
      CompareStringsAntisymmetric(Lower(a.title), Lower(b.title));
    }
    forall a, b, c | AToZ(a, b) <= 0 && AToZ(b, c) <= 0 ensures AToZ(a, c) <= 0 {
      CompareStringsTransitive(Lower(a.title), Lower(b.title), Lower(c.title));
    }
  }

  lemma ZToAValid()
    ensures ValidComparator(ZToA)
  {
    forall a, b ensures ZToA(a, b) < 0 <==> ZToA(b, a) > 0 {
      CompareStringsAntisymmetric(Lower(a.title), Lower(b.title));
    }
    forall a, b, c | ZToA(a, b) <= 0 && ZToA(b, c) <= 0 ensures ZToA(a, c) <= 0 {
      CompareStringsTransitive(Lower(c.title), Lower(b.title), Lower(a.title));
    }
  }

  /** "a-z" orders lower-cased titles ascending; equal titles keep their order. */
  lemma AToZSortOrders(tasks: seq<Task>, k: Task)
    ensures var r := SortTasks(tasks, "a-z");
      (forall i, j :: 0 <= i < j < |r| ==> CompareStrings(Lower(r[i].title), Lower(r[j].title)) <= 0) &&
      Ties(r, k, AToZ) == Ties(tasks, k, AToZ)
  {
    AToZValid();
    SortsAToZ(tasks);
    SortSorted(tasks, AToZ);
    SortStable(tasks, k, AToZ);
  }

  /** "z-a" orders lower-cased titles descending; equal titles keep their order. */
  lemma ZToASortOrders(tasks: seq<Task>, k: Task)
    ensures var r := SortTasks(tasks, "z-a");
      (forall i, j :: 0 <= i < j < |r| ==> CompareStrings(Lower(r[j].title), Lower(r[i].title)) <= 0) &&
      Ties(r, k, ZToA) == Ties(tasks, k, ZToA)
  {
    ZToAValid();
    SortsZToA(tasks);
    SortSorted(tasks, ZToA);
    SortStable(tasks, k, ZToA);
    var r := Sort(tasks, ZToA);
    forall i, j | 0 <= i < j < |r| ensures CompareStrings(Lower(r[j].title), Lower(r[i].title)) <= 0 {
      assert ZToA(r[i], r[j]) <= 0;
    }
  }

  /** A sequence grouped by status: every `first` task precedes every other
      task, and each group is newest first. */
  predicate GroupedNewestFirst(r: seq<Task>, first: string) {
    (forall i, j :: 0 <= i < j < |r| && r[j].status == first ==> r[i].status == first) &&
    (forall i, j :: 0 <= i < j < |r| && (r[i].status == first <==> r[j].status == first) ==>
       r[i].createdAt >= r[j].createdAt)
  }

  /** A sequence sorted by a group-first order is grouped, newest first. */
  lemma GroupedIfSorted(r: seq<Task>, first: string, cmp: (Task, Task) -> int)
    requires forall a, b :: cmp(a, b) == GroupFirst(first, a, b)
    requires Sorted(r, cmp)
    ensures GroupedNewestFirst(r, first)
  {
    forall i, j | 0 <= i < j < |r| ensures GroupFirst(first, r[i], r[j]) <= 0 {
      assert cmp(r[i], r[j]) <= 0;
    }
  }

  lemma GroupSortOrders(tasks: seq<Task>)
    ensures GroupedNewestFirst(SortTasks(tasks, "completed"), Completed)
    ensures GroupedNewestFirst(SortTasks(tasks, "pending"), Pending)
  {
    GroupOrdersValid();
    SortsCompletedFirst(tasks);
    SortsPendingFirst(tasks);
    SortSorted(tasks, CompletedFirst);
    GroupedIfSorted(Sort(tasks, CompletedFirst), Completed, CompletedFirst);
    SortSorted(tasks, PendingFirst);
    GroupedIfSorted(Sort(tasks, PendingFirst), Pending, PendingFirst);
  }

  // ---------------------------------------------------------------------
  // Multi-criteria order

  datatype Criterion = Criterion(field: string, order: string)

  /** One field's comparison; an unknown field compares equal. */
  function FieldCompare(field: string, a: Task, b: Task): int {
    if field == "title" then CompareStrings(Lower(a.title), Lower(b.title))
    else if field == "status" then CompareStrings(a.status, b.status)
    else if field == "createdAt" then a.createdAt - b.createdAt
    else if field == "updatedAt" then a.updatedAt - b.updatedAt
    else 0
  }

  function CriterionCompare(c: Criterion, a: Task, b: Task): int {
    if c.order == "desc" then -FieldCompare(c.field, a, b) else FieldCompare(c.field, a, b)
  }

  /** The comparator `multiSort` passes to `sort`: the first criterion that
      tells the two tasks apart decides. */
  function CriteriaCompare(criteria: seq<Criterion>, a: Task, b: Task): int {
    if criteria == [] then 0
    else if CriterionCompare(criteria[0], a, b) != 0 then CriterionCompare(criteria[0], a, b)
    else CriteriaCompare(criteria[1..], a, b)
  }

  function MultiSort(tasks: seq<Task>, criteria: seq<Criterion>): (r: seq<Task>)
    ensures multiset(r) == multiset(tasks)
  {
    Sort(tasks, (a, b) => CriteriaCompare(criteria, a, b))
  }

  /** The first criterion with a non-zero comparison decides, negated for "desc". */
  lemma {:induction false} FirstDifferingCriterionDecides(criteria: seq<Criterion>, a: Task, b: Task, i: nat)
    requires i < |criteria|
    requires forall j :: 0 <= j < i ==> CriterionCompare(criteria[j], a, b) == 0
    requires FieldCompare(criteria[i].field, a, b) != 0
    ensures CriteriaCompare(criteria, a, b) ==
      (if criteria[i].order == "desc" then -FieldCompare(criteria[i].field, a, b)
       else FieldCompare(criteria[i].field, a, b))
  {
    if i > 0 {
      FirstDifferingCriterionDecides(criteria[1..], a, b, i - 1);
    }
  }

  /** When no criterion tells two tasks apart they compare equal. */
  lemma {:induction false} NoDifferingCriterionTies(criteria: seq<Criterion>, a: Task, b: Task)
    requires forall j :: 0 <= j < |criteria| ==> FieldCompare(criteria[j].field, a, b) == 0
    ensures CriteriaCompare(criteria, a, b) == 0
  {
    if criteria != [] {
      NoDifferingCriterionTies(criteria[1..], a, b);
    }
  }

  lemma FieldMirrored(f: string, a: Task, b: Task)
    ensures FieldCompare(f, a, b) < 0 <==> FieldCompare(f, b, a) > 0
  {
    CompareStringsAntisymmetric(Lower(a.title), Lower(b.title));
    CompareStringsAntisymmetric(a.status, b.status);
  }

  lemma FieldTransitive(f: string, a: Task, b: Task, c: Task)
    requires FieldCompare(f, a, b) <= 0 && FieldCompare(f, b, c) <= 0
    ensures FieldCompare(f, a, c) <= 0
  {
    if f == "title" {
      CompareStringsTransitive(Lower(a.title), Lower(b.title), Lower(c.title));
    } else if f == "status" {
      CompareStringsTransitive(a.status, b.status, c.status);
    }
  }

  lemma CriterionMirrored(k: Criterion, a: Task, b: Task)
    ensures CriterionCompare(k, a, b) < 0 <==> CriterionCompare(k, b, a) > 0
  {
    FieldMirrored(k.field, a, b);
    FieldMirrored(k.field, b, a);
  }

  lemma CriterionTransitive(k: Criterion, a: Task, b: Task, c: Task)
    requires CriterionCompare(k, a, b) <= 0 && CriterionCompare(k, b, c) <= 0
    ensures CriterionCompare(k, a, c) <= 0
  {
    if k.order == "desc" {
      FieldMirrored(k.field, a, b);
      FieldMirrored(k.field, b, c);
      FieldMirrored(k.field, a, c);
      FieldTransitive(k.field, c, b, a);
    } else {
      FieldTransitive(k.field, a, b, c);
    }
  }

  /** A strict step followed by a weak one stays strict. */
  lemma CriterionStrict(k: Criterion, a: Task, b: Task, c: Task)
    requires CriterionCompare(k, a, b) <= 0 && CriterionCompare(k, b, c) <= 0
    requires CriterionCompare(k, a, b) < 0 || CriterionCompare(k, b, c) < 0
    ensures CriterionCompare(k, a, c) < 0
  {
    CriterionTransitive(k, a, b, c);
    if CriterionCompare(k, a, c) == 0 {
      CriterionMirrored(k, a, c);
      CriterionMirrored(k, c, a);
      if CriterionCompare(k, a, b) < 0 {
        CriterionTransitive(k, b, c, a);
        CriterionMirrored(k, a, b);
      } else {
        CriterionTransitive(k, c, a, b);
        CriterionMirrored(k, b, c);
      }
    }
  }

  lemma {:induction false} CriteriaMirrored(criteria: seq<Criterion>, a: Task, b: Task)
    ensures CriteriaCompare(criteria, a, b) < 0 <==> CriteriaCompare(criteria, b, a) > 0
  {
    if criteria != [] {
      CriterionMirrored(criteria[0], a, b);
      CriterionMirrored(criteria[0], b, a);
      CriteriaMirrored(criteria[1..], a, b);
    }
  }

  lemma {:induction false} CriteriaTransitive(criteria: seq<Criterion>, a: Task, b: Task, c: Task)
    requires CriteriaCompare(criteria, a, b) <= 0 && CriteriaCompare(criteria, b, c) <= 0
    ensures CriteriaCompare(criteria, a, c) <= 0
  {
    if criteria != [] {
      var k := criteria[0];
      if CriterionCompare(k, a, b) == 0 && CriterionCompare(k, b, c) == 0 {
        CriterionTransitive(k, a, b, c);
        CriterionMirrored(k, a, b);
        CriterionMirrored(k, b, c);
        CriterionTransitive(k, c, b, a);
        CriterionMirrored(k, c, a);
        CriteriaTransitive(criteria[1..], a, b, c);
      } else {
        CriterionStrict(k, a, b, c);
      }
    }
  }

  /** Every list of criteria yields a consistent comparator, so the stable
      sort's guarantees apply to `multiSort`. */
  lemma CriteriaCompareValid(criteria: seq<Criterion>)
    ensures ValidComparator((a, b) => CriteriaCompare(criteria, a, b))
  {
    var cmp := (a, b) => CriteriaCompare(criteria, a, b);
    forall a, b ensures cmp(a, b) < 0 <==> cmp(b, a) > 0 {
      CriteriaMirrored(criteria, a, b);
    }
    forall a, b, c | cmp(a, b) <= 0 && cmp(b, c) <= 0 ensures cmp(a, c) <= 0 {
      CriteriaTransitive(criteria, a, b, c);
    }
  }

  /** `multiSort` orders by the criteria and keeps the input order of tasks
      no criterion tells apart; with no criteria it keeps the input order. */
  lemma MultiSortOrders(tasks: seq<Task>, criteria: seq<Criterion>, k: Task)
    ensures var r := MultiSort(tasks, criteria);
      (forall i, j :: 0 <= i < j < |r| ==> CriteriaCompare(criteria, r[i], r[j]) <= 0) &&
      Ties(r, k, (a, b) => CriteriaCompare(criteria, a, b)) ==
      Ties(tasks, k, (a, b) => CriteriaCompare(criteria, a, b))
    ensures criteria == [] ==> MultiSort(tasks, criteria) == tasks
  {
    var cmp := (a, b) => CriteriaCompare(criteria, a, b);
    CriteriaCompareValid(criteria);
    SortSorted(tasks, cmp);
    SortStable(tasks, k, cmp);
    if criteria == [] {
      SortAllTiedIsIdentity(tasks, cmp);
    }
  }

  // ---------------------------------------------------------------------
  // Labels and icons

  datatype SortOption = SortOption(value: string, text: string, icon: string)

  const SortOptions: seq<SortOption> := [
    SortOption("newest", "Newest First", "\U{1F195}"),
    SortOption("oldest", "Oldest First", "\U{1F4C5}"),
    SortOption("a-z", "A to Z", "\U{1F524}"),
    SortOption("z-a", "Z to A", "\U{1F521}"),
    SortOption("completed", "Completed First", "\U{2705}"),
    SortOption("pending", "Pending First", "\U{23F3}")
  ]

  const DefaultLabel: string := "Sort By"
  const DefaultIcon: string := "\U{2B07}\U{FE0F}"

  /** The options list the known keys, in the same order. */
  lemma OptionValues()
    ensures |SortOptions| == |SortKeys|
    ensures forall i :: 0 <= i < |SortKeys| ==> SortOptions[i].value == SortKeys[i]
  {
  }

  /** `sortOptions.find(opt => opt.value === sortBy)`. */
  function FindOption(options: seq<SortOption>, sortBy: string): (r: Option<SortOption>)
    ensures r.Some? <==> exists i :: 0 <= i < |options| && options[i].value == sortBy
    ensures r.Some? ==> r.value in options && r.value.value == sortBy
  {
    if options == [] then None
    else if options[0].value == sortBy then Some(options[0])
    else FindOption(options[1..], sortBy)
  }

  function GetSortLabel(sortBy: string): (r: string)
    ensures IsSortKey(sortBy) ==> exists i :: 0 <= i < |SortOptions| && SortOptions[i] == SortOption(sortBy, r, SortOptions[i].icon)
    ensures !IsSortKey(sortBy) ==> r == DefaultLabel
  {
    OptionValues();
    match FindOption(SortOptions, sortBy)
    case Some(o) => o.text
    case None => DefaultLabel
  }

  function GetSortIcon(sortBy: string): (r: string)
    ensures IsSortKey(sortBy) ==> exists i :: 0 <= i < |SortOptions| && SortOptions[i] == SortOption(sortBy, SortOptions[i].text, r)
    ensures !IsSortKey(sortBy) ==> r == DefaultIcon
  {
    OptionValues();
    match FindOption(SortOptions, sortBy)
    case Some(o) => o.icon
    case None => DefaultIcon
  }

  /** The keys the sort distinguishes are exactly the keys with an option,
      and no option's label is the fallback "Sort By". */
  lemma SortKeysHaveOptions(sortBy: string)
    ensures IsSortKey(sortBy) <==> FindOption(SortOptions, sortBy).Some?
    ensures GetSortLabel(sortBy) == DefaultLabel <==> !IsSortKey(sortBy)
  {
    OptionValues();
  }
}

=== FILE: sorting.dfy ===
/**
 * A stable comparison sort, the behaviour `Array.prototype.sort` guarantees
 * (ECMAScript 2019 and later): the result is a permutation of the input,
 * ordered by the comparator, and elements the comparator ties keep their
 * input order. Insertion sort is the reference definition.
 */
module Sorting {

  /** "Less than" is mirrored: `a` sorts before `b` exactly when `b` sorts after `a`. */
  ghost predicate Mirrored<T(!new)>(cmp: (T, T) -> int) {
    forall a, b :: cmp(a, b) < 0 <==> cmp(b, a) > 0
  }

  /** "Not greater than" is transitive. */
  ghost predicate Transitive<T(!new)>(cmp: (T, T) -> int) {
    forall a, b, c :: cmp(a, b) <= 0 && cmp(b, c) <= 0 ==> cmp(a, c) <= 0
  }

  /** A comparator in the JavaScript sense (negative, zero or positive) that
      is consistent, so that a stable sort has a well-defined result. */
  ghost predicate ValidComparator<T(!new)>(cmp: (T, T) -> int) {
    Mirrored(cmp) && Transitive(cmp)
  }

  /** Every earlier element compares not-greater than every later one. */
  predicate Sorted<T>(s: seq<T>, cmp: (T, T) -> int) {
    forall i, j :: 0 <= i < j < |s| ==> cmp(s[i], s[j]) <= 0
  }

  /** Each element compares not-greater than its successor. */
  predicate AdjacentSorted<T>(s: seq<T>, cmp: (T, T) -> int) {
    forall i :: 0 < i < |s| ==> cmp(s[i - 1], s[i]) <= 0
  }

  /** The elements of `s` the comparator ties with `k`, in order. */
  function Ties<T>(s: seq<T>, k: T, cmp: (T, T) -> int): seq<T> {
    if s == [] then [] else (if cmp(s[0], k) == 0 then [s[0]] else []) + Ties(s[1..], k, cmp)
  }

  /** Places `x` before the first element it is not greater than. */
  function Insert<T>(x: T, s: seq<T>, cmp: (T, T) -> int): (r: seq<T>)
    ensures |r| == |s| + 1
    ensures multiset(r) == multiset(s) + multiset{x}
    ensures r[0] == x || (s != [] && r[0] == s[0])
  {
    if s == [] || cmp(x, s[0]) <= 0 then [x] + s
    else
      assert s == [s[0]] + s[1..];
      [s[0]] + Insert(x, s[1..], cmp)
  }

  /** Insertion sort: inserting each element, from last to first, in front of
      the elements after it that it does not exceed keeps earlier ties first.
      The result is a permutation of the input. */
  function Sort<T>(s: seq<T>, cmp: (T, T) -> int): (r: seq<T>)
    ensures |r| == |s|
    ensures multiset(r) == multiset(s)
  {
    if s == [] then []
    else
      assert s == [s[0]] + s[1..];
      Insert(s[0], Sort(s[1..], cmp), cmp)
  }

  lemma {:induction false} InsertAdjacentSorted<T(!new)>(x: T, s: seq<T>, cmp: (T, T) -> int)
    requires Mirrored(cmp)
    requires AdjacentSorted(s, cmp)
    ensures AdjacentSorted(Insert(x, s, cmp), cmp)
  {
    if s != [] && cmp(x, s[0]) > 0 {
      var t := Insert(x, s[1..], cmp);
      InsertAdjacentSorted(x, s[1..], cmp);
      var r := [s[0]] + t;
      assert cmp(s[0], x) < 0;
      assert cmp(s[0], t[0]) <= 0 by {
        if t[0] != x {
          assert t[0] == s[1];
        }
      }
      forall i | 0 < i < |r| ensures cmp(r[i - 1], r[i]) <= 0 {
        if i > 1 {
          assert r[i - 1] == t[i - 2] && r[i] == t[i - 1];
        }
      }
    }
  }

  /** Adjacent order extends to every pair under a transitive comparator. */
  lemma {:induction false} AdjacentSortedIsSorted<T(!new)>(s: seq<T>, cmp: (T, T) -> int)
    requires Transitive(cmp)
    requires AdjacentSorted(s, cmp)
    ensures Sorted(s, cmp)
  {
    if s != [] {
      var t := s[1..];
      assert AdjacentSorted(t, cmp) by {
        forall i | 0 < i < |t| ensures cmp(t[i - 1], t[i]) <= 0 {
          assert t[i - 1] == s[i] && t[i] == s[i + 1];
        }
      }
      AdjacentSortedIsSorted(t, cmp);
      forall i, j | 0 <= i < j < |s| ensures cmp(s[i], s[j]) <= 0 {
        if i == 0 {
          if j > 1 {
            assert cmp(s[0], s[1]) <= 0;
            assert cmp(t[0], t[j - 1]) <= 0;
          }
        } else {
          assert s[i] == t[i - 1] && s[j] == t[j - 1];
        }
      }
    }
  }

  lemma {:induction false} SortAdjacentSorted<T(!new)>(s: seq<T>, cmp: (T, T) -> int)
    requires Mirrored(cmp)
    ensures AdjacentSorted(Sort(s, cmp), cmp)
  {
    if s != [] {
      SortAdjacentSorted(s[1..], cmp);
      InsertAdjacentSorted(s[0], Sort(s[1..], cmp), cmp);
    }
  }

  /** Sorting orders the result by the comparator. */
  lemma SortSorted<T(!new)>(s: seq<T>, cmp: (T, T) -> int)
    requires ValidComparator(cmp)
    ensures Sorted(Sort(s, cmp), cmp)
  {
    SortAdjacentSorted(s, cmp);
    AdjacentSortedIsSorted(Sort(s, cmp), cmp);
  }

  /** Under a consistent comparator, two elements both tied with `k` are tied
      with each other. */
  lemma TiesAreEquivalent<T(!new)>(a: T, b: T, k: T, cmp: (T, T) -> int)
    requires ValidComparator(cmp)
    requires cmp(a, k) == 0 && cmp(b, k) == 0
    ensures cmp(a, b) == 0
  {
    assert cmp(k, b) == 0;
    assert cmp(k, a) == 0;
    assert cmp(a, b) <= 0 && cmp(b, a) <= 0;
  }

  lemma TiesCons<T>(y: T, t: seq<T>, k: T, cmp: (T, T) -> int)
    ensures Ties([y] + t, k, cmp) == (if cmp(y, k) == 0 then [y] else []) + Ties(t, k, cmp)
  {
    assert ([y] + t)[0] == y && ([y] + t)[1..] == t;
  }

  /** Inserting `x` adds it to the ties of `k` in front, provided `x` is tied
      with everything tied with `k` (as a consistent comparator ensures). */
  lemma {:induction false} InsertTies<T>(x: T, s: seq<T>, k: T, cmp: (T, T) -> int)
    requires cmp(x, k) == 0 ==> forall i :: 0 <= i < |s| && cmp(s[i], k) == 0 ==> cmp(x, s[i]) == 0
    ensures Ties(Insert(x, s, cmp), k, cmp) ==
      (if cmp(x, k) == 0 then [x] else []) + Ties(s, k, cmp)
  {
    if s == [] || cmp(x, s[0]) <= 0 {
      TiesCons(x, s, k, cmp);
    } else {
      assert cmp(x, k) == 0 ==> forall i :: 0 <= i < |s[1..]| && cmp(s[1..][i], k) == 0 ==> cmp(x, s[1..][i]) == 0 by {
        if cmp(x, k) == 0 {
          forall i | 0 <= i < |s[1..]| && cmp(s[1..][i], k) == 0 ensures cmp(x, s[1..][i]) == 0 {
            assert s[1..][i] == s[i + 1];
          }
        }
      }
      InsertTies(x, s[1..], k, cmp);
      TiesCons(s[0], Insert(x, s[1..], cmp), k, cmp);
      TiesCons(s[0], s[1..], k, cmp);
      assert [s[0]] + s[1..] == s;
    }
  }

  /** Stability: for every element `k`, the elements tied with `k` appear in
      the result in the same order as in the input. */
  lemma {:induction false} SortStable<T(!new)>(s: seq<T>, k: T, cmp: (T, T) -> int)
    requires ValidComparator(cmp)
    ensures Ties(Sort(s, cmp), k, cmp) == Ties(s, k, cmp)
  {
    if s != [] {
      SortStable(s[1..], k, cmp);
      var t := Sort(s[1..], cmp);
      forall i | 0 <= i < |t| && cmp(s[0], k) == 0 && cmp(t[i], k) == 0 ensures cmp(s[0], t[i]) == 0 {
        TiesAreEquivalent(s[0], t[i], k, cmp);
      }
      InsertTies(s[0], t, k, cmp);
      TiesCons(s[0], s[1..], k, cmp);
      assert [s[0]] + s[1..] == s;
    }
  }

  /** A comparator that ties everything leaves the order alone. */
  lemma {:induction false} SortAllTiedIsIdentity<T>(s: seq<T>, cmp: (T, T) -> int)
    requires forall i, j :: 0 <= i < |s| && 0 <= j < |s| ==> cmp(s[i], s[j]) == 0
    ensures Sort(s, cmp) == s
  {
    if s != [] {
      var t := s[1..];
      assert forall i, j :: 0 <= i < |t| && 0 <= j < |t| ==> cmp(t[i], t[j]) == 0 by {
        forall i, j | 0 <= i < |t| && 0 <= j < |t| ensures cmp(t[i], t[j]) == 0 {
          assert t[i] == s[i + 1] && t[j] == s[j + 1];
        }
      }
      SortAllTiedIsIdentity(t, cmp);
      if t != [] {
        assert cmp(s[0], s[1]) == 0;
      }
      assert [s[0]] + t == s;
    }
  }

  /** Lexicographic code-point order on strings, as -1, 0 or 1. */
  function CompareStrings(a: string, b: string): (r: int)
    ensures -1 <= r <= 1
    ensures r == 0 <==> a == b
  {
    if a == [] && b == [] then 0
    else if a == [] then -1
    else if b == [] then 1
    else if a[0] < b[0] then -1
    else if a[0] > b[0] then 1
    else CompareStrings(a[1..], b[1..])
  }

  lemma {:induction false} CompareStringsAntisymmetric(a: string, b: string)
    ensures CompareStrings(a, b) == -CompareStrings(b, a)
  {
    if a != [] && b != [] && a[0] == b[0] {
      CompareStringsAntisymmetric(a[1..], b[1..]);
    }
  }

  lemma {:induction false} CompareStringsTransitive(a: string, b: string, c: string)
    requires CompareStrings(a, b) <= 0 && CompareStrings(b, c) <= 0
    ensures CompareStrings(a, c) <= 0
  {
    if a != [] && b != [] && c != [] && a[0] == b[0] && b[0] == c[0] {
      CompareStringsTransitive(a[1..], b[1..], c[1..]);
    }
  }

  /** The string order is a consistent comparator. */
  lemma CompareStringsValid()
    ensures ValidComparator(CompareStrings)
  {
    forall a, b ensures CompareStrings(a, b) < 0 <==> CompareStrings(b, a) > 0 {
      CompareStringsAntisymmetric(a, b);
    }
    forall a, b, c | CompareStrings(a, b) <= 0 && CompareStrings(b, c) <= 0
      ensures CompareStrings(a, c) <= 0
    {
      CompareStringsTransitive(a, b, c);
    }
  }
}

=== FILE: stats.dfy ===
/**
 * Task statistics (frontend/stats.js). JavaScript computes percentages in
 * floating point; here they are exact rationals, so `Math.round(100 * c / t)`
 * is the integer nearest to 100c/t with halves rounded up. "Today" and "a
 * week ago" depend on the local clock and time zone: the caller supplies
 * `isToday` (whether a timestamp falls on the current local day) and
 * `weekAgo` (the timestamp seven days before now).
 */
module Stats {
  import opened Seqs
  import opened Tasks

  datatype Summary = Summary(total: nat, completed: nat, pending: nat, progress: int)

  predicate IsCompleted(t: Task) { t.status == Completed }
  predicate IsPending(t: Task) { t.status == Pending }

  /** `Math.round(100 * part / whole)` for `whole > 0`. */
  function RoundPercent(part: nat, whole: nat): (p: int)
    requires whole > 0
    ensures 2 * whole * p - whole <= 200 * part < 2 * whole * p + whole
  {
    (200 * part + whole) / (2 * whole)
  }

  /** Multiplying by a non-negative factor keeps an order. */
  lemma MulMonotone(a: nat, x: int, y: int)
    requires x <= y
    ensures a * x <= a * y
  {
    assert a * y - a * x == a * (y - x);
  }

  /** A rounded share lies between 0 and 100. */
  lemma RoundPercentBounds(part: nat, whole: nat)
    requires whole > 0 && part <= whole
    ensures 0 <= RoundPercent(part, whole) <= 100
  {
    var p := RoundPercent(part, whole);
    MulMonotone(200, part, whole);
    if p > 100 {
      MulMonotone(2 * whole, 101, p);
    } else if p < 0 {
      MulMonotone(2 * whole, p, -1);
    }
  }

  /** The rounded percentage is the nearest integer: any candidate that also
      satisfies the rounding bounds is the same number. */
  lemma RoundPercentUnique(part: nat, whole: nat, p: int)
    requires whole > 0
    requires 2 * whole * p - whole <= 200 * part < 2 * whole * p + whole
    ensures p == RoundPercent(part, whole)
  {
    var q := RoundPercent(part, whole);
    if p < q {
      MulMonotone(2 * whole, p + 1, q);
    } else if p > q {
      MulMonotone(2 * whole, q + 1, p);
    }
  }

  /** `calculateStats(tasks)`. */
  function CalculateStats(tasks: seq<Task>): (s: Summary)
    ensures s.total == |tasks|
    ensures s.completed == Count(tasks, IsCompleted) && s.pending == Count(tasks, IsPending)
    ensures s.total == 0 ==> s.progress == 0
    ensures s.total > 0 ==> 2 * s.total * s.progress - s.total <= 200 * s.completed < 2 * s.total * s.progress + s.total
    ensures 0 <= s.progress <= 100
  {
    var total := |tasks|;
    var completed := Count(tasks, IsCompleted);
    var pending := Count(tasks, IsPending);
    if total == 0 then Summary(0, completed, pending, 0)
    else
      RoundPercentBounds(completed, total);
      Summary(total, completed, pending, RoundPercent(completed, total))
  }

  /** With only the two schema statuses, every task is counted exactly once. */
  lemma {:induction false} TotalIsCompletedPlusPending(tasks: seq<Task>)
    requires forall i :: 0 <= i < |tasks| ==> ValidStatus(tasks[i].status)
    ensures CalculateStats(tasks).total == CalculateStats(tasks).completed + CalculateStats(tasks).pending
  {
    if tasks != [] {
      TotalIsCompletedPlusPending(tasks[1..]);
    }
  }

  /** Progress 100 and 0 at the extremes: all tasks completed, none completed. */
  lemma ProgressExtremes(tasks: seq<Task>)
    requires |tasks| > 0
    ensures CalculateStats(tasks).completed == |tasks| ==> CalculateStats(tasks).progress == 100
    ensures CalculateStats(tasks).completed == 0 ==> CalculateStats(tasks).progress == 0
  {
    var s := CalculateStats(tasks);
    if s.completed == |tasks| {
      RoundPercentUnique(s.completed, s.total, 100);
    }
    if s.completed == 0 {
      RoundPercentUnique(0, s.total, 0);
    }
  }

  /** `getTasksCreatedToday(tasks)`. */
  function TasksCreatedToday(tasks: seq<Task>, isToday: int -> bool): (r: seq<Task>)
    ensures |r| <= |tasks|
    ensures forall i :: 0 <= i < |r| ==> r[i] in tasks && isToday(r[i].createdAt)
    ensures forall i :: 0 <= i < |tasks| && isToday(tasks[i].createdAt) ==> tasks[i] in r
    ensures IsSubsequence(r, tasks)
  {
    FilterIsSubsequence(tasks, (t: Task) => isToday(t.createdAt));
    Filter(tasks, (t: Task) => isToday(t.createdAt))
  }

  /** The test of `getTasksCompletedToday`: completed, with a non-zero
      (truthy) update time that falls today. */
  predicate CompletedToday(t: Task, isToday: int -> bool) {
    t.status == Completed && t.updatedAt != 0 && isToday(t.updatedAt)
  }

  /** `getTasksCompletedToday(tasks)`. */
  function TasksCompletedToday(tasks: seq<Task>, isToday: int -> bool): (r: seq<Task>)
    ensures |r| <= |tasks|
    ensures forall i :: 0 <= i < |r| ==> r[i] in tasks && CompletedToday(r[i], isToday)
    ensures forall i :: 0 <= i < |tasks| && CompletedToday(tasks[i], isToday) ==> tasks[i] in r
    ensures IsSubsequence(r, tasks)
  {
    FilterIsSubsequence(tasks, (t: Task) => CompletedToday(t, isToday));
    Filter(tasks, (t: Task) => CompletedToday(t, isToday))
  }

  /** Tasks completed today are among the completed ones. */
  lemma {:induction false} CompletedTodayAtMostCompleted(tasks: seq<Task>, isToday: int -> bool)
    ensures |TasksCompletedToday(tasks, isToday)| <= CalculateStats(tasks).completed
  {
    if tasks != [] {
      CompletedTodayAtMostCompleted(tasks[1..], isToday);
    }
  }

  /** `getProductivityScore(tasks)`: the progress, plus five points per task
      completed today, capped at 100. */
  function ProductivityScore(tasks: seq<Task>, isToday: int -> bool): (score: int)
    ensures 0 <= score <= 100
    ensures |tasks| > 0 ==>
      var p := CalculateStats(tasks).progress + 5 * |TasksCompletedToday(tasks, isToday)|;
      score == if p > 100 then 100 else p
    ensures |tasks| == 0 ==> score == 0
    ensures |tasks| > 0 ==> score >= CalculateStats(tasks).progress
    ensures |tasks| > 0 ==> (score == CalculateStats(tasks).progress <==>
      |TasksCompletedToday(tasks, isToday)| == 0 || CalculateStats(tasks).progress == 100)
  {
    if |tasks| == 0 then 0
    else
      var progress := CalculateStats(tasks).progress;
      var todayCompleted := |TasksCompletedToday(tasks, isToday)|;
      if todayCompleted > 0 then (if 100 < progress + todayCompleted * 5 then 100 else progress + todayCompleted * 5)
      else progress
  }

  datatype Trend = Increasing | Decreasing | Stable {
    function Name(): string {
      match this
      case Increasing => "increasing"
      case Decreasing => "decreasing"
      case Stable => "stable"
    }
  }

  /** Tasks created at or after `weekAgo`. */
  function CreatedSince(weekAgo: int): Task -> bool {
    (t: Task) => t.createdAt >= weekAgo
  }

  /** Tasks created at or after `weekAgo` and completed. */
  function CompletedSince(weekAgo: int): Task -> bool {
    (t: Task) => t.createdAt >= weekAgo && IsCompleted(t)
  }

  /** `getCompletionTrend(tasks)`: the completion rate of the tasks created
      in the last week, read as a trend. */
  function CompletionTrend(tasks: seq<Task>, weekAgo: int): (r: Trend)
    ensures r != Stable ==> exists i :: 0 <= i < |tasks| && tasks[i].createdAt >= weekAgo
    ensures r == Increasing ==> exists i :: 0 <= i < |tasks| && tasks[i].createdAt >= weekAgo && IsCompleted(tasks[i])
  {
    var recent := Filter(tasks, CreatedSince(weekAgo));
    if |recent| == 0 then Stable
    else
      CountCompletedSince(tasks, weekAgo);
      CountIsFilterLength(tasks, CompletedSince(weekAgo));
      FilterNonEmptyIff(tasks, CompletedSince(weekAgo));
      var done := Count(recent, IsCompleted);
      if 100 * done >= 70 * |recent| then Increasing
      else if 100 * done <= 30 * |recent| then Decreasing
      else Stable
  }

  /** The completed tasks among the recent ones are the recent completed tasks. */
  lemma {:induction false} CountCompletedSince(tasks: seq<Task>, weekAgo: int)
    ensures Count(Filter(tasks, CreatedSince(weekAgo)), IsCompleted) == Count(tasks, CompletedSince(weekAgo))
  {
    if tasks != [] {
      CountCompletedSince(tasks[1..], weekAgo);
      var rest := Filter(tasks[1..], CreatedSince(weekAgo));
      if CreatedSince(weekAgo)(tasks[0]) {
        assert Filter(tasks, CreatedSince(weekAgo)) == [tasks[0]] + rest;
        assert ([tasks[0]] + rest)[1..] == rest;
        assert CompletedSince(weekAgo)(tasks[0]) == IsCompleted(tasks[0]);
      } else {
        assert Filter(tasks, CreatedSince(weekAgo)) == [] + rest == rest;
        assert !CompletedSince(weekAgo)(tasks[0]);
      }
    }
  }

  /** The trend by counts: with `n` tasks created in the window and `d` of
      them completed, no task in the window is stable, a rate of at least 70%
      is increasing, one of at most 30% is decreasing, and anything between is
      stable. */
  lemma CompletionTrendByRate(tasks: seq<Task>, weekAgo: int)
    ensures var n := Count(tasks, CreatedSince(weekAgo));
      var d := Count(tasks, CompletedSince(weekAgo));
      var r := CompletionTrend(tasks, weekAgo);
      (n == 0 ==> r == Stable) &&
      (n > 0 ==> ((r == Increasing <==> 100 * d >= 70 * n) &&
                  (r == Decreasing <==> 100 * d < 70 * n && 100 * d <= 30 * n)))
  {
    CountIsFilterLength(tasks, CreatedSince(weekAgo));
    CountCompletedSince(tasks, weekAgo);
  }

  /** A week in which every task was completed is increasing; one in which
      none was is decreasing. */
  lemma CompletionTrendExtremes(tasks: seq<Task>, weekAgo: int)
    requires forall i :: 0 <= i < |tasks| ==> tasks[i].createdAt >= weekAgo
    requires |tasks| > 0
    ensures (forall i :: 0 <= i < |tasks| ==> IsCompleted(tasks[i])) ==> CompletionTrend(tasks, weekAgo) == Increasing
    ensures (forall i :: 0 <= i < |tasks| ==> !IsCompleted(tasks[i])) ==> CompletionTrend(tasks, weekAgo) == Decreasing
  {
    FilterAll(tasks, CreatedSince(weekAgo));
    if forall i :: 0 <= i < |tasks| ==> IsCompleted(tasks[i]) {
      CountAll(tasks, IsCompleted);
    }
    if forall i :: 0 <= i < |tasks| ==> !IsCompleted(tasks[i]) {
      CountNone(tasks, IsCompleted);
    }
  }

  lemma {:induction false} CountAll(s: seq<Task>, p: Task -> bool)
    requires forall i :: 0 <= i < |s| ==> p(s[i])
    ensures Count(s, p) == |s|
  {
    if s != [] {
      CountAll(s[1..], p);
    }
  }

  lemma {:induction false} CountNone(s: seq<Task>, p: Task -> bool)
    requires forall i :: 0 <= i < |s| ==> !p(s[i])
    ensures Count(s, p) == 0
  {
    if s != [] {
      CountNone(s[1..], p);
    }
  }

  /** `getProgressColor(progress)`. */
  function ProgressColor(progress: int): (r: string)
    ensures progress >= 80 <==> r == "text-green-600"
    ensures 50 <= progress < 80 <==> r == "text-yellow-600"
    ensures 25 <= progress < 50 <==> r == "text-orange-600"
    ensures progress < 25 <==> r == "text-red-600"
  {
    if progress >= 80 then "text-green-600"
    else if progress >= 50 then "text-yellow-600"
    else if progress >= 25 then "text-orange-600"
    else "text-red-600"
  }

  const PerfectMessage: string := "\U{1F389} Perfect! All tasks completed!"
  const AlmostMessage: string := "\U{1F525} Almost there! Keep going!"
  const HalfwayMessage: string := "\U{1F4AA} Great progress! You're halfway!"
  const StartMessage: string := "\U{1F680} Good start! Keep it up!"
  const GetStartedMessage: string := "\U{1F4DD} Let's get started on those tasks!"
  const ReadyMessage: string := "\U{2728} Ready to be productive?"

  /** `getMotivationalMessage(progress, pending, completed)`: the first
      matching band wins. */
  function MotivationalMessage(progress: int, pending: int, completed: int): (r: string)
    ensures r == PerfectMessage <==> progress == 100 && completed > 0
    ensures r == AlmostMessage <==> progress >= 80 && !(progress == 100 && completed > 0)
    ensures r == HalfwayMessage <==> 50 <= progress < 80
    ensures r == StartMessage <==> 25 <= progress < 50
    ensures r == GetStartedMessage <==> progress < 25 && pending > 0
    ensures r == ReadyMessage <==> progress < 25 && pending <= 0
  {
    if progress == 100 && completed > 0 then PerfectMessage
    else if progress >= 80 then AlmostMessage
    else if progress >= 50 then HalfwayMessage
    else if progress >= 25 then StartMessage
    else if pending > 0 then GetStartedMessage
    else ReadyMessage
  }

  /** Rounding lets a list with one pending task reach progress 100: 199
      completed out of 200 rounds 99.5 up, and the message then claims that
      every task is completed. */
  lemma PerfectMessageWithPendingTask()
    ensures RoundPercent(199, 200) == 100
    ensures MotivationalMessage(RoundPercent(199, 200), 1, 199) == PerfectMessage
  {
  }

  /** The same holds for every list of 200 or more tasks with exactly one not
      completed. */
  lemma OnePendingRoundsToHundred(tasks: seq<Task>)
    requires |tasks| >= 200 && CalculateStats(tasks).completed == |tasks| - 1
    ensures CalculateStats(tasks).progress == 100
  {
    var n := |tasks|;
    MulMonotone(2 * n, 100, 100);
    RoundPercentUnique(n - 1, n, 100);
  }

  /** The message with "all tasks completed" decided by the counts rather
      than the rounded progress: no task pending and at least one completed. */
  function MotivationalMessageByCounts(progress: int, pending: int, completed: int): (r: string)
    ensures r == PerfectMessage <==> pending == 0 && completed > 0
    ensures r == AlmostMessage <==> progress >= 80 && !(pending == 0 && completed > 0)
    ensures r == HalfwayMessage <==> 50 <= progress < 80 && !(pending == 0 && completed > 0)
    ensures r == StartMessage <==> 25 <= progress < 50 && !(pending == 0 && completed > 0)
    ensures r == GetStartedMessage <==> progress < 25 && pending > 0
    ensures r == ReadyMessage <==> progress < 25 && pending <= 0 && !(pending == 0 && completed > 0)
  {
    if pending == 0 && completed > 0 then PerfectMessage
    else if progress >= 80 then AlmostMessage
    else if progress >= 50 then HalfwayMessage
    else if progress >= 25 then StartMessage
    else if pending > 0 then GetStartedMessage
    else ReadyMessage
  }

  /** With the schema's two statuses, the corrected message says "all tasks
      completed" exactly when the list is non-empty and every task is
      completed, and where that holds it agrees with the original. */
  lemma {:induction false} PerfectMessageMeansAllCompleted(tasks: seq<Task>)
    requires forall i :: 0 <= i < |tasks| ==> ValidStatus(tasks[i].status)
    ensures var s := CalculateStats(tasks);
      (MotivationalMessageByCounts(s.progress, s.pending, s.completed) == PerfectMessage <==>
        |tasks| > 0 && forall i :: 0 <= i < |tasks| ==> IsCompleted(tasks[i]))
    ensures var s := CalculateStats(tasks);
      MotivationalMessageByCounts(s.progress, s.pending, s.completed) == PerfectMessage ==>
        MotivationalMessage(s.progress, s.pending, s.completed) == PerfectMessage
  {
    var s := CalculateStats(tasks);
    TotalIsCompletedPlusPending(tasks);
    if |tasks| > 0 && forall i :: 0 <= i < |tasks| ==> IsCompleted(tasks[i]) {
      CountAll(tasks, IsCompleted);
    }
    if |tasks| > 0 && s.completed == |tasks| {
      ProgressExtremes(tasks);
      AllCounted(tasks, IsCompleted);
    }
  }

  /** A count equal to the length means every element satisfies the test. */
  lemma {:induction false} AllCounted(s: seq<Task>, p: Task -> bool)
    requires Count(s, p) == |s|
    ensures forall i :: 0 <= i < |s| ==> p(s[i])
  {
    if s != [] {
      assert Count(s[1..], p) <= |s[1..]|;
      AllCounted(s[1..], p);
      assert forall i :: 1 <= i < |s| ==> s[i] == s[1..][i - 1];
    }
  }
}

=== FILE: storage.dfy ===
/**
 * The browser-side task cache (frontend/storage.js) over an abstract
 * key-value store. JSON text is abstracted: what sits under a key is either a
 * serialised task list (reading it back gives the same list), the empty
 * string, text that does not parse, or text that parses to something other
 * than an array. Whether the browser accepts a write (the storage quota) is a
 * parameter `fits`.
 */
module Storage {
  import opened Wrappers
  import opened Seqs
  import opened Tasks

  const StorageKey: string := "tasktracker_tasks"

  /** The stored text under a key, as far as the cache can tell it apart. */
  datatype Slot = Saved(tasks: seq<Task>) | Blank | Unparseable | NonArray

  type Store = map<string, Slot>

  /** What `getTasks` returns: a task list, or a parsed value that is not an
      array (`JSON.parse("null")`, say), which later array calls reject. */
  datatype Read = Tasks(tasks: seq<Task>) | NotAList

  /** Result of a cache write: the new store and the boolean the call returns. */
  datatype Outcome = Outcome(store: Store, ok: bool)

  /** `getTasks()`: a missing key, the empty string or unparseable text read
      as the empty list. */
  function GetTasks(store: Store): (r: Read)
    ensures StorageKey !in store ==> r == Tasks([])
    ensures StorageKey in store && store[StorageKey].Saved? ==> r == Tasks(store[StorageKey].tasks)
    ensures StorageKey in store && (store[StorageKey].Blank? || store[StorageKey].Unparseable?) ==> r == Tasks([])
    ensures r == NotAList <==> StorageKey in store && store[StorageKey].NonArray?
  {
    if StorageKey !in store then Tasks([])
    else match store[StorageKey]
      case Saved(ts) => Tasks(ts)
      case Blank => Tasks([])
      case Unparseable => Tasks([])
      case NonArray => NotAList
  }

  /** `saveTasks(tasks)`: a write the browser refuses leaves the store as it
      was and answers false. */
  function SaveTasks(store: Store, tasks: seq<Task>, fits: seq<Task> -> bool): (o: Outcome)
    ensures o.ok == fits(tasks)
    ensures o.ok ==> o.store == store[StorageKey := Saved(tasks)]
    ensures !o.ok ==> o.store == store
  {
    if fits(tasks) then Outcome(store[StorageKey := Saved(tasks)], true) else Outcome(store, false)
  }

  /** `clearTasks()`. */
  function ClearTasks(store: Store): (o: Outcome)
    ensures o.ok && StorageKey !in o.store
    ensures forall k :: k != StorageKey ==> (k in o.store <==> k in store) && (k in store ==> o.store[k] == store[k])
  {
    Outcome(store - {StorageKey}, true)
  }

  /** Only the cache's own key is ever written. */
  ghost predicate OthersUnchanged(before: Store, after: Store) {
    forall k :: k != StorageKey ==> (k in after <==> k in before) && (k in before ==> after[k] == before[k])
  }

  /** `addTask(task)`: the stored list with the task appended. */
  function AddTask(store: Store, task: Task, fits: seq<Task> -> bool): (o: Outcome)
    ensures OthersUnchanged(store, o.store)
    ensures GetTasks(store).Tasks? ==> o.ok == fits(GetTasks(store).tasks + [task])
    ensures GetTasks(store) == NotAList ==> o == Outcome(store, false)
  {
    match GetTasks(store)
    case Tasks(ts) => SaveTasks(store, ts + [task], fits)
    case NotAList => Outcome(store, false)
  }

  /** The fields an update may carry; absent fields keep their value. */
  datatype Patch = Patch(id: Option<string>, title: Option<string>, status: Option<string>,
                         createdAt: Option<int>, updatedAt: Option<int>)

  /** `{ ...task, ...updates }`. */
  function Merge(t: Task, p: Patch): (r: Task)
    ensures r.title == (if p.title.Some? then p.title.value else t.title)
    ensures r.status == (if p.status.Some? then p.status.value else t.status)
    ensures p == Patch(None, None, None, None, None) ==> r == t
  {
    Task(if p.id.Some? then p.id.value else t.id,
         if p.title.Some? then p.title.value else t.title,
         if p.status.Some? then p.status.value else t.status,
         if p.createdAt.Some? then p.createdAt.value else t.createdAt,
         if p.updatedAt.Some? then p.updatedAt.value else t.updatedAt)
  }

  /** `updateTask(taskId, updates)`: the first stored task with the id gets the
      update; an absent id answers false without writing. */
  function UpdateTask(store: Store, id: string, p: Patch, fits: seq<Task> -> bool): (o: Outcome)
    ensures OthersUnchanged(store, o.store)
    ensures GetTasks(store).Tasks? && !HasId(GetTasks(store).tasks, id) ==> o == Outcome(store, false)
    ensures GetTasks(store).Tasks? && HasId(GetTasks(store).tasks, id) ==>
      var ts := GetTasks(store).tasks;
      var i := FindIndex(ts, id);
      0 <= i && o.ok == fits(ts[i := Merge(ts[i], p)])
    ensures GetTasks(store) == NotAList ==> o == Outcome(store, false)
  {
    match GetTasks(store)
    case Tasks(ts) =>
      var i := FindIndex(ts, id);
      if i != -1 then SaveTasks(store, ts[i := Merge(ts[i], p)], fits)
      else Outcome(store, false)
    case NotAList => Outcome(store, false)
  }

  /** `t => t._id !== taskId`. */
  function OtherId(id: string): Task -> bool {
    (t: Task) => t.id != id
  }

  /** `deleteTask(taskId)`: every stored task with the id is dropped. */
  function DeleteTask(store: Store, id: string, fits: seq<Task> -> bool): (o: Outcome)
    ensures OthersUnchanged(store, o.store)
    ensures GetTasks(store).Tasks? ==> o.ok == fits(Filter(GetTasks(store).tasks, OtherId(id)))
    ensures GetTasks(store) == NotAList ==> o == Outcome(store, false)
  {
    match GetTasks(store)
    case Tasks(ts) => SaveTasks(store, Filter(ts, OtherId(id)), fits)
    case NotAList => Outcome(store, false)
  }

  /** What was saved is what is read back. */
  lemma SaveThenGet(store: Store, tasks: seq<Task>, fits: seq<Task> -> bool)
    requires fits(tasks)
    ensures GetTasks(SaveTasks(store, tasks, fits).store) == Tasks(tasks)
  {
  }

  /** After clearing, the cache reads as empty. */
  lemma ClearThenGet(store: Store)
    ensures GetTasks(ClearTasks(store).store) == Tasks([])
  {
  }

  /** An add succeeds exactly when the longer list fits, and then leaves the
      old list followed by the new task. */
  lemma AddAppends(store: Store, task: Task, fits: seq<Task> -> bool)
    requires GetTasks(store).Tasks?
    ensures var o := AddTask(store, task, fits);
      var before := GetTasks(store).tasks;
      (o.ok <==> fits(before + [task])) &&
      (o.ok ==> GetTasks(o.store) == Tasks(before + [task])) &&
      (!o.ok ==> o.store == store)
  {
  }

  /** An update succeeds exactly when the id is stored and the updated list
      fits; it then changes the first task with the id and nothing else:
      same length, every other position as before. */
  lemma UpdateChangesFirstMatchOnly(store: Store, id: string, p: Patch, fits: seq<Task> -> bool)
    requires GetTasks(store).Tasks?
    ensures var o := UpdateTask(store, id, p, fits);
      var before := GetTasks(store).tasks;
      o.ok <==> (HasId(before, id) &&
                 var i := FindIndex(before, id); 0 <= i && fits(before[i := Merge(before[i], p)]))
    ensures var o := UpdateTask(store, id, p, fits);
      !o.ok ==> o.store == store
    ensures var o := UpdateTask(store, id, p, fits);
      var before := GetTasks(store).tasks;
      o.ok ==> (GetTasks(o.store).Tasks? &&
        var after := GetTasks(o.store).tasks;
        var i := FindIndex(before, id);
        |after| == |before| && 0 <= i && after[i] == Merge(before[i], p) &&
        (forall j :: 0 <= j < |before| && j != i ==> after[j] == before[j]) &&
        (forall j :: 0 <= j < i ==> before[j].id != id))
  {
  }

  /** A delete succeeds exactly when the shorter list fits, and then leaves,
      in their order, exactly the tasks with another id. */
  lemma DeleteRemovesEveryMatch(store: Store, id: string, fits: seq<Task> -> bool, t: Task)
    requires GetTasks(store).Tasks?
    ensures var o := DeleteTask(store, id, fits);
      (o.ok <==> fits(Filter(GetTasks(store).tasks, OtherId(id)))) && (!o.ok ==> o.store == store)
    ensures var o := DeleteTask(store, id, fits);
      var before := GetTasks(store).tasks;
      o.ok ==> (GetTasks(o.store).Tasks? &&
        var after := GetTasks(o.store).tasks;
        IsSubsequence(after, before) &&
        (t in after <==> t in before && t.id != id))
  {
    var before := GetTasks(store).tasks;
    FilterIsSubsequence(before, OtherId(id));
    FilterMembers(before, OtherId(id), t);
  }
}

=== FILE: tasks.dfy ===
/**
 * The one entity of the tracker: a task record as the server stores it and
 * the client holds it in memory. Timestamps are integers (milliseconds since
 * the epoch); `id` is the store-assigned identifier (`_id`).
 */
module Tasks {

  datatype Task = Task(id: string, title: string, status: string, createdAt: int, updatedAt: int)

  const Pending: string := "pending"
  const Completed: string := "completed"

  /** The two status values the schema admits. */
  predicate ValidStatus(s: string) {
    s == Pending || s == Completed
  }

  /** The other status; used by the client's toggle. */
  function Flip(current: string): (r: string)
    ensures ValidStatus(r)
    ensures current == Completed <==> r == Pending
  {
    if current == Completed then Pending else Completed
  }

  /** `tasks.findIndex(t => t._id === id)`, -1 when absent. */
  function FindIndex(tasks: seq<Task>, id: string): (r: int)
    ensures -1 <= r < |tasks|
    ensures r >= 0 ==> tasks[r].id == id && forall j :: 0 <= j < r ==> tasks[j].id != id
    ensures r == -1 <==> forall j :: 0 <= j < |tasks| ==> tasks[j].id != id
  {
    if tasks == [] then -1
    else if tasks[0].id == id then 0
    else
      var k := FindIndex(tasks[1..], id);
      if k == -1 then -1 else k + 1
  }

  predicate HasId(tasks: seq<Task>, id: string) {
    exists j :: 0 <= j < |tasks| && tasks[j].id == id
  }
}

=== FILE: text.dfy ===
/**
 * String operations of JavaScript that the task tracker relies on:
 * `trim`, ASCII case mapping, `includes`, `startsWith`, `split` on one
 * character, `join`, and number-to-string conversion.
 *
 * Strings are sequences of Unicode scalar values. `Trim` removes exactly the
 * code points ECMAScript classifies as WhiteSpace or LineTerminator; case
 * mapping only touches the ASCII letters.
 */
module Text {

  /** ECMAScript WhiteSpace and LineTerminator code points (what `trim` strips). */
  predicate IsSpace(c: char) {
    var n := c as int;
    || n == 0x09 || n == 0x0A || n == 0x0B || n == 0x0C || n == 0x0D || n == 0x20
    || n == 0xA0 || n == 0x1680 || (0x2000 <= n <= 0x200A)
    || n == 0x2028 || n == 0x2029 || n == 0x202F || n == 0x205F
    || n == 0x3000 || n == 0xFEFF
  }

  predicate AllSpace(s: string) {
    forall i :: 0 <= i < |s| ==> IsSpace(s[i])
  }

  /** `s` with its leading whitespace removed. */
  function TrimStart(s: string): string {
    if |s| > 0 && IsSpace(s[0]) then TrimStart(s[1..]) else s
  }

  /** `s` with its trailing whitespace removed. */
  function TrimEnd(s: string): string {
    if |s| > 0 && IsSpace(s[|s| - 1]) then TrimEnd(s[..|s| - 1]) else s
  }

  /** Only leading whitespace is removed, and all of it. */
  lemma TrimStartShape(s: string)
    ensures var r := TrimStart(s);
      && |r| <= |s| && r == s[|s| - |r|..]
      && AllSpace(s[..|s| - |r|])
      && (r == [] || !IsSpace(r[0]))
  {
    if |s| > 0 && IsSpace(s[0]) {
      TrimStartShape(s[1..]);
    }
  }

  /** Only trailing whitespace is removed, and all of it. */
  lemma TrimEndShape(s: string)
    ensures var r := TrimEnd(s);
      && |r| <= |s| && r == s[..|r|]
      && AllSpace(s[|r|..])
      && (r == [] || !IsSpace(r[|r| - 1]))
  {
    if |s| > 0 && IsSpace(s[|s| - 1]) {
      var p := s[..|s| - 1];
      TrimEndShape(p);
      var r := TrimEnd(p);
      assert s[|r|..] == p[|r|..] + [s[|s| - 1]];
      assert s[..|r|] == p[..|r|];
    }
  }

  /** JavaScript `String.prototype.trim`. */
  function Trim(s: string): string {
    TrimEnd(TrimStart(s))
  }

  /** The trimmed string is a contiguous piece of `s` with whitespace-free ends,
      and only whitespace was cut away on either side. */
  lemma TrimShape(s: string)
    ensures var r := Trim(s);
      && (exists k :: 0 <= k <= |s| - |r| && r == s[k..k + |r|] && AllSpace(s[..k]) && AllSpace(s[k + |r|..]))
      && (r == [] || (!IsSpace(r[0]) && !IsSpace(r[|r| - 1])))
  {
    var t := TrimStart(s);
    var r := TrimEnd(t);
    TrimStartShape(s);
    TrimEndShape(t);
    var k := |s| - |t|;
    assert s[k..] == t;
    assert r == s[k..k + |r|];
    assert s[k + |r|..] == t[|r|..];
  }

  lemma TrimIdempotent(s: string)
    ensures Trim(Trim(s)) == Trim(s)
  {
    var r := Trim(s);
    TrimShape(s);
    if r != [] {
      assert TrimStart(r) == r;
      assert TrimEnd(r) == r;
    }
  }

  /** Trimming only removes characters. */
  lemma TrimChars(s: string)
    ensures forall i :: 0 <= i < |Trim(s)| ==> Trim(s)[i] in s
  {
    var t := TrimStart(s);
    var r := TrimEnd(t);
    TrimStartShape(s);
    TrimEndShape(t);
    forall i | 0 <= i < |r|
      ensures r[i] in s
    {
      assert r[i] == t[i] == s[|s| - |t| + i];
    }
  }

  lemma TrimStartAllSpace(s: string)
    ensures TrimStart(s) == [] <==> AllSpace(s)
  {
    if |s| > 0 && IsSpace(s[0]) {
      TrimStartAllSpace(s[1..]);
      assert AllSpace(s) <==> AllSpace(s[1..]);
    }
  }

  /** A string trims to the empty string exactly when it is all whitespace. */
  lemma TrimEmptyIffAllSpace(s: string)
    ensures Trim(s) == [] <==> AllSpace(s)
  {
    TrimStartAllSpace(s);
    var t := TrimStart(s);
    TrimStartShape(s);
    TrimEndShape(t);
    if Trim(s) == [] {
      assert AllSpace(t[0..]);
      assert s == s[..|s| - |t|] + t;
    }
  }

  /** ASCII lower-casing of one character. */
  function LowerChar(c: char): char {
    if 'A' <= c <= 'Z' then (c as int - 'A' as int + 'a' as int) as char else c
  }

  /** ASCII upper-casing of one character. */
  function UpperChar(c: char): char {
    if 'a' <= c <= 'z' then (c as int - 'a' as int + 'A' as int) as char else c
  }

  /** `toLowerCase` restricted to ASCII letters. */
  function Lower(s: string): (r: string)
    ensures |r| == |s|
    ensures forall i :: 0 <= i < |s| ==> r[i] == LowerChar(s[i])
  {
    if s == [] then [] else [LowerChar(s[0])] + Lower(s[1..])
  }

  /** `toUpperCase` restricted to ASCII letters. */
  function Upper(s: string): (r: string)
    ensures |r| == |s|
    ensures forall i :: 0 <= i < |s| ==> r[i] == UpperChar(s[i])
  {
    if s == [] then [] else [UpperChar(s[0])] + Upper(s[1..])
  }

  lemma LowerIdempotent(s: string)
    ensures Lower(Lower(s)) == Lower(s)
  {
  }

  lemma LowerAppend(a: string, b: string)
    ensures Lower(a + b) == Lower(a) + Lower(b)
  {
  }

  lemma LowerSlice(s: string, i: int, j: int)
    requires 0 <= i <= j <= |s|
    ensures Lower(s[i..j]) == Lower(s)[i..j]
  {
  }

  /** Case mapping does not touch whitespace, so trimming and lower-casing commute. */
  lemma TrimLowerCommute(s: string)
    ensures Trim(Lower(s)) == Lower(Trim(s))
    decreases |s|
  {
    var l := Lower(s);
    var t := TrimStart(s);
    var tl := TrimStart(l);
    TrimStartLower(s);
    TrimEndLower(t);
  }

  lemma LowerCharSpace(c: char)
    ensures IsSpace(LowerChar(c)) == IsSpace(c)
  {
  }

  lemma TrimStartLower(s: string)
    ensures TrimStart(Lower(s)) == Lower(TrimStart(s))
    decreases |s|
  {
    if |s| > 0 {
      assert Lower(s)[1..] == Lower(s[1..]);
      LowerCharSpace(s[0]);
      if IsSpace(s[0]) {
        TrimStartLower(s[1..]);
      }
    }
  }

  lemma TrimEndLower(s: string)
    ensures TrimEnd(Lower(s)) == Lower(TrimEnd(s))
    decreases |s|
  {
    if |s| > 0 {
      assert Lower(s)[..|s| - 1] == Lower(s[..|s| - 1]);
      LowerCharSpace(s[|s| - 1]);
      if IsSpace(s[|s| - 1]) {
        TrimEndLower(s[..|s| - 1]);
      }
    }
  }

  predicate IsAsciiAlnum(c: char) {
    ('a' <= c <= 'z') || ('A' <= c <= 'Z') || ('0' <= c <= '9')
  }

  predicate HasAsciiAlnum(s: string) {
    exists i :: 0 <= i < |s| && IsAsciiAlnum(s[i])
  }

  /** JavaScript `startsWith`. */
  predicate StartsWith(s: string, p: string) {
    |p| <= |s| && s[..|p|] == p
  }

  /** JavaScript `includes` on strings: `t` occurs in `s` as a contiguous piece. */
  predicate Contains(s: string, t: string)
    decreases |s|
  {
    StartsWith(s, t) || (|s| > 0 && Contains(s[1..], t))
  }

  /** `s.replace(/c/g, rep)`: every occurrence of `c` replaced by `rep`. */
  function ReplaceAll(s: string, c: char, rep: string): (r: string)
    ensures c !in rep ==> c !in r
  {
    if s == [] then [] else (if s[0] == c then rep else [s[0]]) + ReplaceAll(s[1..], c, rep)
  }

  lemma ReplaceAllAppend(a: string, b: string, c: char, rep: string)
    ensures ReplaceAll(a + b, c, rep) == ReplaceAll(a, c, rep) + ReplaceAll(b, c, rep)
  {
    if a != [] {
      assert (a + b)[0] == a[0];
      assert (a + b)[1..] == a[1..] + b;
      ReplaceAllAppend(a[1..], b, c, rep);
    } else {
      assert a + b == b;
    }
  }

  lemma ReplaceAllSingle(c: char, x: char, rep: string)
    ensures ReplaceAll([c], x, rep) == if c == x then rep else [c]
  {
    assert [c][1..] == [];
  }

  lemma ReplaceAllAbsent(s: string, c: char, rep: string)
    requires c !in s
    ensures ReplaceAll(s, c, rep) == s
  {
  }

  lemma TrimStartSpacePrefix(p: string, x: string)
    requires AllSpace(p)
    ensures TrimStart(p + x) == TrimStart(x)
  {
    if p != [] {
      assert (p + x)[0] == p[0];
      assert (p + x)[1..] == p[1..] + x;
      TrimStartSpacePrefix(p[1..], x);
    } else {
      assert p + x == x;
    }
  }

  lemma TrimEndSpaceSuffix(x: string, q: string)
    requires AllSpace(q)
    ensures TrimEnd(x + q) == TrimEnd(x)
  {
    if q != [] {
      assert (x + q)[|x + q| - 1] == q[|q| - 1];
      assert (x + q)[..|x + q| - 1] == x + q[..|q| - 1];
      TrimEndSpaceSuffix(x, q[..|q| - 1]);
    } else {
      assert x + q == x;
    }
  }

  lemma TrimStartAppend(a: string, q: string)
    requires !AllSpace(a)
    ensures TrimStart(a + q) == TrimStart(a) + q
  {
    assert a != [];
    assert (a + q)[1..] == a[1..] + q;
    if IsSpace(a[0]) {
      TrimStartAppend(a[1..], q);
    }
  }

  /** Surrounding whitespace does not change the trimmed string. */
  lemma {:induction false} TrimPadded(p: string, a: string, q: string)
    requires AllSpace(p) && AllSpace(q)
    ensures Trim(p + a + q) == Trim(a)
  {
    assert p + a + q == p + (a + q);
    TrimStartSpacePrefix(p, a + q);
    if AllSpace(a) {
      TrimStartAllSpace(a);
      TrimStartAllSpace(a + q);
    } else {
      TrimStartAppend(a, q);
      TrimEndSpaceSuffix(TrimStart(a), q);
    }
  }

  /** Decimal digits of a natural number, as `String(n)` prints it. */
  function ShowNat(n: nat): (r: string)
    ensures |r| >= 1
    ensures forall i :: 0 <= i < |r| ==> '0' <= r[i] <= '9'
  {
    if n < 10 then [('0' as int + n) as char]
    else ShowNat(n / 10) + [('0' as int + n % 10) as char]
  }

  /** A number prints as one digit exactly when it is below ten. */
  lemma ShowNatShort(n: nat)
    ensures |ShowNat(n)| == 1 <==> n < 10
  {
    if n >= 10 {
      assert |ShowNat(n)| == |ShowNat(n / 10)| + 1;
    }
  }

  /** Different numbers print differently. */
  lemma {:induction false} ShowNatInjective(a: nat, b: nat)
    requires ShowNat(a) == ShowNat(b)
    ensures a == b
  {
    ShowNatShort(a);
    ShowNatShort(b);
    if a < 10 {
      assert ShowNat(a)[0] == ShowNat(b)[0];
    } else {
      var pa, pb := ShowNat(a / 10), ShowNat(b / 10);
      assert ShowNat(a) == pa + [('0' as int + a % 10) as char];
      assert ShowNat(b) == pb + [('0' as int + b % 10) as char];
      assert |pa| == |pb|;
      assert pa == ShowNat(a)[..|pa|] == ShowNat(b)[..|pb|] == pb;
      ShowNatInjective(a / 10, b / 10);
      assert ShowNat(a)[|pa|] == ShowNat(b)[|pb|];
    }
  }

  /** The characters of a text with a space spliced in after `x`. */
  lemma SpacedAt(x: string, y: string, k: int)
    ensures 0 <= k < |x| ==> (x + " " + y)[k] == x[k]
    ensures (x + " " + y)[|x|] == ' '
  {
  }

  /** A run of digits followed by a space can be read back: the digits end
      at the first space. */
  lemma DigitsBeforeSpace(x: string, y: string, x': string, y': string)
    requires forall i :: 0 <= i < |x| ==> '0' <= x[i] <= '9'
    requires forall i :: 0 <= i < |x'| ==> '0' <= x'[i] <= '9'
    requires x + " " + y == x' + " " + y'
    ensures x == x'
  {
    SpacedAt(x, y, |x'|);
    SpacedAt(x', y', |x|);
    assert |x| == |x'|;
    assert x == (x + " " + y)[..|x|] == x';
  }

  /** Template-literal interpolation of an integer. */
  function Show(n: int): string {
    if n < 0 then "-" + ShowNat(-n) else ShowNat(n)
  }

  /** `parts.join(sep)`. */
  function Join(parts: seq<string>, sep: string): string {
    if |parts| == 0 then ""
    else if |parts| == 1 then parts[0]
    else parts[0] + sep + Join(parts[1..], sep)
  }

  /** `s.split(c)` for a one-character separator. */
  function Split(s: string, c: char): (r: seq<string>)
    ensures |r| >= 1
  {
    if s == [] then [""]
    else if s[0] == c then [""] + Split(s[1..], c)
    else
      var rest := Split(s[1..], c);
      [[s[0]] + rest[0]] + rest[1..]
  }

  lemma SplitNoSeparator(p: string, c: char)
    requires c !in p
    ensures Split(p, c) == [p]
  {
    if p != [] {
      SplitNoSeparator(p[1..], c);
      assert [p[0]] + p[1..] == p;
    }
  }

  lemma SplitAtSeparator(p: string, c: char, rest: string)
    requires c !in p
    ensures Split(p + [c] + rest, c) == [p] + Split(rest, c)
  {
    if p == [] {
      assert p + [c] + rest == [c] + rest;
      assert ([c] + rest)[1..] == rest;
    } else {
      var s := p + [c] + rest;
      assert s[0] == p[0];
      assert s[1..] == p[1..] + [c] + rest;
      SplitAtSeparator(p[1..], c, rest);
      assert [p[0]] + p[1..] == p;
    }
  }

  /** Splitting undoes joining when no part contains the separator. */
  lemma {:induction false} SplitJoin(parts: seq<string>, c: char)
    requires |parts| >= 1
    requires forall i :: 0 <= i < |parts| ==> c !in parts[i]
    ensures Split(Join(parts, [c]), c) == parts
  {
    if |parts| == 1 {
      SplitNoSeparator(parts[0], c);
    } else {
      SplitJoin(parts[1..], c);
      SplitAtSeparator(parts[0], c, Join(parts[1..], [c]));
      assert [parts[0]] + parts[1..] == parts;
    }
  }
}

=== FILE: validator.dfy ===
/**
 * The client-side validator (frontend/validator.js): title and status
 * validation, case-insensitive duplicate detection and HTML escaping.
 */
module Validator {
  import opened Wrappers
  import opened Text
  import opened Tasks
  import opened Json

  /** The five title errors, in the order the checks run. */
  datatype TitleError = Required | Blank | TooShort | TooLong | NoAlphanumeric

  function TitleMessage(e: TitleError): string {
    match e
    case Required => "Task title is required"
    case Blank => "Task title cannot be empty or contain only spaces"
    case TooShort => "Task title must be at least 3 characters long"
    case TooLong => "Task title cannot exceed 200 characters"
    case NoAlphanumeric => "Task title must contain at least one letter or number"
  }

  const MinTitleLength: nat := 3
  const MaxTitleLength: nat := 200

  /** `{isValid, errors, trimmedTitle}` of a title check. */
  datatype TitleCheck = TitleOk(trimmedTitle: string) | TitleRejected(error: TitleError) {
    predicate IsValid() { TitleOk? }

    /** The `errors` array: empty on success, exactly one message on failure. */
    function Errors(): (es: seq<string>)
      ensures |es| == (if TitleOk? then 0 else 1)
    {
      match this
      case TitleOk(_) => []
      case TitleRejected(e) => [TitleMessage(e)]
    }
  }

  /** JavaScript truthiness of a string-or-undefined title. */
  predicate Falsy(title: Option<string>) {
    title == None || title == Some("")
  }

  /** A title is acceptable when, once trimmed, it has 3 to 200 characters
      and at least one ASCII letter or digit. */
  predicate AcceptableTitle(t: string) {
    MinTitleLength <= |Trim(t)| <= MaxTitleLength && HasAsciiAlnum(Trim(t))
  }

  /** `validator.validateTaskTitle(title)`. The checks run in a fixed order and
      the first failing one decides the single error reported. */
  function ValidateTaskTitle(title: Option<string>): (r: TitleCheck)
    ensures r.TitleOk? <==> title.Some? && AcceptableTitle(title.value)
    ensures r.TitleOk? ==> r.trimmedTitle == Trim(title.value)
  {
    if Falsy(title) then TitleRejected(Required)
    else
      var t := Trim(title.value);
      if |t| == 0 then TitleRejected(Blank)
      else if |t| < MinTitleLength then TitleRejected(TooShort)
      else if |t| > MaxTitleLength then TitleRejected(TooLong)
      else if MatchesSpecialCharOnly(t) then TitleRejected(NoAlphanumeric)
      else TitleOk(t)
  }

  /** Which error a rejected title gets: falsy input is "required" (so the
      empty string is never reported as blank), then blank, too short, too
      long, and finally no ASCII letter or digit. */
  lemma TitleErrorOrder(title: Option<string>)
    ensures ValidateTaskTitle(title) == TitleRejected(Required) <==> Falsy(title)
    ensures ValidateTaskTitle(title) == TitleRejected(Blank) <==> !Falsy(title) && Trim(title.value) == []
    ensures ValidateTaskTitle(title) == TitleRejected(TooShort) <==> !Falsy(title) && 0 < |Trim(title.value)| < MinTitleLength
    ensures ValidateTaskTitle(title) == TitleRejected(TooLong) <==> !Falsy(title) && |Trim(title.value)| > MaxTitleLength
    ensures ValidateTaskTitle(title) == TitleRejected(NoAlphanumeric) <==>
      !Falsy(title) && MinTitleLength <= |Trim(title.value)| <= MaxTitleLength && !HasAsciiAlnum(Trim(title.value))
  {
  }

  /** `/^[^a-zA-Z0-9]+$/.test(s)`: non-empty and without any ASCII letter or digit. */
  predicate MatchesSpecialCharOnly(s: string) {
    |s| > 0 && forall i :: 0 <= i < |s| ==> !IsAsciiAlnum(s[i])
  }

  /** A title made only of non-ASCII characters (say, "日本語") is rejected
      for lacking an ASCII letter or digit, even though it has letters. */
  lemma NonAsciiLettersRejected(title: string)
    requires MinTitleLength <= |Trim(title)| <= MaxTitleLength
    requires forall i :: 0 <= i < |title| ==> title[i] as int >= 128
    ensures ValidateTaskTitle(Some(title)) == TitleRejected(NoAlphanumeric)
  {
    var t := Trim(title);
    TrimChars(title);
    assert !HasAsciiAlnum(t) by {
      forall i | 0 <= i < |t|
        ensures !IsAsciiAlnum(t[i])
      {
        assert t[i] in title;
      }
    }
    TitleErrorOrder(Some(title));
  }

  /** Re-validating an accepted title accepts it unchanged: the trimmed title
      the check hands out is itself valid and already trimmed. */
  lemma {:induction false} ValidatedTitleIsFixpoint(title: Option<string>)
    requires ValidateTaskTitle(title).TitleOk?
    ensures ValidateTaskTitle(Some(ValidateTaskTitle(title).trimmedTitle)) == ValidateTaskTitle(title)
  {
    var t := Trim(title.value);
    TrimIdempotent(title.value);
    assert ValidateTaskTitle(title) == TitleOk(t);
    assert AcceptableTitle(t);
    var again := ValidateTaskTitle(Some(t));
    assert again.TitleOk? && again.trimmedTitle == t;
  }

  /** `{isValid, errors}` of a status check. */
  datatype StatusCheck = StatusOk | StatusRejected(message: string)

  const StatusRequiredMessage: string := "Status is required"
  const InvalidStatusMessage: string := "Invalid status. Must be one of: pending, completed"

  /** `validator.validateTaskStatus(status)`. */
  function ValidateTaskStatus(status: Option<string>): (r: StatusCheck)
    ensures r == StatusOk <==> status.Some? && ValidStatus(status.value)
    ensures r == StatusRejected(StatusRequiredMessage) <==> Falsy(status)
    ensures r == StatusRejected(InvalidStatusMessage) <==> !Falsy(status) && !ValidStatus(status.value)
  {
    if Falsy(status) then StatusRejected(StatusRequiredMessage)
    else if status.value in [Pending, Completed] then StatusOk
    else StatusRejected(InvalidStatusMessage)
  }

  /** The comparison key of duplicate detection: trimmed and lower-cased. */
  function TitleKey(title: string): string {
    Lower(Trim(title))
  }

  /** Some task in `tasks` has the same comparison key as `title`. */
  function HasDuplicate(title: string, tasks: seq<Task>): (r: bool)
    ensures r <==> exists i :: 0 <= i < |tasks| && TitleKey(tasks[i].title) == TitleKey(title)
  {
    if tasks == [] then false
    else TitleKey(tasks[0].title) == TitleKey(title) || HasDuplicate(title, tasks[1..])
  }

  /** `{isDuplicate, message?}` of a duplicate check. */
  datatype DuplicateCheck = DuplicateCheck(isDuplicate: bool, message: Option<string>)

  const DuplicateMessage: string := "A task with this title already exists"

  /** `validator.checkDuplicateTitle(title, existingTasks)`. */
  function CheckDuplicateTitle(title: string, existing: seq<Task>): (r: DuplicateCheck)
    ensures r.isDuplicate <==> exists i :: 0 <= i < |existing| && TitleKey(existing[i].title) == TitleKey(title)
    ensures r.message == (if r.isDuplicate then Some(DuplicateMessage) else None)
  {
    if HasDuplicate(title, existing) then DuplicateCheck(true, Some(DuplicateMessage))
    else DuplicateCheck(false, None)
  }

  /** Changing the case of the input or padding it with whitespace does not
      change the verdict. */
  lemma {:induction false} DuplicateIgnoresCaseAndPadding(title: string, p: string, q: string, existing: seq<Task>)
    requires AllSpace(p) && AllSpace(q)
    ensures CheckDuplicateTitle(p + Lower(title) + q, existing) == CheckDuplicateTitle(title, existing)
  {
    TrimPadded(p, Lower(title), q);
    TrimLowerCommute(title);
    LowerIdempotent(Trim(title));
    assert TitleKey(p + Lower(title) + q) == TitleKey(title);
  }

  /** The HTML entity `sanitizeInput` writes for one character. */
  function EntityFor(c: char): string {
    if c == '<' then "&lt;"
    else if c == '>' then "&gt;"
    else if c == '"' then "&quot;"
    else if c == '\'' then "&#x27;"
    else if c == '/' then "&#x2F;"
    else [c]
  }

  predicate IsHtmlSpecial(c: char) {
    c == '<' || c == '>' || c == '"' || c == '\'' || c == '/'
  }

  /** Character-by-character escaping: the reference meaning of `sanitizeInput`. */
  function EscapeHtml(s: string): (r: string)
    ensures forall i :: 0 <= i < |r| ==> !IsHtmlSpecial(r[i])
  {
    if s == [] then [] else EntityFor(s[0]) + EscapeHtml(s[1..])
  }

  /** The five chained `replace` calls of the source, applied in order. */
  function ReplaceChain(s: string): string {
    ReplaceAll(ReplaceAll(ReplaceAll(ReplaceAll(ReplaceAll(s, '<', "&lt;"), '>', "&gt;"), '"', "&quot;"), '\'', "&#x27;"), '/', "&#x2F;")
  }

  /** The chained replacements never rewrite each other's output, so they are
      the character-by-character escaping. */
  lemma {:induction false} ReplaceChainEscapes(s: string)
    ensures ReplaceChain(s) == EscapeHtml(s)
  {
    if s != [] {
      var c := s[0];
      var rest := s[1..];
      assert s == [c] + rest;
      ReplaceChainAppend([c], rest);
      ReplaceChainEscapes(rest);
      ReplaceChainChar(c);
    }
  }

  lemma ReplaceChainChar(c: char)
    ensures ReplaceChain([c]) == EntityFor(c)
  {
    ReplaceAllSingle(c, '<', "&lt;");
    if c == '<' {
      LtUntouched();
    } else {
      ReplaceAllSingle(c, '>', "&gt;");
      if c == '>' {
        GtUntouched();
      } else {
        ReplaceAllSingle(c, '"', "&quot;");
        if c == '"' {
          QuotUntouched();
        } else {
          ReplaceAllSingle(c, '\'', "&#x27;");
          if c == '\'' {
            ReplaceAllAbsent("&#x27;", '/', "&#x2F;");
          } else {
            ReplaceAllSingle(c, '/', "&#x2F;");
          }
        }
      }
    }
  }

  lemma LtUntouched()
    ensures ReplaceAll(ReplaceAll(ReplaceAll(ReplaceAll("&lt;", '>', "&gt;"), '"', "&quot;"), '\'', "&#x27;"), '/', "&#x2F;") == "&lt;"
  {
    SafeUntouched("&lt;");
  }

  lemma GtUntouched()
    ensures ReplaceAll(ReplaceAll(ReplaceAll("&gt;", '"', "&quot;"), '\'', "&#x27;"), '/', "&#x2F;") == "&gt;"
  {
    SafeUntouched("&gt;");
  }

  lemma QuotUntouched()
    ensures ReplaceAll(ReplaceAll("&quot;", '\'', "&#x27;"), '/', "&#x2F;") == "&quot;"
  {
    SafeUntouched("&quot;");
  }

  /** A string without any of the five special characters passes every
      replacement of the chain unchanged. */
  lemma SafeUntouched(s: string)
    requires forall i :: 0 <= i < |s| ==> !IsHtmlSpecial(s[i])
    ensures ReplaceAll(s, '<', "&lt;") == s
    ensures ReplaceAll(s, '>', "&gt;") == s
    ensures ReplaceAll(s, '"', "&quot;") == s
    ensures ReplaceAll(s, '\'', "&#x27;") == s
    ensures ReplaceAll(s, '/', "&#x2F;") == s
  {
    ReplaceAllAbsent(s, '<', "&lt;");
    ReplaceAllAbsent(s, '>', "&gt;");
    ReplaceAllAbsent(s, '"', "&quot;");
    ReplaceAllAbsent(s, '\'', "&#x27;");
    ReplaceAllAbsent(s, '/', "&#x2F;");
  }

  lemma ReplaceChainAppend(a: string, b: string)
    ensures ReplaceChain(a + b) == ReplaceChain(a) + ReplaceChain(b)
  {
    var a1, b1 := ReplaceAll(a, '<', "&lt;"), ReplaceAll(b, '<', "&lt;");
    ReplaceAllAppend(a, b, '<', "&lt;");
    var a2, b2 := ReplaceAll(a1, '>', "&gt;"), ReplaceAll(b1, '>', "&gt;");
    ReplaceAllAppend(a1, b1, '>', "&gt;");
    var a3, b3 := ReplaceAll(a2, '"', "&quot;"), ReplaceAll(b2, '"', "&quot;");
    ReplaceAllAppend(a2, b2, '"', "&quot;");
    var a4, b4 := ReplaceAll(a3, '\'', "&#x27;"), ReplaceAll(b3, '\'', "&#x27;");
    ReplaceAllAppend(a3, b3, '\'', "&#x27;");
    ReplaceAllAppend(a4, b4, '/', "&#x2F;");
  }

  /** `validator.sanitizeInput(input)`: non-strings pass through unchanged;
      strings have `< > " ' /` replaced by entities and keep every other
      character, `&` included. */
  function SanitizeInput(input: Json): (r: Json)
    ensures !input.JStr? ==> r == input
    ensures input.JStr? ==> r == JStr(EscapeHtml(input.s))
  {
    match input
    case JStr(s) =>
      ReplaceChainEscapes(s);
      JStr(ReplaceChain(s))
    case _ => input
  }
}

=== FILE: wrappers.dfy ===
/** Failure-carrying result types shared by the model. */
module Wrappers {

  /** A value that may be absent (`undefined`/`null` in the source). */
  datatype Option<+T> = None | Some(value: T)

  /** What a remote call (an HTTP request through the client's fetch wrapper)
      came back with: the payload, or a rejected promise with its message. */
  datatype Remote<+T> = Ok(value: T) | Failed(message: string)

  /** What a database query answered: its result, a schema validation error
      (`error.name === 'ValidationError'`, with the per-field messages), or
      any other thrown store error. */
  datatype Answer<+T> = Answer(value: T) | SchemaError(errors: seq<string>) | StoreError(message: string)
}
